=== FILE: README.md ===
# 3DGS-filtering PLY tools, modelled in Dafny

The repository is a set of Python scripts that edit point clouds stored as
PLY files. They are used to filter 3D Gaussian Splatting scenes. Under the
file handling, each script is a pure transformation: it maps the header (a
list of lines) and the data rows (lines of tokens, or records of values) to
a new header and new rows. This project models those transformations as
pure Dafny functions over `seq<string>`, `seq<real>` and `seq<byte>`, and
proves what each script promises about its output.

The modules follow the repository's structure:

- `Results`: Python exceptions as an error result.
- `Text`: `str.split`, `strip`, `replace`, `int()` and its rendering, and
  Python slicing.
- `Numeric`: truncation, `np.min`/`np.max`, table columns, and the float
  parser and renderer the model takes as parameters.
- `LittleEndian`: fixed-width little-endian bytes, and int32 two's complement.
- `PlyHeader`: the header scan shared by the scripts:
  - the `end_header` sentinel;
  - the `element vertex` count;
  - property types;
  - rewriting the vertex line.
- `Codec`: `ascii_to_binary.py` / `binary_to_ascii.py` and their copies
  `ascii201.py` / `012ascii.py`. It covers the format-line rewrite, record
  packing at 4/1/4/0 bytes per `float`/`uchar`/`int`/other, and record
  unpacking.
- `AttributeSplit`, `Grid` (voxelization and devoxelization), `Dedup`,
  `Fusion`: the ID-keyed split, quantize, deduplicate, dequantize and fuse
  pipeline.
- `AddId`, `SelectXyz`, `DeleteId`, `DeletePoints`, `ZeroNormals`,
  `AddNormals`, `DeleteRow`: the single-purpose row and column editors.
- `Denoise` and `Sorting`: the ID bookkeeping around the SOR, ROR and
  DBSCAN denoisers. `Compress`: the same bookkeeping around the learned
  compressor in `repc4.py`.
- `PseudoColor`: header detection, field-name extraction and `[0, 1]`
  normalization in `pseudo_color_projection.py`.

Floats stay opaque where the scripts only move them:
- a float token is read by a parser passed in as a parameter;
- a `float` field is an opaque 32-bit pattern;
- a rendered float is produced by a renderer passed in as a parameter.

Where the scripts compute with floats (grid quantization, normalization),
the model uses `real`. The libraries the scripts call (open3d's filters,
DBSCAN, the k-d tree, the compression network) are modelled by what they
return: inlier indices, cluster labels, distance rankings and
nearest-neighbour indices are parameters.

## Model

| member | source | states |
|---|---|---|
| PlyHeader.SplitAtSentinel | Denoise/ascii_to_binary.py:22-30 | the header is the lines through the first line satisfying the sentinel test and no earlier line satisfies it; without a sentinel every line is header and `dataStart` is 0, so a caller that slices its data from `dataStart` reads it from line 0 |
| PlyHeader.SentinelFound | Denoise/ascii_to_binary.py:28-30 | the header loop `break`s exactly when some line starts with `end_header` |
| PlyHeader.ScanLine | Denoise/ascii_to_binary.py:24-27 | one header line fails the scan exactly when it is an `element vertex` line whose last token is not an integer, or a `property` line with fewer than two tokens |
| PlyHeader.ScanFromOk | Denoise/ascii_to_binary.py:22-30 | the scan succeeds exactly when every header line is acceptable on its own |
| PlyHeader.ScanFromSpec | Denoise/ascii_to_binary.py:22-30 | the scanned count is the last declared vertex count (the initial one without a declaration) and the types are the property lines' second tokens in header order |
| PlyHeader.ScanSchemaSpec | Denoise/ascii_to_binary.py:19-30 | from an empty schema, the scan accepts exactly the scannable headers and yields the last declared count, else 0, and the property types in order |
| PlyHeader.LastDeclarationWins | Denoise/binary_to_ascii.py:27-33 | when `element vertex` is declared more than once, the count is the last declaration's |
| PlyHeader.NoVertexLineCount | Denoise/binary_to_ascii.py:25 | the reference count is 0 for a header without an `element vertex` line |
| Codec.ParseToken | Denoise/ascii_to_binary.py:38 | a token of type `float` goes through `float()` and yields a float pattern; any other type goes through `int()`, so `1.0` under `int` or `uchar` is an error |
| Codec.ParseRow | Denoise/ascii_to_binary.py:38 | tokens are zipped with the property types: the row has min(tokens, types) values, value i is token i read as type i, and the row fails exactly when one of those tokens fails |
| Codec.ParseRows | Denoise/ascii_to_binary.py:37-38 | one parsed row per data line, in order; the lot fails exactly when some line's row fails |
| Codec.EncodeValue | Denoise/ascii_to_binary.py:47-54 | a packed value is 4 bytes for `float`, 1 for `uchar`, 4 for `int`, 0 for any other type; packing fails exactly for a `uchar` outside 0..255 or an `int` outside the signed 32-bit range |
| Codec.EncodeRecord | Denoise/ascii_to_binary.py:47-54 | a record packs to the sum of the widths of the types its values are zipped with, and it fails exactly when one of its values does not fit its `struct` format |
| Codec.EncodeBody | Denoise/ascii_to_binary.py:46-54 | the data section packs exactly when every value of every row fits its `struct` format |
| Codec.DecodeValue | Denoise/binary_to_ascii.py:47-53 | reading a value needs its type's width in bytes, consumes exactly that many, and yields one value for a supported type and none for an unknown one |
| Codec.DecodeRecord | Denoise/binary_to_ascii.py:47-53 | a record needs and consumes exactly the sum of its property widths |
| Codec.DecodeRows | Denoise/binary_to_ascii.py:45-53 | exactly `n` records are read: the read succeeds exactly when the body holds `n` times the record width, and bytes after them are never looked at |
| Codec.KeepSupported | Denoise/binary_to_ascii.py:47-54 | the values a decoder yields from a record: those of supported types, no more than there were |
| Codec.ValueRoundTrip | Denoise/binary_to_ascii.py:47-53 | decoding a packed value gives that value back (nothing for an unknown type) and leaves the following bytes untouched |
| Codec.ValueBytesRoundTrip | Denoise/ascii_to_binary.py:47-54 | re-packing a decoded value of a supported type reproduces the bytes it was read from |
| Codec.RecordRoundTrip | Denoise/binary_to_ascii.py:45-53 | a full-width packed record decodes to its supported values and the decoder stops exactly at its end |
| Codec.RecordBytesRoundTrip | Denoise/ascii_to_binary.py:47-54 | re-packing a decoded record reproduces exactly the bytes the decoder consumed |
| Codec.BodyRoundTrip | Denoise/binary_to_ascii.py:45-55 | decoding `|rows|` records of a packed body, whatever bytes follow it, gives back every row's supported values |
| Codec.PackRows | Denoise/ascii_to_binary.py:36-54 | packing succeeds exactly when every data line parses and every parsed value fits its `struct` format, so a `uchar` outside 0..255 or an `int` outside the 32-bit range fails it |
| Codec.AsciiToBinary | Denoise/ascii_to_binary.py:14-54 | the conversion succeeds exactly when the header through the first `end_header` line scans, the `vertex_count` lines after it parse against the property types, and every value fits its `struct` format; it then writes that header with its format line rewritten |
| Codec.FormatLineToBinary | Denoise/ascii_to_binary.py:33 | `format ascii <v>` becomes `format binary_little_endian <v>` |
| Codec.FormatLineToAscii | Denoise/binary_to_ascii.py:41 | the reverse rewrite turns `format binary_little_endian <v>` back into `format ascii <v>` |
| Codec.PlainLineRoundTrip | Contrast/012ascii.py:39-41 | a header line is restored by the two rewrites; only the format line is changed by the first |
| Codec.HeaderRoundTrip | Denoise/ascii_to_binary.py:33 | the reverse rewrite undoes the header rewrite, which changes only the format line |
| Codec.BinaryToAscii | Denoise/binary_to_ascii.py:14-55 | for any binary file: without an `end_header` line the read never ends; otherwise it succeeds exactly when the header scans, declares `format binary`, and the body holds `num_vertices` records; the output is every header line with its format rewritten, then exactly `num_vertices` lines, line k printing the k-th decoded record |
| Codec.ScanIgnoresPlainLines | Denoise/binary_to_ascii.py:27-33 | rewriting lines that declare nothing does not change the scanned schema |
| Codec.BinaryHeaderAccepted | Denoise/binary_to_ascii.py:17-36 | the header the ASCII converter writes still ends at its only `end_header` line, declares the same schema and contains `format binary`, so the binary reader accepts it |
| Codec.ReprintedRows | Denoise/binary_to_ascii.py:46-55 | the reference for the round trip's data lines: each ASCII row's supported values, rendered and space-joined |
| Codec.AsciiBinaryRoundTrip | Denoise/ascii_to_binary.py:14-54 | converting to binary and back gives the original header line for line, then one line per declared row, in order, holding that row's supported values |
| Codec.ReprintFromBinary | Denoise/binary_to_ascii.py:14-55 | the binary reader applied to the written header and packed rows prints the header back and the rows' supported values |
| AddId.VertexCountOk | Contrast/addIDtoascii.py:15-20 | the counting loop fails exactly when some `element vertex` line before `end_header` does not end in an integer |
| AddId.VertexCountLast | Contrast/addIDtoascii.py:16-17 | the last `element vertex` line before `end_header` decides the count |
| AddId.VertexCountNone | Contrast/addIDtoascii.py:14 | without an `element vertex` line the count stays 0 |
| AddId.VertexCountAgreesWithSchema | Contrast/addIDtoascii.py:15-20 | on headers the converters accept, this loop finds the same count as their schema scan |
| AddId.HeaderEnd | Contrast/addIDtoascii.py:13-20 | `header_end` is the index of the first line starting with `end_header`, no earlier line starts so, and it is 0 when there is none |
| AddId.AddIdToPly | Contrast/addIDtoascii.py:5-36 | the result is the header lines before `end_header`, then `property int id` and `end_header`, then the numbered `lines[header_end + 1 : header_end + 1 + vertex_count]`; it fails exactly when a vertex count does not parse |
| AddId.AddIdKeepsFirstLines | Contrast/addIDtoascii.py:35 | with a non-negative count n, exactly min(n, lines after `end_header`) lines are emitted; later lines are dropped |
| AddId.AddIdKeepsLines | Contrast/addIDtoascii.py:35-36 | emitted line k is the k-th line after `end_header`, stripped and numbered k+1 |
| AddId.NumberedLineTokens | Contrast/addIDtoascii.py:36 | a numbered line has the original tokens followed by the ID, which reads back as its last token |
| AddId.AddIdNumbersFromOne | Contrast/addIDtoascii.py:35-36 | the IDs of the emitted lines are 1, 2, 3, ... in order |
| AddNormals.InsertNormalSpec | Denoise/addnxyz.py:43-45 | a widened row holds its first three values, then three zeros, then every later value moved right by three, and dropping columns 3..5 gives the row back |
| AddNormals.InsertNormalColumns | Denoise/addnxyz.py:43-45 | the insertions succeed exactly on frames of at least three columns; the frame keeps its row count, gains three columns, holds zeros at 3..5 and gives each row back when they are dropped |
| AddNormals.AddNormalsHeaderAppend | Denoise/addnxyz.py:49-61 | the header loop treats every line on its own: the output for a concatenation is the concatenation of the outputs |
| AddNormals.AddNormalsHeaderLength | Denoise/addnxyz.py:49-61 | each `property` line containing `z` brings three more lines, every other line one |
| AddNormals.AddNormalsHeaderAt | Denoise/addnxyz.py:49-61 | input line i lands after the output of the lines before it: a vertex line declares the row count, a `z` property line is followed by `nx`, `ny`, `nz`, a line stripping to `end_header` becomes `end_header\n`, and any other line is copied |
| AddNormals.AddNormalsHeaderVertexLines | Denoise/addnxyz.py:50-51 | every `element vertex` line of the output declares the given row count |
| AddNormals.AddNormalColumns | Denoise/addnxyz.py:35-63 | succeeds exactly when the frame has at least three columns; every row gets the three zero columns `nx`, `ny`, `nz` at positions 3..5 and undoes to the input row; the header is the line-by-line rewrite `AddNormalsHeader` of the lines through the first `end_header` (each line placed as `AddNormals.AddNormalsHeaderAt` states), so it gains three lines per `z` property line and every vertex line declares the number of rows |
| AttributeSplit.AddUniqueId | Denoise/attributes_spilt.py:22-29 | every row keeps its values and gains a last column holding its 0-based row number |
| AttributeSplit.ResolveColumn | Denoise/attributes_spilt.py:42-43 | `iloc` accepts a column position in [-width, width), a negative one counting from the end; anything else is an IndexError |
| AttributeSplit.ResolveColumns | Denoise/attributes_spilt.py:42-43 | a list of positions resolves exactly when each does, position by position |
| AttributeSplit.FilterPlyColumns | Denoise/attributes_spilt.py:32-66 | the split succeeds exactly when every requested position lies in range of the frame widened by the ID; the result keeps every row, has one column per request plus the ID, and the ID of row i is i |
| AttributeSplit.FilterLinesSelects | Denoise/attributes_spilt.py:49-53 | the loop's property list is the header's property lines whose 0-based ordinal is in the kept list, in header order |
| AttributeSplit.FilterLinesOthers | Denoise/attributes_spilt.py:49-60 | the loop keeps every non-property line in order, with each `element vertex` line replaced by the declaration of the row count |
| AttributeSplit.FilterHeader | Denoise/attributes_spilt.py:63-64 | the written header ends with `property int ID` and `end_header` |
| AttributeSplit.FilterHeaderShape | Denoise/attributes_spilt.py:45-64 | the written header is the first three non-property lines with the row count rewritten, the kept property lines in header order, `property int ID` and `end_header` |
| AttributeSplit.SelectIncreasing | Denoise/attributes_spilt.py:49-53 | selecting by ordinal with an increasing list of in-range ordinals picks exactly the listed property lines, in list order |
| AttributeSplit.FilterHeaderMatchesColumns | Denoise/attributes_spilt.py:42-53 | for an increasing group of property positions the header declares exactly the group's property lines, in the order of the data columns |
| AttributeSplit.SplitAgrees | Denoise/attributes_spilt.py:41-43 | when the header declares one property per column, the written row i holds row i's values in the group's columns |
| AttributeSplit.ColumnGroupsWellFormed | Denoise/attributes_spilt.py:90-113 | the 22 groups `main` writes are increasing triples of positions below 62, so each header matches its columns |
| Grid.AxisRanges | Denoise/voxelization.py:24-30 | one range per coordinate axis (the first three columns, fewer when the frame is narrower), holding every row's coordinate on that axis |
| Grid.AxisRangesAttained | Denoise/devoxelization.py:16-18 | each bound is the coordinate of some row, so the ranges are the per-axis minimum and maximum |
| Grid.CellRange | Denoise/voxelization.py:31-34 | a coordinate inside its range lands in a cell from 0 to `res`; the minimum lands in 0 and the maximum in `res` |
| Grid.CellMonotone | Denoise/voxelization.py:31-34 | quantization never reverses the order of two coordinates on an axis |
| Grid.RestoreEnds | Denoise/devoxelization.py:43-46 | restoring cell 0 gives the minimum and cell `res` the maximum |
| Grid.CellRoundTrip | Denoise/devoxelization.py:43-46 | a quantized and restored coordinate lies at most one cell width below the original and never above it |
| Grid.Attributes | Denoise/voxelization.py:25 | the middle columns are those between the coordinates and the last (ID) column |
| Grid.NormalizeAndVoxelize | Denoise/voxelization.py:21-38 | the voxelized frame keeps every row in order and has one coordinate, attribute and ID column per input column; a frame without rows or columns is an error |
| Grid.VoxelizedRows | Denoise/voxelization.py:31-37 | each written coordinate is an integer cell from 0 to `res`, the attributes follow unchanged and the last column is the ID truncated to an integer |
| Grid.Devoxelize | Denoise/devoxelization.py:36-50 | every row is kept in order with the attributes and the ID column carried unchanged |
| Grid.RowRoundTrip | Denoise/devoxelization.py:43-49 | one row through both grid steps comes back with each coordinate at most one cell width below the original, the attributes unchanged and the ID truncated |
| Grid.VoxelRoundTrip | Denoise/devoxelization.py:36-50 | voxelizing with the table's own ranges and devoxelizing with the same ranges succeeds, keeps every row and restores each row as the row round trip does |
| Grid.VoxelRoundTripBound | Denoise/voxelization.py:21-38 | for row i of the original table, the restored coordinates are within one cell width below the original ones, the attributes are unchanged and the ID is the truncated original |
| Dedup.ParsePoints | Denoise/delete_repeat_voxel.py:29-34 | only lines yielding at least four numbers become entries, `(x, y, z)` and the ID truncated to an integer; when every line does, there is one entry per line, in order |
| Dedup.ParseSkipsShort | Denoise/delete_repeat_voxel.py:32 | a line with fewer than four numbers contributes nothing |
| Dedup.KeepFirst | Denoise/delete_repeat_voxel.py:41-44 | the kept entries have pairwise distinct coordinates, cover every triple of the input and are no more than the input |
| Dedup.KeepFirstIsFirstOccurrences | Denoise/delete_repeat_voxel.py:41-44 | the dict loop keeps exactly the entries that are the first with their coordinates, in order of first appearance, each with the ID it had first |
| Dedup.KeepFirstOfDistinct | Denoise/delete_repeat_voxel.py:41-44 | a list with distinct triples is its own deduplication |
| Dedup.KeepFirstIdempotent | Denoise/delete_repeat_voxel.py:41-44 | deduplicating twice is deduplicating once |
| Dedup.NoDuplicatesIff | Denoise/delete_repeat_voxel.py:62 | nothing is removed exactly when the input triples are already distinct |
| Dedup.Unique | Denoise/delete_repeat_voxel.py:41-44 | the deduplicated list is distinct, is the list of first occurrences, and is as long as the input exactly when the input has no duplicate |
| Dedup.DetectAndRemoveDuplicates | Denoise/delete_repeat_voxel.py:21-63 | the header is copied through `end_header` with every `element vertex` line declaring the number of kept points; the points are the first occurrences of the parsed data, pairwise distinct; the duplicate count is the number of parsed points minus the number kept, so it is never negative and is 0 exactly when the parsed triples are distinct |
| Fusion.Label | Denoise/fusion.py:71-78 | naming a file's columns succeeds exactly when there is one name per column and exactly one of them is `ID`; the frame then has the other names in order and each row keyed by its `ID` cell with the other cells in order |
| Fusion.JoinRows | Denoise/fusion.py:78 | an inner join on `ID` holds exactly the IDs present on both sides |
| Fusion.MatchesUnique | Denoise/fusion.py:78 | with unique right IDs, a left row matches at most once: the left values followed by the right row's |
| Fusion.JoinRowsUnique | Denoise/fusion.py:78 | joining two tables with unique IDs gives a table with unique IDs |
| Fusion.JoinRowsContent | Denoise/fusion.py:78 | every joined row holds the left row's values for its ID followed by the right row's |
| Fusion.Merge | Denoise/fusion.py:78 | a merge's columns are the left names then the right names, and its IDs the intersection of both sides' |
| Fusion.MergeAllSpec | Denoise/fusion.py:78 | the chain of inner joins keeps exactly the IDs present in every file, and its columns are every file's non-ID columns in file order |
| Fusion.CommonIdsSpec | Denoise/fusion.py:78 | an ID is in the result exactly when it is in every file |
| Fusion.MergeAllContent | Denoise/fusion.py:78 | when each file has unique IDs, the fused table has unique IDs and each row holds every file's values for its ID, in file order |
| Fusion.LabelAll | Denoise/fusion.py:70-78 | labelling succeeds exactly when every file's does, keeps the files in order, and otherwise fails with the error of the first file that fails |
| Fusion.DropIds | Denoise/fusion.py:81 | `drop(columns=['ID'])` removes one entry per column named `ID` and changes nothing when there is none |
| Fusion.DropOneId | Denoise/fusion.py:81 | with exactly one `ID` column, dropping by name removes exactly that position |
| Fusion.KeyAll | Denoise/fusion.py:78 | the join keys are checked in the order pandas' `merge` looks them up (the second file, then the first, then the rest in order), and the first failing file's error is the result |
| Fusion.Fuse | Denoise/fusion.py:70-86 | every name-length check comes before any key check, so a length mismatch is a ValueError whatever the other files hold; no files is a TypeError; a lone file is never joined and succeeds when it has at least one `ID` column, all of which are dropped; two or more files succeed exactly when each has one `ID` column, and the result rows are the joined rows with `ID` dropped, under a header declaring their count and every file's non-ID columns in file order |
| Fusion.FuseOne | Denoise/fusion.py:78-81 | a lone file with one `ID` column fuses to the table `Label` keys, without the key |
| Fusion.MergedFrames | Denoise/fusion.py:78 | over frames with unique IDs, the joined table has unique IDs, holds exactly the IDs in every frame, and each row is every frame's values for its ID in file order |
| Fusion.FuseContent | Denoise/fusion.py:70-86 | when every file's IDs are unique, the written rows are one per ID common to all files, each holding every file's values for that ID in file order with `ID` dropped |
| Fusion.FuseErrorOrder | Denoise/fusion.py:71-81 | a name list of the wrong length in the second file is a ValueError even though the first file has no `ID` column, and a lone file named `ID`, `ID` fuses with both columns dropped |
| Fusion.ColumnsListKeyed | Denoise/fusion.py:56-67 | each of the 21 name lists ends with `ID` and names no other column `ID` |
| SelectXyz.KeptLines | Contrast/selectxyz.py:28-39 | the reference header: exactly the header's lines that are not property lines of other columns, all taken from the header |
| SelectXyz.RewriteLineSpec | Contrast/selectxyz.py:28-39 | a header line other than the sentinel fails only when it is an `element vertex` line whose count does not parse; otherwise it is kept when it is not a property line or is one of the three `x`, `y`, `z` declarations, and dropped otherwise |
| SelectXyz.RewriteIsFilter | Contrast/selectxyz.py:28-34 | without a sentinel, the header loop succeeds exactly when every vertex count parses and then keeps the reference lines |
| SelectXyz.RewriteSentinel | Contrast/selectxyz.py:35-37 | the sentinel becomes `property int id` followed by `end_header` |
| SelectXyz.RewriteAppend | Contrast/selectxyz.py:28-39 | the header loop treats every line on its own: its output for a concatenation is the concatenation of the outputs |
| SelectXyz.XyzRow | Contrast/selectxyz.py:45-48 | a data line fails exactly when it has fewer than three tokens; otherwise the row is its first three tokens followed by the ID |
| SelectXyz.XyzRows | Contrast/selectxyz.py:42-48 | the data loop succeeds exactly when every data line has three tokens, and then writes one row per line |
| SelectXyz.XyzRowsSpec | Contrast/selectxyz.py:44-48 | written row k holds the first three tokens of data line k followed by `first + k` |
| SelectXyz.SentinelSection | Contrast/selectxyz.py:20-39 | the header through the sentinel is accepted exactly when its vertex counts parse, and becomes the reference lines before the sentinel then the ID declaration and `end_header` |
| SelectXyz.ExtractXyzWithId | Contrast/selectxyz.py:5-48 | the extraction succeeds exactly when the header's vertex counts parse and every line after it has three tokens; row k is then the first three tokens of data line k and the ID k + 1 |
| SelectXyz.ExtractXyzHeader | Contrast/selectxyz.py:26-39 | the written header is the kept lines before the sentinel, then `property int id` and `end_header`; with no sentinel, the kept lines alone |
| DeleteId.StrippedHeader | Contrast/deleteid.py:17-22 | the header of a file is defined when some line strips to `end_header`, and is then the stripped lines before the first such line |
| DeleteId.LoopLine | Contrast/deleteid.py:24-32 | one header line fails only when it is an `element vertex` line whose count does not parse; an ID property line is skipped and any other line kept |
| DeleteId.NonIdLines | Contrast/deleteid.py:29-32 | the reference header: exactly the lines that are not ID property lines, all taken from the header |
| DeleteId.ReadHeaderSpec | Contrast/deleteid.py:17-32 | the line-by-line header loop succeeds exactly when a line strips to `end_header` and every vertex count before it parses, and then keeps the reference lines; it raises ValueError exactly when an unparsable vertex count comes before any `end_header`, even if one follows, and spins forever exactly when no line ends it or raises |
| DeleteId.DropLast | Contrast/deleteid.py:38 | every row loses its last column and nothing else |
| DeleteId.RemoveIdFromPly | Contrast/deleteid.py:5-45 | the removal succeeds exactly when the header has a sentinel, its vertex counts parse and the data is a two-dimensional table; the header is then the non-ID lines and `end_header`, and each row loses its last column; it raises ValueError exactly when the header loop meets an unparsable count before the sentinel, and spins forever exactly when it meets neither |
| DeleteId.RemovedHeaderShape | Contrast/deleteid.py:41-45 | the written header ends with `end_header` and holds no other sentinel and no ID property line |
| DeleteId.AnyMentions | Contrast/deleteid.py:61 | true exactly when some line contains `property` and, lower-cased, `id` |
| DeleteId.CheckFileStructure | Contrast/deleteid.py:52-70 | the check finishes exactly when the header has a sentinel, and answers whether some header line contains `property` and, lower-cased, `id` |
| DeleteId.NoIdNothingDropped | Contrast/deleteid.py:29-63 | when the check finds no ID property, the removal drops no header line |
| DeleteId.NonIdOfClean | Contrast/deleteid.py:29-32 | a header without ID property lines is kept whole |
| DeletePoints.RemovalSet | Contrast/3dgsdeletepoint.py:12-13 | reading the ID file succeeds exactly when every non-blank line strips to an integer literal |
| DeletePoints.RemovalSetMembers | Contrast/3dgsdeletepoint.py:13 | the removal set holds exactly the integers on the non-blank lines of the ID file |
| DeletePoints.Retained | Contrast/3dgsdeletepoint.py:31-37 | the kept lines are taken verbatim from the data and are exactly those with at least four tokens whose last token's integer is not to be removed |
| DeletePoints.KeepLinesSpec | Contrast/3dgsdeletepoint.py:30-37 | the data loop fails exactly when a line of four or more tokens has a non-integer last token, and otherwise keeps the reference lines in order |
| DeletePoints.RetainedIdempotent | Contrast/3dgsdeletepoint.py:30-37 | filtering twice with the same set is filtering once |
| DeletePoints.RetainedParses | Contrast/3dgsdeletepoint.py:33-35 | every kept line has an integer ID, so the output can be filtered again |
| DeletePoints.RemovePointsById | Contrast/3dgsdeletepoint.py:3-48 | the removal succeeds exactly when the ID file and every long data line's ID parse; the data is then the kept lines and the header is the input header with only its first `element vertex` line rewritten to the kept count |
| DeletePoints.RemovePointsIdempotent | Contrast/3dgsdeletepoint.py:19-43 | running the removal on its own output with the same ID file gives that output back |
| PlyHeader.RewriteFirstVertexLine | Contrast/3dgsdeletepoint.py:40-43 | the rewrite keeps the number of header lines |
| PlyHeader.RewriteFirstVertexLineSpec | Contrast/3dgsdeletepoint.py:40-43 | only the first `element vertex` line is replaced, by the declaration of the new count; every other line is unchanged |
| PlyHeader.RewriteDeclaresCount | Contrast/3dgsdeletepoint.py:40-43 | after the rewrite the first vertex line is still the first, its count reads back as the new count, and every other line is unchanged |
| PlyHeader.RewriteFirstVertexLineTwice | Contrast/3dgsdeletepoint.py:40-43 | rewriting twice with the same count is rewriting once |
| PlyHeader.ResplitRewritten | Contrast/3dgsdeletepoint.py:19-48 | a file written as a rewritten header followed by data lines splits back at the same sentinel, into that header and those lines |
| PlyHeader.VertexLineDeclares | Contrast/3dgsdeletepoint.py:42 | a written `element vertex <n>` line has three tokens and its last one reads back as n |
| ZeroNormals.ZeroSlots | Contrast/change0.py:35-38 | in a row of at least six tokens, tokens 3, 4 and 5 become `0` and every other token is unchanged; a shorter row is unchanged |
| ZeroNormals.ZeroRow | Contrast/change0.py:34-39 | the written row has the input's tokens, with the normal slots zeroed when there are at least six |
| ZeroNormals.ZeroRowAsWritten | Contrast/change0.py:34-39 | the loop as written fails exactly on a row of five tokens (`parts[5]` is out of range), and otherwise writes what the corrected row does |
| ZeroNormals.FiveTokenRowFails | Contrast/change0.py:35-38 | the row `1 2 3 4 5` passes the `>= 5` guard and raises IndexError |
| ZeroNormals.ZeroRowIdempotent | Contrast/change0.py:34-39 | zeroing a written row again changes nothing |
| ZeroNormals.ZeroRows | Contrast/change0.py:33-39 | one written row per data line, blanks included, each the zeroed line |
| ZeroNormals.ZeroRowsZero | Contrast/change0.py:33-39 | every written row zeroes the normal of its input line and keeps its other tokens |
| ZeroNormals.ZeroRowsAsWritten | Contrast/change0.py:32-39 | the loop as written fails exactly when some data line has five tokens, and otherwise writes the corrected rows |
| ZeroNormals.ZeroRowsIdempotent | Contrast/change0.py:33-39 | zeroing the written rows again changes nothing |
| ZeroNormals.ReplaceNormalWithZero | Contrast/change0.py:17-45 | each data line after the sentinel is written with its normal zeroed, and the header is the input header with only its first vertex line rewritten to the number of data lines |
| ZeroNormals.ReplaceNormalWithZeroAsWritten | Contrast/change0.py:17-45 | the script as written fails exactly when a data line has five tokens, and otherwise writes what the corrected script does |
| ZeroNormals.ReplaceNormalWithZeroIdempotent | Contrast/change0.py:20-45 | running the corrected script on its own output gives that output back |
| DeleteRow.KeepLastTwo | Denoise/delete_row.py:18-22 | a row fails exactly when it has fewer than four tokens, and otherwise its tokens are the input's tokens 2 and 3 |
| DeleteRow.KeepRows | Denoise/delete_row.py:17-22 | the row loop succeeds exactly when every line has four tokens, and then writes one row per line holding that line's tokens 2 and 3 |
| DeleteRow.DeleteColumns | Denoise/delete_row.py:4-22 | the script succeeds exactly when some line is exactly `end_header\n` and every later line has four tokens; the header is copied through that line and each later line becomes its tokens 2 and 3 |
| DeleteRow.DeleteColumnsResplits | Denoise/delete_row.py:12-22 | the written file splits back at the same sentinel into the written header and rows |
| DeleteRow.DeleteColumnsNotRepeatable | Denoise/delete_row.py:18-22 | a written row has two tokens, so running the script on its own non-empty output raises IndexError |
| Compress.LongLinesMembers | Denoise/repc4.py:17-19 | a line is taken exactly when it is a data line with at least four tokens; shorter lines are skipped |
| Compress.LongLinesAll | Denoise/repc4.py:17-19 | when every data line has four tokens none is skipped |
| Compress.ReadRows | Denoise/repc4.py:17-21 | reading succeeds exactly when every taken row's first four tokens parse, and then yields one point per taken row, in order |
| Compress.DataLines | Denoise/repc4.py:15-23 | the lines after the first line starting with `end_header`; a file without one has no data |
| Compress.ReadPlyWithId | Denoise/repc4.py:10-26 | `read_ply_with_id` succeeds exactly when every long data line parses, and then yields their points in order |
| Compress.WritePlyWithId | Denoise/repc4.py:29-53 | the header through the sentinel is copied with every vertex line replaced by the point count, then one row per point; with a one-token renderer each row splits into the three coordinates and the ID |
| Compress.RowReadsBack | Denoise/repc4.py:51-53 | a written row, read back with a parser inverse to the renderer, gives the point it was written from |
| Compress.WrittenHeaderEnds | Denoise/repc4.py:35-48 | the rewritten header still ends at its sentinel, so the rows after it are exactly the rows written |
| Compress.RowsReadBack | Denoise/repc4.py:17-21 | rows written from points read back as those points |
| Compress.WriteReadRoundTrip | Denoise/repc4.py:10-53 | `read_ply_with_id` of what `write_ply_with_id` writes gives back the points and IDs written, whenever the template file has a sentinel |
| Compress.QueryPrefix | Denoise/repc4.py:120 | asking for at most as many neighbours as there are points yields exactly the first `k` entries of the distance ranking, and asking for one more only extends the answer |
| Compress.ScanCandidates | Denoise/repc4.py:121-127 | a found ID is an input ID not yet used; a miss means every candidate's ID is already used |
| Compress.AssignOne | Denoise/repc4.py:118-129 | the ID assigned is an input ID not yet used, found at a `k` no smaller than the starting one |
| Compress.FirstUnused | Denoise/repc4.py:121-127 | the first position in the ranking whose ID is unused: every ID before it is used |
| Compress.AssignOneTakesFirstUnused | Denoise/repc4.py:117-129 | growing `k` succeeds exactly when some ranked ID is unused, and then assigns the ID of the nearest such point |
| Compress.AssignOneSucceeds | Denoise/repc4.py:117-129 | with a ranking of every input point, one coordinate is assigned exactly when some input ID is unused |
| Compress.AssignAll | Denoise/repc4.py:117-129 | one ID per output coordinate, every ID an input ID, unused before the loop, and no two alike |
| Compress.AssignAllSucceeds | Denoise/repc4.py:117-129 | the loop succeeds exactly when there are no more output coordinates than unused distinct input IDs |
| Compress.EncoderIds | Denoise/repc4.py:113-129 | the encoder's ID mapping is injective, draws from the input IDs, and exists exactly when the input has at least as many distinct IDs as there are output coordinates |
| Compress.EncoderPoints | Denoise/repc4.py:113-133 | the written pairs are the output coordinates with their assigned IDs, permuted into ascending ID order |
| Compress.EncoderFileReadsBack | Denoise/repc4.py:109-136 | the encoder's output file reads back as its points, whose IDs ascend and are all input IDs |
| Compress.Decode | Denoise/repc4.py:161-168 | each input point keeps its ID and moves to the reconstructed coordinate its nearest-neighbour index names; an index past the reconstruction fails |
| Compress.DecodeExact | Denoise/repc4.py:163-168 | when the reconstruction is the input's own coordinates and each point is its own neighbour, decoding changes nothing |
| Compress.DecoderKeepsIds | Denoise/repc4.py:150-170 | the decoder's output file reads back as one point per input point with the same IDs in the same order |
| Denoise.PointIds | Contrast/SORdenoise.py:16 | the IDs are 1 to n in order, so they are strictly increasing and cover exactly that range |
| Denoise.NumpyIndexWraps | Contrast/SORdenoise.py:38-39 | a negative index `i - n` names the same element as `i`, and an index `i + n` past the end names none |
| Denoise.SetDiffRange | Contrast/SORdenoise.py:42 | `setdiff1d(arange(m), inliers)` holds each index below `m` that is not an inlier, ascending and once |
| Denoise.DenoiseByIndices | Contrast/SORdenoise.py:20-45 | the kept points and IDs are the ones at the inlier indices, in that order; the outlier IDs ascend and are exactly the IDs of the points not listed; `Contrast/RORdenoise.py:20-44` does the same with the radius filter's indices |
| Denoise.OutlierIdsMembers | Contrast/SORdenoise.py:42-43 | adding one to the ascending outlier indices gives the ascending IDs of exactly the points not kept |
| Denoise.DenoiseByIndicesPartition | Contrast/SORdenoise.py:35-43 | with in-range inlier indices every ID from 1 to n is either kept or an outlier, never both |
| Denoise.WhereBelow | Contrast/DBSCANdenoise.py:33-38 | the ascending indices below `m` whose label is (or is not) noise |
| Denoise.Where | Contrast/DBSCANdenoise.py:33-38 | `np.where` on the labels: ascending, every index in range, exactly the points with (or without) the noise label |
| Denoise.DenoiseByLabels | Contrast/DBSCANdenoise.py:19-41 | kept points are the non-noise ones in order with their IDs; kept and outlier IDs both ascend, and an ID is an outlier exactly when its point is labelled noise |
| Denoise.DenoiseByLabelsPartition | Contrast/DBSCANdenoise.py:33-39 | every ID from 1 to n is either kept or an outlier, never both |
| Denoise.DbscanIsIndexDenoising | Contrast/DBSCANdenoise.py:33-39 | DBSCAN denoising is index denoising with the non-noise indices as the inliers |
| Denoise.RecordsUnzip | Contrast/SORdenoise.py:58-60 | the saved records unzip back into exactly the kept IDs and the kept points, in order |
| Denoise.SaveSorted | Contrast/SORdenoise.py:58-60 | the saved records are the kept records permuted into ascending ID order, as in `Contrast/RORdenoise.py:57-59` too |
| Denoise.DbscanSavedInOrder | Contrast/DBSCANdenoise.py:54-56 | the DBSCAN kept IDs already ascend, so sorting them saves the kept records in their own order |
| Denoise.RemovedIdLines | Contrast/SORdenoise.py:70-72 | one line per outlier ID, which strips and parses back to that ID |
| Denoise.RenderedLine | Contrast/SORdenoise.py:72 | a written ID line strips to the ID's digits and parses back to the ID |
| Denoise.RemovedIdLinesListed | Contrast/3dgsdeletepoint.py:12-13 | the removed-ID file is a valid removal list for the point-deletion script: no line is blank and each parses |
| Denoise.RemovedIdRead | Contrast/3dgsdeletepoint.py:12-13 | an ID is in the set the deletion script reads exactly when it was an outlier |
| Denoise.RemovedIdsRoundTrip | Contrast/SORdenoise.py:70-72 | the ID file written here reads back in the point-deletion script (Contrast/3dgsdeletepoint.py:12-13) as exactly the set of outlier IDs |
| PseudoColor.PrefixWhile | Denoise/pseudo_color_projection.py:17-24 | the longest prefix all of whose lines pass the test: every line before the end passes and the line at the end does not |
| PseudoColor.HeaderEnd | Denoise/pseudo_color_projection.py:15-24 | the header runs up to the first line that is neither blank nor starts with a header marker |
| PseudoColor.MarkedLines | Denoise/pseudo_color_projection.py:18-19 | only lines starting with a header marker are collected into the header text |
| PseudoColor.MarkedLinesMembers | Denoise/pseudo_color_projection.py:17-24 | a line is collected exactly when it is in the header and starts with a marker |
| PseudoColor.FindChar | Denoise/pseudo_color_projection.py:70 | the first position of the character, or none exactly when it does not occur |
| PseudoColor.SplitOn | Denoise/pseudo_color_projection.py:70 | `split('\n')` gives at least one piece and no piece holds a newline |
| PseudoColor.SplitOnJoin | Denoise/pseudo_color_projection.py:70 | joining the pieces with newlines gives the header text back |
| PseudoColor.IndexOf | Denoise/pseudo_color_projection.py:90-92 | the first occurrence of a keyword, found exactly when the line contains it |
| PseudoColor.After | Denoise/pseudo_color_projection.py:92 | `split(keyword, 1)[1]`: the text after the first occurrence, so that the line is what precedes it, the keyword, then the result |
| PseudoColor.PropertyNamesMembers | Denoise/pseudo_color_projection.py:69-74 | a name is listed exactly when some piece is a `property` line of at least three tokens ending in that name |
| PseudoColor.PropertyNamesNonEmpty | Denoise/pseudo_color_projection.py:75-76 | the PLY branch returns exactly when some piece is such a property line |
| PseudoColor.KeywordFieldsFirst | Denoise/pseudo_color_projection.py:88-96 | the keywords are tried in order and the first one followed by a token gives the names after it; none gives nothing |
| PseudoColor.KeywordFieldsAt | Denoise/pseudo_color_projection.py:90-96 | when keyword `i` is the first that introduces names, the names are the tokens after its first occurrence |
| PseudoColor.KeywordFieldsNone | Denoise/pseudo_color_projection.py:89-99 | a line where no keyword introduces a token yields no names |
| PseudoColor.Classify | Denoise/pseudo_color_projection.py:80-106 | a stripped, uncommented piece is a keyword line with its non-empty names, otherwise a line looking like `x y z` with its tokens, otherwise neither |
| PseudoColor.FallbackKeyword | Denoise/pseudo_color_projection.py:79-99 | the first keyword line ends the loop and its names are the result, whatever came before |
| PseudoColor.FallbackKeeps | Denoise/pseudo_color_projection.py:101-106 | once names are found and no keyword line follows, later `x y z` lines do not replace them |
| PseudoColor.FallbackFirstXyz | Denoise/pseudo_color_projection.py:79-108 | without keyword lines the names are the tokens of the first `x y z` line, or none when there is no such line |
| PseudoColor.FieldNamesPly | Denoise/pseudo_color_projection.py:68-76 | a header mentioning `ply` with a named property line gives the property names, and every such name is among them |
| PseudoColor.FieldNamesKeyword | Denoise/pseudo_color_projection.py:79-99 | outside the PLY branch the first keyword line decides the names |
| PseudoColor.FieldNamesXyz | Denoise/pseudo_color_projection.py:79-108 | outside the PLY branch and with no keyword line the first `x y z` line decides the names, and without one there are none |
| PseudoColor.NonBlank | Denoise/pseudo_color_projection.py:33 | only non-blank lines are kept, in order |
| PseudoColor.ParseRowsSpec | Denoise/pseudo_color_projection.py:30-36 | parsing the data succeeds exactly when every non-blank line parses, and then gives one row per non-blank line |
| PseudoColor.AttrNamesDistinct | Denoise/pseudo_color_projection.py:50-54 | two columns get the same `attr_` name only if they are the same column |
| PseudoColor.ColumnKey | Denoise/pseudo_color_projection.py:47-54 | with at least as many field names as columns a column is keyed by its field name, otherwise by `attr_` and its offset from 3 |
| PseudoColor.ColumnKeysMembers | Denoise/pseudo_color_projection.py:49-54 | the keys written are exactly the keys of columns 3 onwards |
| PseudoColor.AttributesFrom | Denoise/pseudo_color_projection.py:49-54 | the attribute map gains exactly the keys of the remaining columns |
| PseudoColor.AttributesKeep | Denoise/pseudo_color_projection.py:49-51 | an entry no later column overwrites stays as it was |
| PseudoColor.AttributesLastWins | Denoise/pseudo_color_projection.py:49-51 | when field names repeat, the key holds the column of its last occurrence |
| PseudoColor.Xyz | Denoise/pseudo_color_projection.py:44 | `point_data[:, 0:3]` keeps a row's first three values, or all of a shorter row |
| PseudoColor.Attributes | Denoise/pseudo_color_projection.py:45-54 | no attributes when the rows have three values or fewer; otherwise exactly one key per column from 3 on |
| PseudoColor.ReadCloud | Denoise/pseudo_color_projection.py:8-60 | a cloud is returned exactly when the data rows parse and form a non-empty matrix; its coordinates are each row's first three values, its field names come from the marked header lines, and its attribute keys are those of columns 3 onwards |
| PseudoColor.MatrixOfRows | Denoise/pseudo_color_projection.py:38-41 | the parsed rows form a matrix exactly when there is at least one and all have the same width |
| PseudoColor.ReadCloudSome | Denoise/pseudo_color_projection.py:30-60 | reading fails exactly when a non-blank data line does not parse, there are none, or their widths differ; otherwise there is one point per non-blank data line |
| PseudoColor.NoRowsNoCloud | Denoise/pseudo_color_projection.py:38-39 | a file with no data rows gives no cloud |
| PseudoColor.AttributesColumn | Denoise/pseudo_color_projection.py:47-54 | an attribute holds its column's values, whenever no later column has the same key |
| PseudoColor.ReadCloudColumns | Denoise/pseudo_color_projection.py:52-54 | without enough field names, `attr_<i-3>` holds column `i` of the data |
| PseudoColor.Scale | Denoise/pseudo_color_projection.py:116-117 | a value in range scales into [0, 1], and scaling back gives the value |
| PseudoColor.Normalize | Denoise/pseudo_color_projection.py:111-121 | an empty input fails (`np.min` raises); otherwise the minimum and maximum are returned with every value scaled between them, or all zeros when they are equal |
| PseudoColor.NormalizeRange | Denoise/pseudo_color_projection.py:111-121 | every normalized value lies in [0, 1] and, when the values are not all equal, maps back to the input |
| PseudoColor.NormalizeMonotone | Denoise/pseudo_color_projection.py:116-119 | normalizing keeps the order of values, takes the minimum to 0 and the maximum to 1 |
| PseudoColor.ScaleMonotone | Denoise/pseudo_color_projection.py:117 | scaling keeps order and takes the bounds to 0 and 1 |
| Text.Split | Denoise/ascii_to_binary.py:38 | `str.split()`: every piece is a non-empty run of non-whitespace characters |
| Text.SplitJoin | Denoise/ascii_to_binary.py:38 | splitting tokens joined by single spaces gives the tokens back |
| Text.SplitJoinedLine | Denoise/delete_row.py:21 | a written row (tokens, spaces, newline) splits back into its tokens |
| Text.SplitStrip | Contrast/3dgsdeletepoint.py:32 | `line.strip().split()` has the same tokens as `line.split()` |
| Text.Strip | Contrast/3dgsdeletepoint.py:13 | `str.strip()` leaves neither leading nor trailing whitespace |
| Text.StripCuts | Contrast/3dgsdeletepoint.py:13 | `str.strip()` cuts off exactly a leading and a trailing run of whitespace and keeps what lies between unchanged |
| Text.ParseRendered | Contrast/3dgsdeletepoint.py:13 | `int()` of a rendered integer gives the integer back |
| Text.PySlice | Denoise/attributes_spilt.py:64 | Python slicing clamps both bounds and agrees with Dafny slicing when they are in range |
| Numeric.Trunc | Denoise/repc4.py:21 | `int(x)` rounds toward zero on both sides of 0 |
| Numeric.MinOf | Denoise/pseudo_color_projection.py:113 | `np.min` is an element no larger than any other |
| Numeric.MaxOf | Denoise/pseudo_color_projection.py:114 | `np.max` is an element no smaller than any other |
| Sorting.SortByKeySpec | Contrast/SORdenoise.py:58-60 | sorting by ID gives a permutation of the records with IDs in ascending order |
| Sorting.SortByKeySorted | Contrast/DBSCANdenoise.py:54-56 | records already in ID order are left as they are |
| Sorting.StrictlyIncreasingUnique | Denoise/repc4.py:131-133 | two ascending orders of the same distinct IDs are the same sequence, so the order after sorting is determined |
| LittleEndian.LeValueOfBytes | Denoise/ascii_to_binary.py:48-54 | reading back the little-endian bytes of a value gives the value |
| LittleEndian.LeBytesOfValue | Denoise/binary_to_ascii.py:47-53 | writing the value of a byte field gives the same bytes back |

## Left out

- File I/O, `argparse`, `glob` loops over directories, `os.makedirs` and every `print` are left out. Each script is modelled from the lines it reads to what it writes. Where a script assembles the output text itself (the header scans, the codecs, the ID and column editors), the model yields those lines or bytes. Where it writes numbers with `str`, `%` formatting or an f-string, the model yields the header lines and the table or points; the members concerned are named below.
- Float formatting and parsing are parameters (`FloatParser`, `FloatRenderer`, `FloatWriter`). So are float32 encoding and decoding, where a `float` field is an opaque 32-bit pattern. Python's shortest-repr printing and IEEE rounding are not modelled.
- The regular expression `[-+]?\d*\.\d+|\d+` in `delete_repeat_voxel.py` is a parameter (`Dedup.NumberScanner`), because regular-expression matching is library code.
- The library calls are parameters, given by what they return: open3d's statistical and radius outlier filters, `cluster_dbscan`, scipy's `cKDTree.query`, and the MinkowskiEngine compression network. These are inlier indices, labels, rankings and nearest indices.
- `np.save`, `np.load` and `torch.load` in `repc4.py` (the compressed tensors and the checkpoint) are left out; only the ID bookkeeping around them is modelled.
- The open3d writer that saves the denoised clouds is left out. The model stops at the sorted (ID, point) records, and DBSCAN's all-zero colours are not represented.
- `rgbtransfer.py`, the colormap and plotting half of `pseudo_color_projection.py` (`apply_colormap` onward), and the module-level call at `Contrast/ascii201.py:60-63` are left out. They are presentation or driver code around the modelled functions.
- `read_ply` in `delete_repeat_voxel.py` is left out: it is never called and uses `pd` without importing pandas. The dedup loop reads the file itself, and that loop is modelled.
- The pandas frames of `attributes_spilt.py`, `voxelization.py`, `devoxelization.py`, `addnxyz.py` and `fusion.py` are rectangular tables of reals. `read_csv` / `loadtxt` tokenization, dtype inference and the `_x`/`_y` suffixes pandas adds to clashing merge columns are not modelled.
- Exception messages are carried as text but their wording is not a modelled property. The kind of error (ValueError, IndexError, `struct.error`, KeyError, TypeError, a missing sentinel) is modelled, except for the float overflow named under Codec.ParseToken.
- The `readline` loops of `binary_to_ascii.py`, `012ascii.py` and `deleteid.py` spin forever when the file has no `end_header` line. The model returns the error `NoTerminator` instead of diverging.
- Grid.NormalizeAndVoxelize: requires a non-zero spread on every coordinate axis. `voxelization.py:31` divides by `max - min` without a guard, and numpy then yields `inf`/`nan`, which reals cannot represent. The result is the voxelized table; the `str` rendering `write_ply` applies to it (`voxelization.py:48-51`) is not modelled.
- Grid.Devoxelize: requires a non-zero resolution, for the same reason. The result is the restored table; `write_ply` (`devoxelization.py:59-62`) then writes every value with `str` and the ID as `str(int(id))`, truncating it toward zero, and that rendering is not modelled.
- AddNormals.AddNormalColumns: the result is the header and the widened table of values; the rows `write_ply` prints with `str` are not modelled, so the inserted integer `0` and a float `0.0` are the same value here.
- Sorting.SortByKey: a stable insertion sort. `np.argsort` does not promise stability, but every caller sorts distinct IDs, for which all sorts agree (`Sorting.StrictlyIncreasingUnique`).
- Denoise.DenoiseByLabels: requires one label per point, which `cluster_dbscan` returns for the cloud it is called on.
- Compress.ReadPlyWithId: IDs are unbounded integers. `torch.tensor(ids).int()` wraps them to 32 bits, which IDs from these tools never reach.
- Compress.EncoderPoints: the output coordinates are taken as given. The network that produces them, and the conversion of the input coordinates to `int` for it, are left out.
- Dedup.DetectAndRemoveDuplicates: the kept points are returned as (x, y, z, ID) entries of reals and integers. The f-string that writes each as a line (`delete_repeat_voxel.py:57`) is not modelled.
- DeleteId.RemoveIdFromPly: the table is a parameter standing for what `np.loadtxt` reads after the header, and it is required to be rectangular. Its link to the lines after `end_header` is not modelled, so neither is `loadtxt`'s ValueError on ragged or non-numeric rows. The rows are returned as a table; their `{x:.16f}` rendering (`deleteid.py:49`) is not modelled.
- Fusion.Fuse: the fused rows are returned as a table of reals. Their `str` rendering by `write_ply` (`fusion.py:27`) is not modelled.
- AttributeSplit.FilterPlyColumns: the selected rows are returned as a table of reals. Their `str` rendering (`attributes_spilt.py:75`) is not modelled.
- Codec.ParseToken: the float reader parameter stands for `float(x)` followed by `struct.pack('<f', ...)`, and it either yields a 32-bit pattern or fails with ValueError. A finite value too large for float32 (say `1e39`) makes `struct.pack` raise OverflowError at `ascii_to_binary.py:50`, after every row has been parsed. The model does not tell that error apart.
- PseudoColor.Attributes: the attribute dict is a Dafny `map`, which has no order. The dict's insertion order (column order) is not kept; which keys exist and which column each holds are modelled.
- Text.Split: whitespace is the ASCII and Latin-1 part of Python's set (space, `\t` to `\r`, `\x1c` to `\x1f`, `\x85`, `\xa0`). `str.split()` also splits at U+1680, U+2000 to U+200A, U+2028, U+2029, U+202F, U+205F and U+3000, which the model keeps inside tokens.
- Text.Strip: the same whitespace set as Text.Split, so `str.strip()`'s removal of those Unicode separators at either end is not modelled.
- Text.ParseInt: only plain ASCII digits are accepted. Python's `int()` also accepts digits grouped by single underscores (`1_000`) and other Unicode decimal digits (Arabic-Indic, fullwidth and so on), which the model rejects as ValueError. It also strips the wider whitespace set noted under Text.Split.
- PseudoColor.ReadCloud: every exception is the same `None` result (the script's `except Exception`), including the ragged rows numpy cannot make into a matrix. The message printed is not modelled.

## Findings

| source | as written | input that shows it | evidently intended | confidence | as-written member | corrected member |
|---|---|---|---|---|---|---|
| Contrast/change0.py:35-38 | the guard `len(parts) >= 5` admits a row of five tokens, and the loop then writes `parts[5]`, the sixth token | the data line `1 2 3 4 5` raises IndexError (`ZeroNormals.FiveTokenRowFails`); any such row aborts the script (`ZeroNormals.ReplaceNormalWithZeroAsWritten`) | zero the normal only in rows with at least six tokens (`len(parts) >= 6`) and copy shorter rows unchanged | high, not executed | ZeroNormals.ZeroRowAsWritten | ZeroNormals.ZeroRow |

The rest of `ZeroNormals` (`ZeroRows`, `ReplaceNormalWithZero` and their idempotence lemmas) is built on the corrected `ZeroRow`. `ZeroNormals.ZeroRowsAsWritten` and `ZeroNormals.ReplaceNormalWithZeroAsWritten` prove that the script as written agrees with the corrected one exactly when no data line has five tokens.

=== FILE: add_id.dfy ===
/** `addIDtoascii.py`: append a 1-based ID to the first `vertex_count` data
    lines of an ASCII PLY file and declare it as `property int id` just
    before `end_header`. */
module AddId {
  import opened Results
  import opened Text
  import opened PlyHeader

  // ---------------------------------------------------------------------------
  // The vertex count
  // ---------------------------------------------------------------------------

  /** The loop's `vertex_count = int(line.split()[-1])` over the lines in
      order, starting from `acc`. Property lines are not looked at. */
  function VertexCount(acc: int, lines: seq<string>): Result<int>
    decreases |lines|
  {
    if |lines| == 0 then Ok(acc)
    else if IsVertexLine(lines[0]) then
      match ParseInt(LastToken(lines[0]))
      case None => Err(ValueError("invalid literal for int(): " + LastToken(lines[0])))
      case Some(n) => VertexCount(n, lines[1..])
    else VertexCount(acc, lines[1..])
  }

  /** The scan fails exactly when some vertex line does not end in an integer. */
  lemma {:induction false} VertexCountOk(acc: int, lines: seq<string>)
    ensures VertexCount(acc, lines).Ok? <==> VertexCountsParse(lines)
    decreases |lines|
  {
    if |lines| > 0 {
      var rest := lines[1..];
      ParseCons(lines);
      if IsVertexLine(lines[0]) && ParseInt(LastToken(lines[0])).Some? {
        VertexCountOk(ParseInt(LastToken(lines[0])).value, rest);
      } else if !IsVertexLine(lines[0]) {
        VertexCountOk(acc, rest);
      }
    }
  }

  /** The last vertex line decides the count. */
  lemma {:induction false} VertexCountLast(acc: int, lines: seq<string>, i: nat)
    requires VertexCountsParse(lines)
    requires i < |lines| && IsVertexLine(lines[i])
    requires forall j :: i < j < |lines| ==> !IsVertexLine(lines[j])
    ensures VertexCount(acc, lines) == Ok(ParseInt(LastToken(lines[i])).value)
    decreases |lines|
  {
    var rest := lines[1..];
    ParseCons(lines);
    var a := if IsVertexLine(lines[0]) then ParseInt(LastToken(lines[0])).value else acc;
    assert VertexCount(acc, lines) == VertexCount(a, rest);
    forall j | i <= j < |rest| ensures !IsVertexLine(rest[j]) {
      assert rest[j] == lines[j + 1];
    }
    if i == 0 {
      VertexCountNone(a, rest);
    } else {
      assert rest[i - 1] == lines[i];
      VertexCountLast(a, rest, i - 1);
    }
  }

  /** Without a vertex line the count keeps its initial value. */
  lemma {:induction false} VertexCountNone(acc: int, lines: seq<string>)
    requires forall j :: 0 <= j < |lines| ==> !IsVertexLine(lines[j])
    ensures VertexCount(acc, lines) == Ok(acc)
    decreases |lines|
  {
    if |lines| > 0 {
      VertexCountNone(acc, lines[1..]);
    }
  }

  /** On a header the converters' schema scan accepts, this scan finds the
      same row count. */
  lemma {:induction false} VertexCountAgreesWithSchema(acc: int, lines: seq<string>)
    requires Scannable(lines)
    ensures VertexCount(acc, lines) == Ok(if HasVertexLine(lines) then DeclaredCount(lines) else acc)
    decreases |lines|
  {
    if |lines| > 0 {
      var rest := lines[1..];
      ConsFacts(lines);
      var a := if IsVertexLine(lines[0]) then ParseInt(LastToken(lines[0])).value else acc;
      assert VertexCount(acc, lines) == VertexCount(a, rest);
      VertexCountAgreesWithSchema(a, rest);
    }
  }

  // ---------------------------------------------------------------------------
  // The file
  // ---------------------------------------------------------------------------

  /** `header_end`: the index of the first line starting with `end_header`,
      or 0 when there is none. */
  function HeaderEnd(lines: seq<string>): (h: nat)
    ensures |lines| > 0 ==> h < |lines|
    ensures h > 0 ==> h < |lines| && IsEndHeader(lines[h]) && forall j :: 0 <= j < h ==> !IsEndHeader(lines[j])
  {
    var sec := SplitAtSentinel(lines, IsEndHeader);
    if sec.dataStart > 0 then sec.dataStart - 1 else 0
  }

  /** The lines the counting loop visits: up to the first `end_header`, or
      all of them. */
  function ScannedLines(lines: seq<string>): seq<string> {
    SplitAtSentinel(lines, IsEndHeader).header
  }

  /** A data line with its ID: `f"{line.strip()} {i}\n"`. */
  function NumberedLine(line: string, i: int): string {
    Strip(line) + " " + IntToString(i) + "\n"
  }

  /** `add_id_to_ply`: the header lines before `end_header`, then the ID
      declaration and `end_header`; then the data lines
      `lines[header_end + 1 : header_end + 1 + vertex_count]`, numbered from 1. */
  function AddIdToPly(lines: seq<string>): (r: Result<PlyLines>)
    ensures r.Ok? <==> VertexCountsParse(ScannedLines(lines))
    ensures r.Ok? ==> VertexCount(0, ScannedLines(lines)).Ok?
    ensures r.Ok? ==>
      var h := HeaderEnd(lines);
      var window := PySlice(lines, h + 1, h + 1 + VertexCount(0, ScannedLines(lines)).value);
      && r.value.header == lines[..h] + [IdPropertyLine, EndHeaderLine]
      && r.value.data == NumberLines(window)
  {
    VertexCountOk(0, ScannedLines(lines));
    NumberWindow(lines, VertexCount(0, ScannedLines(lines)))
  }

  /** The file rebuilt around a count scan's outcome: its error, or the
      header with the ID declaration and the numbered window. */
  function NumberWindow(lines: seq<string>, count: Result<int>): (r: Result<PlyLines>)
    ensures r.Ok? <==> count.Ok?
    ensures r.Ok? ==>
      var h := HeaderEnd(lines);
      && r.value.header == lines[..h] + [IdPropertyLine, EndHeaderLine]
      && r.value.data == NumberLines(PySlice(lines, h + 1, h + 1 + count.value))
  {
    var n :- count;
    var h := HeaderEnd(lines);
    Ok(PlyLines(lines[..h] + [IdPropertyLine, EndHeaderLine], NumberLines(PySlice(lines, h + 1, h + 1 + n))))
  }

  /** The lines of `window`, numbered from 1. */
  function NumberLines(window: seq<string>): (r: seq<string>)
    ensures |r| == |window|
    ensures forall k :: 0 <= k < |window| ==> r[k] == NumberedLine(window[k], k + 1)
  {
    seq(|window|, k requires 0 <= k < |window| => NumberedLine(window[k], k + 1))
  }

  /** With a non-negative count, exactly the first `vertex_count` lines after
      `end_header` are kept (fewer if the file is shorter), and later lines
      are dropped. */
  lemma AddIdKeepsFirstLines(lines: seq<string>)
    requires AddIdToPly(lines).Ok?
    requires VertexCount(0, ScannedLines(lines)).value >= 0
    ensures var n := VertexCount(0, ScannedLines(lines)).value;
      var h := HeaderEnd(lines);
      var d := AddIdToPly(lines).value.data;
      |d| == (if |lines| <= h + 1 then 0 else if h + 1 + n <= |lines| then n else |lines| - (h + 1))
  {
    var n := VertexCount(0, ScannedLines(lines)).value;
    var h := HeaderEnd(lines);
    PySliceForward(lines, h + 1, h + 1 + n);
  }

  /** Emitted line `k` is data line `k` after `end_header`, numbered `k + 1`. */
  lemma AddIdKeepsLines(lines: seq<string>)
    requires AddIdToPly(lines).Ok?
    requires VertexCount(0, ScannedLines(lines)).value >= 0
    ensures forall k :: 0 <= k < |AddIdToPly(lines).value.data| ==>
      KeptAt(lines, AddIdToPly(lines).value.data, HeaderEnd(lines), k)
  {
    var n := VertexCount(0, ScannedLines(lines)).value;
    var h := HeaderEnd(lines);
    var d := AddIdToPly(lines).value.data;
    assert d == NumberLines(PySlice(lines, h + 1, h + 1 + n));
    NumberedWindow(lines, h, n, d);
  }

  /** Lines numbered from the window `lines[h + 1 : h + 1 + n]` are the
      lines after line `h`, in order. */
  lemma NumberedWindow(lines: seq<string>, h: nat, n: nat, d: seq<string>)
    requires d == NumberLines(PySlice(lines, h + 1, h + 1 + n))
    ensures forall k :: 0 <= k < |d| ==> KeptAt(lines, d, h, k)
  {
    forall k | 0 <= k < |d| ensures KeptAt(lines, d, h, k) {
      NumberedWindowAt(lines, h, n, d, k);
    }
  }

  lemma NumberedWindowAt(lines: seq<string>, h: nat, n: nat, d: seq<string>, k: nat)
    requires d == NumberLines(PySlice(lines, h + 1, h + 1 + n)) && k < |d|
    ensures KeptAt(lines, d, h, k)
  {
    PySliceAt(lines, h + 1, h + 1 + n, k);
  }

  /** Emitted line `k` is data line `k` after the header line `h`, numbered
      `k + 1`. */
  predicate KeptAt(lines: seq<string>, d: seq<string>, h: nat, k: nat)
    requires k < |d|
  {
    h + 1 + k < |lines| && d[k] == NumberedLine(lines[h + 1 + k], k + 1)
  }

  /** A numbered line has the original tokens followed by its ID, so the ID
      reads back as the line's last token. */
  lemma NumberedLineTokens(line: string, i: int)
    ensures Split(NumberedLine(line, i)) == Split(line) + [IntToString(i)]
    ensures ParseInt(LastToken(NumberedLine(line, i))) == Some(i)
  {
    var s := IntToString(i);
    assert NumberedLine(line, i) == Strip(line) + [' '] + (s + "\n");
    SplitAtSpace(Strip(line), ' ', s + "\n");
    SplitStrip(line);
    SplitNewline(s);
    RenderedIsToken(i);
    SplitToken(s);
    ParseRendered(i);
  }

  /** The IDs of the emitted lines are 1, 2, ... in order. */
  lemma AddIdNumbersFromOne(lines: seq<string>, k: nat)
    requires AddIdToPly(lines).Ok?
    requires k < |AddIdToPly(lines).value.data|
    ensures ParseInt(LastToken(AddIdToPly(lines).value.data[k])) == Some(k + 1)
  {
    var h := HeaderEnd(lines);
    var window := PySlice(lines, h + 1, h + 1 + VertexCount(0, ScannedLines(lines)).value);
    NumberedLineTokens(window[k], k + 1);
  }
}

=== FILE: add_normals.dfy ===
/** `addnxyz.py`: insert three zero columns (a normal vector `nx ny nz`) after
    the coordinates of every row, and declare them after every property line
    that mentions `z`. */
module AddNormals {
  import opened Results
  import opened Text
  import opened PlyHeader
  import opened Numeric

  // ---------------------------------------------------------------------------
  // The rows
  // ---------------------------------------------------------------------------

  /** The three zero columns `data.insert(3, ...)`, `data.insert(4, ...)` and
      `data.insert(5, ...)` add to a row. */
  const ZeroNormal: seq<real> := [0.0, 0.0, 0.0]

  /** A row with the zero normal inserted after its first three values. */
  function InsertNormal(row: seq<real>): seq<real>
    requires |row| >= 3
  {
    row[..3] + ZeroNormal + row[3..]
  }

  /** The inverse: a row without its columns 3, 4 and 5. */
  function DropNormal(row: seq<real>): seq<real>
    requires |row| >= 6
  {
    row[..3] + row[6..]
  }

  /** The insertion adds exactly three zeros at 3..5, moves every later
      value right by three, and is undone by dropping those columns. */
  lemma InsertNormalSpec(row: seq<real>)
    requires |row| >= 3
    ensures var r := InsertNormal(row);
      && |r| == |row| + 3
      && r[3..6] == ZeroNormal
      && (forall j :: 0 <= j < 3 ==> r[j] == row[j])
      && (forall j :: 3 <= j < |row| ==> r[j + 3] == row[j])
      && DropNormal(r) == row
  {
    var r := InsertNormal(row);
    assert r[..3] == row[..3] && r[6..] == row[3..];
  }

  /** The frame after the three insertions. `DataFrame.insert` at position 3
      of a frame with fewer than three columns raises IndexError. */
  function InsertNormalColumns(data: Table, width: nat): (r: Result<Table>)
    requires Rectangular(data, width)
    ensures r.Ok? <==> width >= 3
    ensures r.Ok? ==> |r.value| == |data| && Rectangular(r.value, width + 3)
    ensures r.Ok? ==> forall i :: 0 <= i < |data| ==> DropNormal(r.value[i]) == data[i]
    ensures r.Ok? ==> forall i :: 0 <= i < |data| ==> r.value[i][3..6] == ZeroNormal
  {
    if width < 3 then Err(IndexError("column insertion index out of bounds"))
    else
      assert forall i :: 0 <= i < |data| ==> |data[i]| >= 3;
      var rows := seq(|data|, i requires 0 <= i < |data| => InsertNormal(data[i]));
      assert forall i :: 0 <= i < |data| ==> DropNormal(rows[i]) == data[i] && rows[i][3..6] == ZeroNormal by {
        forall i | 0 <= i < |data| ensures DropNormal(rows[i]) == data[i] && rows[i][3..6] == ZeroNormal {
          InsertNormalSpec(data[i]);
        }
      }
      Ok(rows)
  }

  // ---------------------------------------------------------------------------
  // The header
  // ---------------------------------------------------------------------------

  const NxLine := "property float nx\n"
  const NyLine := "property float ny\n"
  const NzLine := "property float nz\n"

  /** `line.startswith("property") and 'z' in line`. */
  predicate MentionsZ(line: string) {
    IsPropertyLine(line) && Contains(line, "z")
  }

  /** What the header loop appends for one input line. */
  function HeaderPiece(line: string, n: int): seq<string> {
    if IsVertexLine(line) then [VertexLine(n)]
    else if MentionsZ(line) then [line, NxLine, NyLine, NzLine]
    else if IsStrippedEndHeader(line) then [EndHeaderLine]
    else [line]
  }

  /** The header loop of `main`, with `n = len(data)`. */
  function AddNormalsHeader(header: seq<string>, n: int): seq<string>
    decreases |header|
  {
    if |header| == 0 then []
    else HeaderPiece(header[0], n) + AddNormalsHeader(header[1..], n)
  }

  /** The loop treats each line on its own: the output for a concatenation
      is the concatenation of the outputs. */
  lemma {:induction false} AddNormalsHeaderAppend(a: seq<string>, b: seq<string>, n: int)
    ensures AddNormalsHeader(a + b, n) == AddNormalsHeader(a, n) + AddNormalsHeader(b, n)
    decreases |a|
  {
    if |a| > 0 {
      assert (a + b)[0] == a[0] && (a + b)[1..] == a[1..] + b;
      AddNormalsHeaderAppend(a[1..], b, n);
      var p := HeaderPiece(a[0], n);
      assert AddNormalsHeader(a + b, n) == p + AddNormalsHeader(a[1..] + b, n);
      assert AddNormalsHeader(a, n) == p + AddNormalsHeader(a[1..], n);
    } else {
      assert a + b == b;
    }
  }

  /** The number of property lines that mention `z`. */
  function ZCount(header: seq<string>): nat
    decreases |header|
  {
    if |header| == 0 then 0
    else (if MentionsZ(header[0]) && !IsVertexLine(header[0]) then 1 else 0) + ZCount(header[1..])
  }

  /** Each `z` property line brings three more lines, every other line one. */
  lemma {:induction false} AddNormalsHeaderLength(header: seq<string>, n: int)
    ensures |AddNormalsHeader(header, n)| == |header| + 3 * ZCount(header)
    decreases |header|
  {
    if |header| > 0 {
      AddNormalsHeaderLength(header[1..], n);
    }
  }

  /** Where line `i` of the input lands in the output, and what it becomes:
      a vertex line declares `n` rows, a property line mentioning `z` is
      followed by the `nx`, `ny` and `nz` declarations, `end_header` is
      written without padding, and every other line is copied. */
  lemma AddNormalsHeaderAt(header: seq<string>, n: int, i: nat)
    requires i < |header|
    ensures var out := AddNormalsHeader(header, n);
      var o := |AddNormalsHeader(header[..i], n)|;
      var line := header[i];
      && o + |HeaderPiece(line, n)| <= |out|
      && out[o..o + |HeaderPiece(line, n)|] == HeaderPiece(line, n)
      && (IsVertexLine(line) ==> out[o] == VertexLine(n))
      && (!IsVertexLine(line) && MentionsZ(line) ==> out[o..o + 4] == [line, NxLine, NyLine, NzLine])
      && (!IsVertexLine(line) && !MentionsZ(line) && IsStrippedEndHeader(line) ==> out[o] == EndHeaderLine)
      && (!IsVertexLine(line) && !MentionsZ(line) && !IsStrippedEndHeader(line) ==> out[o] == line)
  {
    var a, b := header[..i], header[i..];
    assert header == a + b;
    AddNormalsHeaderAppend(a, b, n);
    assert b[0] == header[i];
    var p := HeaderPiece(header[i], n);
    assert AddNormalsHeader(b, n) == p + AddNormalsHeader(b[1..], n);
    Associative(AddNormalsHeader(a, n), p, AddNormalsHeader(b[1..], n));
    MiddleSlice(AddNormalsHeader(a, n), p, AddNormalsHeader(b[1..], n));
  }

  /** The lines the loop adds are not vertex lines. */
  lemma NotVertexLines()
    ensures !IsVertexLine(NxLine) && !IsVertexLine(NyLine) && !IsVertexLine(NzLine)
    ensures !IsVertexLine(EndHeaderLine)
  {
    assert NxLine[0] != 'e' && NyLine[0] != 'e' && NzLine[0] != 'e';
    assert EndHeaderLine[1] != 'l';
  }

  /** Every vertex line of `out` declares `n` rows. */
  predicate VertexLinesDeclare(out: seq<string>, n: int) {
    forall j :: 0 <= j < |out| && IsVertexLine(out[j]) ==> out[j] == VertexLine(n)
  }

  lemma PieceVertexLines(line: string, n: int)
    ensures VertexLinesDeclare(HeaderPiece(line, n), n)
  {
    NotVertexLines();
  }

  /** Every vertex line of the output declares `n` rows. */
  lemma {:induction false} AddNormalsHeaderVertexLines(header: seq<string>, n: int)
    ensures VertexLinesDeclare(AddNormalsHeader(header, n), n)
    decreases |header|
  {
    if |header| > 0 {
      AddNormalsHeaderVertexLines(header[1..], n);
      PieceVertexLines(header[0], n);
      var p := HeaderPiece(header[0], n);
      var rest := AddNormalsHeader(header[1..], n);
      assert AddNormalsHeader(header, n) == p + rest;
      VertexLinesAppend(p, rest, n);
    }
  }

  lemma VertexLinesAppend(p: seq<string>, rest: seq<string>, n: int)
    requires VertexLinesDeclare(p, n) && VertexLinesDeclare(rest, n)
    ensures VertexLinesDeclare(p + rest, n)
  {
    var out := p + rest;
    assert forall j :: |p| <= j < |out| ==> out[j] == rest[j - |p|];
  }

  // ---------------------------------------------------------------------------
  // The file
  // ---------------------------------------------------------------------------

  /** The output of `main`: the rewritten header and the widened frame.
      Rendering the values with `str` is not modelled. */
  datatype Widened = Widened(header: seq<string>, rows: Table)

  /** `main` of `addnxyz.py`, with `data` the frame `pandas.read_csv` reads
      after the header (through the first line that strips to
      `end_header`, or every line when there is none). */
  function AddNormalColumns(lines: seq<string>, data: Table, width: nat): (r: Result<Widened>)
    requires Rectangular(data, width)
    ensures r.Ok? <==> width >= 3
    ensures r.Ok? ==> |r.value.rows| == |data| && Rectangular(r.value.rows, width + 3)
    ensures r.Ok? ==> forall i :: 0 <= i < |data| ==> DropNormal(r.value.rows[i]) == data[i]
    ensures r.Ok? ==> forall i :: 0 <= i < |data| ==> r.value.rows[i][3..6] == ZeroNormal
    ensures r.Ok? ==> r.value.header == AddNormalsHeader(SplitAtSentinel(lines, IsStrippedEndHeader).header, |data|)
    ensures r.Ok? ==> var h := r.value.header;
      |h| == |SplitAtSentinel(lines, IsStrippedEndHeader).header| +
             3 * ZCount(SplitAtSentinel(lines, IsStrippedEndHeader).header)
    ensures r.Ok? ==> var h := r.value.header;
      forall j :: 0 <= j < |h| && IsVertexLine(h[j]) ==> ParseInt(LastToken(h[j])) == Some(|r.value.rows|)
  {
    var rows :- InsertNormalColumns(data, width);
    var header := SplitAtSentinel(lines, IsStrippedEndHeader).header;
    AddNormalsHeaderLength(header, |rows|);
    AddNormalsHeaderVertexLines(header, |rows|);
    VertexLineDeclares(|rows|);
    Ok(Widened(AddNormalsHeader(header, |rows|), rows))
  }
}

=== FILE: attribute_split.dfy ===
/** `attributes_spilt.py`: number the rows of a PLY table, then cut it into
    column groups, each written with a header that declares only the kept
    properties plus a trailing integer `ID` property. The table is the frame
    `pandas.read_csv` builds from the data lines: a rectangular grid of
    numbers. */
module AttributeSplit {
  import opened Results
  import opened Text
  import opened PlyHeader
  import opened Numeric

  // ---------------------------------------------------------------------------
  // The ID column
  // ---------------------------------------------------------------------------

  /** `data['ID'] = range(len(data))`: a last column numbering the rows from 0. */
  function AddUniqueId(t: Table): (r: Table)
    ensures |r| == |t|
    ensures forall i :: 0 <= i < |t| ==> |r[i]| == |t[i]| + 1 && r[i][..|t[i]|] == t[i]
    ensures forall i :: 0 <= i < |t| ==> r[i][|t[i]|] == i as real
  {
    seq(|t|, i requires 0 <= i < |t| => t[i] + [i as real])
  }

  // ---------------------------------------------------------------------------
  // `iloc` column selection
  // ---------------------------------------------------------------------------

  /** A positional column index as `iloc` resolves it: negative indices count
      from the end, and anything outside the frame is an IndexError. */
  function ResolveColumn(c: int, width: nat): (r: Result<nat>)
    ensures r.Ok? <==> -(width as int) <= c < width
    ensures r.Ok? ==> r.value < width && (r.value as int == c || r.value as int == c + width)
  {
    if 0 <= c < width then Ok(c)
    else if -(width as int) <= c < 0 then Ok(c + width)
    else Err(IndexError("positional indexers are out-of-bounds"))
  }

  function ResolveColumns(cols: seq<int>, width: nat): (r: Result<seq<nat>>)
    ensures r.Ok? <==> forall j :: 0 <= j < |cols| ==> ResolveColumn(cols[j], width).Ok?
    ensures r.Ok? ==> |r.value| == |cols|
    ensures r.Ok? ==> forall j :: 0 <= j < |cols| ==> Ok(r.value[j]) == ResolveColumn(cols[j], width)
  {
    if |cols| == 0 then Ok([])
    else
      var c :- ResolveColumn(cols[0], width);
      var rest :- ResolveColumns(cols[1..], width);
      Ok([c] + rest)
  }

  /** `data.iloc[:, idx]` for resolved indices: every row, the given columns in
      the given order. */
  function SelectColumns(t: Table, width: nat, idx: seq<nat>): (r: Table)
    requires Rectangular(t, width)
    requires forall j :: 0 <= j < |idx| ==> idx[j] < width
    ensures |r| == |t| && Rectangular(r, |idx|)
    ensures forall i, j :: 0 <= i < |t| && 0 <= j < |idx| ==> r[i][j] == t[i][idx[j]]
  {
    seq(|t|, i requires 0 <= i < |t| => seq(|idx|, j requires 0 <= j < |idx| => t[i][idx[j]]))
  }

  // ---------------------------------------------------------------------------
  // The header rewrite
  // ---------------------------------------------------------------------------

  /** The property lines of a header, in order. */
  function Properties(header: seq<string>): (r: seq<string>)
    ensures forall k :: 0 <= k < |r| ==> IsPropertyLine(r[k])
  {
    if |header| == 0 then []
    else (if IsPropertyLine(header[0]) then [header[0]] else []) + Properties(header[1..])
  }

  /** The loop of `filter_ply_columns` from the line at hand on, with the
      property counter `keepIndex`: property lines whose ordinal is in `keep`
      go to the property list; an `element vertex` line is replaced by one
      declaring `n` rows; every other line is kept. */
  function FilterLines(lines: seq<string>, keep: seq<int>, n: int, keepIndex: int): (r: (seq<string>, seq<string>))
    ensures |r.0| + |r.1| <= |lines|
  {
    if |lines| == 0 then ([], [])
    else
      var line := lines[0];
      var (others, props) := FilterLines(lines[1..], keep, n, keepIndex + (if IsPropertyLine(line) then 1 else 0));
      if IsPropertyLine(line) then
        (others, (if keepIndex in keep then [line] else []) + props)
      else if IsVertexLine(line) then
        ([VertexLine(n)] + others, props)
      else
        ([line] + others, props)
  }

  /** The property lines whose ordinal, counted from `first`, is in `keep`. */
  function SelectByOrdinal(props: seq<string>, keep: seq<int>, first: int): (r: seq<string>)
  {
    if |props| == 0 then []
    else (if first in keep then [props[0]] else []) + SelectByOrdinal(props[1..], keep, first + 1)
  }

  /** The header written for one column group: the first three kept
      non-property lines, the selected property lines, `property int ID` and
      `end_header`. */
  function FilterHeader(header: seq<string>, keep: seq<int>, n: int): (r: seq<string>)
    ensures |r| >= 2 && r[|r| - 2..] == ["property int ID\n", "end_header\n"]
  {
    var (others, props) := FilterLines(header, keep, n, 0);
    PySlice(others, 0, 3) + props + ["property int ID\n"] + ["end_header\n"]
  }

  /** `filter_ply_columns(header, data, columns_to_keep)`: the ID column is
      appended, the group plus the ID column (`-1`) is selected with `iloc`,
      and the header is rewritten to match. */
  function FilterPlyColumns(header: seq<string>, t: Table, width: nat, keep: seq<int>): (r: Result<(seq<string>, Table)>)
    requires Rectangular(t, width)
    ensures r.Ok? <==> forall j :: 0 <= j < |keep| ==> -(width as int) - 1 <= keep[j] <= width
    ensures r.Ok? ==> |r.value.1| == |t| && Rectangular(r.value.1, |keep| + 1)
    ensures r.Ok? ==> forall i :: 0 <= i < |t| ==> r.value.1[i][|keep|] == i as real
  {
    var data := AddUniqueId(t);
    var cols := keep + [-1];
    var idx :- ResolveColumns(cols, width + 1);
    assert forall j :: 0 <= j < |keep| ==> cols[j] == keep[j];
    var filtered := SelectColumns(data, width + 1, idx);
    assert idx[|keep|] == width;
    Ok((FilterHeader(header, cols, |filtered|), filtered))
  }

  // ---------------------------------------------------------------------------
  // Properties
  // ---------------------------------------------------------------------------

  /** The loop's property list is the selection by ordinal over the header's
      property lines. */
  lemma {:induction false} FilterLinesSelects(lines: seq<string>, keep: seq<int>, n: int, k: int)
    ensures FilterLines(lines, keep, n, k).1 == SelectByOrdinal(Properties(lines), keep, k)
    decreases |lines|
  {
    if |lines| > 0 {
      var line := lines[0];
      FilterLinesSelects(lines[1..], keep, n, k + (if IsPropertyLine(line) then 1 else 0));
      if IsPropertyLine(line) {
        var ps := Properties(lines);
        assert ps == [line] + Properties(lines[1..]);
        assert ps[1..] == Properties(lines[1..]);
      } else {
        assert Properties(lines) == Properties(lines[1..]);
      }
    }
  }

  /** The header lines that are not property lines, in order. */
  function NonProperties(header: seq<string>): (r: seq<string>)
    ensures |r| <= |header|
  {
    if |header| == 0 then []
    else (if IsPropertyLine(header[0]) then [] else [header[0]]) + NonProperties(header[1..])
  }

  /** The loop keeps every non-property line in order, with each
      `element vertex` line replaced by the declaration of `n` rows. */
  lemma {:induction false} FilterLinesOthers(lines: seq<string>, keep: seq<int>, n: int, k: int)
    ensures FilterLines(lines, keep, n, k).0 == RewriteVertexLines(NonProperties(lines), n)
    decreases |lines|
  {
    if |lines| > 0 {
      var line := lines[0];
      var k' := k + (if IsPropertyLine(line) then 1 else 0);
      FilterLinesOthers(lines[1..], keep, n, k');
      var rest := NonProperties(lines[1..]);
      if !IsPropertyLine(line) {
        var a := RewriteVertexLines([line] + rest, n);
        var b := RewriteVertexLines(rest, n);
        assert a == RewriteVertexLines([line], n) + b by {
          assert forall i :: 0 < i < |a| ==> a[i] == b[i - 1];
        }
      }
    }
  }

  /** The written header: the first three non-property lines (with the row
      count rewritten), the property lines whose ordinal is kept, in header
      order, then `property int ID` and `end_header`. */
  lemma FilterHeaderShape(header: seq<string>, keep: seq<int>, n: int)
    ensures FilterHeader(header, keep, n) ==
      PySlice(RewriteVertexLines(NonProperties(header), n), 0, 3)
        + SelectByOrdinal(Properties(header), keep, 0) + ["property int ID\n", "end_header\n"]
  {
    FilterLinesOthers(header, keep, n, 0);
    FilterLinesSelects(header, keep, n, 0);
  }

  /** Strictly increasing column indices: no repeats, in file order. */
  predicate Increasing(keep: seq<int>) {
    forall a, b :: 0 <= a < b < |keep| ==> keep[a] < keep[b]
  }

  /** An increasing list of integers drawn from `[lo, hi)` has at most
      `hi - lo` entries. */
  lemma {:induction false} IncreasingWithin(keep: seq<int>, lo: int, hi: int)
    requires Increasing(keep)
    requires forall j :: 0 <= j < |keep| ==> lo <= keep[j] < hi
    ensures |keep| == 0 || lo + |keep| <= hi
  {
    if |keep| > 0 {
      var rest := keep[1..];
      assert Increasing(rest) by {
        forall a, b | 0 <= a < b < |rest| ensures rest[a] < rest[b] {
          assert rest[a] == keep[a + 1] && rest[b] == keep[b + 1];
        }
      }
      forall j | 0 <= j < |rest| ensures keep[0] + 1 <= rest[j] < hi {
        assert rest[j] == keep[j + 1];
      }
      IncreasingWithin(rest, keep[0] + 1, hi);
      assert lo <= keep[0] < hi;
    }
  }

  /** Selecting by ordinal with an increasing list of ordinals inside the
      property range picks exactly the listed property lines, in order. */
  lemma {:induction false} SelectIncreasing(props: seq<string>, keep: seq<int>, first: int)
    requires Increasing(keep)
    requires forall j :: 0 <= j < |keep| ==> first <= keep[j] < first + |props|
    ensures |SelectByOrdinal(props, keep, first)| == |keep|
    ensures forall j :: 0 <= j < |keep| ==> SelectByOrdinal(props, keep, first)[j] == props[keep[j] - first]
    decreases |props|, 1
  {
    if |props| == 0 {
      IncreasingWithin(keep, first, first);
    } else if first in keep {
      SelectIncreasingHit(props, keep, first);
    } else {
      forall j | 0 <= j < |keep| ensures first + 1 <= keep[j] < first + 1 + |props[1..]| {
        assert keep[j] != first;
      }
      SelectIncreasing(props[1..], keep, first + 1);
    }
  }

  /** The step of `SelectIncreasing` where the first ordinal is selected: it
      is then the head of the list. */
  lemma {:induction false} SelectIncreasingHit(props: seq<string>, keep: seq<int>, first: int)
    requires Increasing(keep)
    requires forall j :: 0 <= j < |keep| ==> first <= keep[j] < first + |props|
    requires |props| > 0 && first in keep
    ensures |SelectByOrdinal(props, keep, first)| == |keep|
    ensures forall j :: 0 <= j < |keep| ==> SelectByOrdinal(props, keep, first)[j] == props[keep[j] - first]
    decreases |props|, 0
  {
    var rest := keep[1..];
    SelectedHead(keep, first, |props|);
    SelectIncreasing(props[1..], rest, first + 1);
    SelectSameMembers(props[1..], keep, rest, first + 1);
    var tail := SelectByOrdinal(props[1..], keep, first + 1);
    assert SelectByOrdinal(props, keep, first) == [props[0]] + tail;
    forall j | 0 <= j < |keep| ensures ([props[0]] + tail)[j] == props[keep[j] - first] {
      if j > 0 {
        assert tail[j - 1] == props[1..][rest[j - 1] - (first + 1)];
      }
    }
  }

  /** An increasing list of ordinals in `[first, first + n)` that holds
      `first` starts with it, and its tail covers the rest of the range in
      the same way. */
  lemma SelectedHead(keep: seq<int>, first: int, n: nat)
    requires Increasing(keep)
    requires forall j :: 0 <= j < |keep| ==> first <= keep[j] < first + n
    requires first in keep
    ensures keep[0] == first
    ensures Increasing(keep[1..])
    ensures forall j :: 0 <= j < |keep| - 1 ==> first + 1 <= keep[1..][j] < first + n
    ensures forall o :: first + 1 <= o < first + n ==> (o in keep <==> o in keep[1..])
  {
    assert keep[0] == first by {
      var m :| 0 <= m < |keep| && keep[m] == first;
      assert keep[0] <= keep[m];
    }
    var rest := keep[1..];
    assert Increasing(rest) by {
      forall a, b | 0 <= a < b < |rest| ensures rest[a] < rest[b] {
        assert rest[a] == keep[a + 1] && rest[b] == keep[b + 1];
      }
    }
    forall j | 0 <= j < |rest| ensures first + 1 <= rest[j] < first + n {
      assert rest[j] == keep[j + 1] && keep[0] < keep[j + 1];
    }
    forall o | first + 1 <= o < first + n ensures o in keep <==> o in rest {
      if o in keep {
        var m :| 0 <= m < |keep| && keep[m] == o;
        assert m != 0;
        assert rest[m - 1] == o;
      }
    }
  }

  /** Only membership at ordinals from `first` on matters to the selection. */
  lemma {:induction false} SelectSameMembers(props: seq<string>, a: seq<int>, b: seq<int>, first: int)
    requires forall o :: first <= o < first + |props| ==> (o in a <==> o in b)
    ensures SelectByOrdinal(props, a, first) == SelectByOrdinal(props, b, first)
    decreases |props|
  {
    if |props| > 0 {
      SelectSameMembers(props[1..], a, b, first + 1);
    }
  }

  /** Header and data agree: for an increasing group of property positions,
      the written header declares exactly the group's property lines, in the
      order of the data columns, followed by the ID property. */
  lemma FilterHeaderMatchesColumns(header: seq<string>, keep: seq<int>, n: int)
    requires Increasing(keep)
    requires forall j :: 0 <= j < |keep| ==> 0 <= keep[j] < |Properties(header)|
    ensures var props := FilterLines(header, keep + [-1], n, 0).1;
      |props| == |keep| && forall j :: 0 <= j < |keep| ==> props[j] == Properties(header)[keep[j]]
  {
    var ps := Properties(header);
    FilterLinesSelects(header, keep + [-1], n, 0);
    SelectSameMembers(ps, keep + [-1], keep, 0);
    SelectIncreasing(ps, keep, 0);
  }

  /** One output file of the split: when the header declares one property
      per table column and the group is an increasing list of property
      positions, the written data holds, in row `i`, row `i`'s values in the
      group's columns and then `i`; with `FilterHeaderMatchesColumns`, data
      column `j` is the one the `j`-th written property line describes. */
  lemma SplitAgrees(header: seq<string>, t: Table, keep: seq<int>)
    requires Rectangular(t, |Properties(header)|)
    requires forall j :: 0 <= j < |keep| ==> 0 <= keep[j] < |Properties(header)|
    ensures FilterPlyColumns(header, t, |Properties(header)|, keep).Ok?
    ensures var d := FilterPlyColumns(header, t, |Properties(header)|, keep).value.1;
      forall i, j :: 0 <= i < |t| && 0 <= j < |keep| ==> d[i][j] == t[i][keep[j]]
  {
    var width := |Properties(header)|;
    var r := FilterPlyColumns(header, t, width, keep);
    var cols := keep + [-1];
    var idx := ResolveColumns(cols, width + 1).value;
    var data := AddUniqueId(t);
    var d := r.value.1;
    assert d == SelectColumns(data, width + 1, idx);
    forall i, j | 0 <= i < |t| && 0 <= j < |keep| ensures d[i][j] == t[i][keep[j]] {
      assert cols[j] == keep[j];
      assert idx[j] == keep[j];
      assert data[i][..width] == t[i];
      assert data[i][keep[j]] == data[i][..width][keep[j]];
    }
  }

  /** The column groups `main` writes, one per output file. */
  const ColumnGroups: seq<seq<int>> := [
    [0, 1, 2], [3, 4, 5], [6, 7, 8], [9, 10, 11], [12, 13, 14], [15, 16, 17],
    [18, 19, 20], [21, 22, 23], [24, 25, 26], [27, 28, 29], [30, 31, 32],
    [33, 34, 35], [36, 37, 38], [39, 40, 41], [42, 43, 44], [45, 46, 47],
    [48, 49, 50], [51, 52, 53], [52, 53, 54], [55, 56, 57], [58, 59, 60],
    [59, 60, 61]]

  /** Every group is an increasing triple of positions below 62, the number
      of vertex properties of a 3D Gaussian Splatting file, so for such a file
      every group's header matches its data columns. */
  lemma ColumnGroupsWellFormed()
    ensures |ColumnGroups| == 22
    ensures forall g :: 0 <= g < |ColumnGroups| ==>
      |ColumnGroups[g]| == 3 && Increasing(ColumnGroups[g])
      && forall j :: 0 <= j < 3 ==> 0 <= ColumnGroups[g][j] < 62
  {
    forall g | 0 <= g < |ColumnGroups|
      ensures |ColumnGroups[g]| == 3 && Increasing(ColumnGroups[g])
      ensures forall j :: 0 <= j < 3 ==> 0 <= ColumnGroups[g][j] < 62
    {
      ConsecutiveTriple(ColumnGroups[g]);
    }
  }

  /** Three consecutive positions below 62, in order. */
  lemma ConsecutiveTriple(t: seq<int>)
    requires |t| == 3 && 0 <= t[0] && t[1] == t[0] + 1 && t[2] == t[0] + 2 && t[2] < 62
    ensures Increasing(t)
    ensures forall j :: 0 <= j < 3 ==> 0 <= t[j] < 62
  {
  }
}

=== FILE: codec.dfy ===
/** The ASCII <-> binary PLY record codec of `convert_ascii_ply_to_binary`
    and `convert_binary_ply_to_ascii`.

    A data row is typed by the header's property types: `float` is written as
    four little-endian bytes of its float32 pattern, `uchar` as one byte, `int`
    as four little-endian two's-complement bytes, and any other type as
    nothing at all. Float parsing and float printing are outside the model:
    they are supplied by the caller as a `FloatReader` (Python's `float()`
    followed by `struct.pack('<f', ...)`) and a `FloatWriter` (`str()` of the
    value `struct.unpack('<f', ...)` returns). */
module Codec {
  import opened Results
  import opened Text
  import opened LittleEndian
  import opened PlyHeader

  /** A value of one data cell: a float32 kept as its bit pattern, or an integer. */
  datatype Value = Float32(bits: Bits32) | Integer(n: int)

  /** ASCII token -> float32 pattern; `None` when `float()` rejects the token or
      the value does not fit a float32. */
  type FloatReader = string -> Option<Bits32>

  /** float32 pattern -> the text `str()` prints for it. */
  type FloatWriter = Bits32 -> string

  /** A binary PLY file: its header lines and the bytes after the header. */
  datatype BinaryPly = BinaryPly(header: seq<string>, body: seq<byte>)

  function Min(a: int, b: int): int {
    if a < b then a else b
  }

  // ---------------------------------------------------------------------------
  // Property types
  // ---------------------------------------------------------------------------

  /** The types the converters know how to pack. */
  predicate Supported(t: string) {
    t == "float" || t == "uchar" || t == "int"
  }

  /** Bytes per value of a property type; unknown types occupy no bytes. */
  function Width(t: string): nat {
    if t == "float" then 4 else if t == "uchar" then 1 else if t == "int" then 4 else 0
  }

  /** Bytes per record: the sum of the property widths. */
  function RecordWidth(types: seq<string>): nat {
    if |types| == 0 then 0 else Width(types[0]) + RecordWidth(types[1..])
  }

  /** A row of values fits a type list: no longer than it, and a value is a
      float exactly where its property type is `float`. */
  predicate Conforms(vals: seq<Value>, types: seq<string>) {
    && |vals| <= |types|
    && forall i :: 0 <= i < |vals| ==> (vals[i].Float32? <==> types[i] == "float")
  }

  /** The values whose property type is supported, in order: what a decoder
      can give back. */
  function KeepSupported(vals: seq<Value>, types: seq<string>): (r: seq<Value>)
    requires |vals| <= |types|
    ensures |r| <= |vals|
  {
    if |vals| == 0 then []
    else (if Supported(types[0]) then [vals[0]] else []) + KeepSupported(vals[1..], types[1..])
  }

  // ---------------------------------------------------------------------------
  // ASCII side: tokens -> values
  // ---------------------------------------------------------------------------

  /** One token read as its property type: `float(x)` for `float`, `int(x)`
      for every other type (so `1.0` under `uchar` is a ValueError). */
  function ParseToken(x: string, t: string, readFloat: FloatReader): (r: Result<Value>)
    ensures r.Ok? ==> (r.value.Float32? <==> t == "float")
    ensures t != "float" ==> (r.Ok? <==> ParseInt(x).Some?)
    ensures t != "float" && r.Ok? ==> r.value == Integer(ParseInt(x).value)
    ensures t == "float" ==> (r.Ok? <==> readFloat(x).Some?)
  {
    if t == "float" then
      match readFloat(x)
      case None => Err(ValueError("could not convert string to float: " + x))
      case Some(b) => Ok(Float32(b))
    else
      match ParseInt(x)
      case None => Err(ValueError("invalid literal for int(): " + x))
      case Some(n) => Ok(Integer(n))
  }

  /** A data row zipped with the property types: one value per (token, type)
      pair, so surplus tokens are ignored and a short row yields fewer values. */
  function ParseRow(tokens: seq<string>, types: seq<string>, readFloat: FloatReader): (r: Result<seq<Value>>)
    ensures r.Ok? ==> |r.value| == Min(|tokens|, |types|) && Conforms(r.value, types)
    ensures r.Ok? <==> forall i :: 0 <= i < Min(|tokens|, |types|) ==> ParseToken(tokens[i], types[i], readFloat).Ok?
    ensures r.Ok? ==> forall i :: 0 <= i < |r.value| ==> Ok(r.value[i]) == ParseToken(tokens[i], types[i], readFloat)
    decreases |tokens|
  {
    if |tokens| == 0 || |types| == 0 then Ok([])
    else
      var v :- ParseToken(tokens[0], types[0], readFloat);
      var rest :- ParseRow(tokens[1..], types[1..], readFloat);
      Ok([v] + rest)
  }

  /** Every data line parsed, in order; the first bad token fails the lot. */
  function ParseRows(lines: seq<string>, types: seq<string>, readFloat: FloatReader): (r: Result<seq<seq<Value>>>)
    ensures r.Ok? ==> |r.value| == |lines|
    ensures r.Ok? ==> forall i :: 0 <= i < |lines| ==> ParseRow(Split(lines[i]), types, readFloat) == Ok(r.value[i])
    ensures r.Ok? <==> forall i :: 0 <= i < |lines| ==> ParseRow(Split(lines[i]), types, readFloat).Ok?
    ensures r.Ok? ==> forall i :: 0 <= i < |r.value| ==> Conforms(r.value[i], types)
  {
    if |lines| == 0 then Ok([])
    else
      var row :- ParseRow(Split(lines[0]), types, readFloat);
      var rest :- ParseRows(lines[1..], types, readFloat);
      Ok([row] + rest)
  }

  // ---------------------------------------------------------------------------
  // Binary side: values <-> bytes
  // ---------------------------------------------------------------------------

  /** `struct.pack` of one value: `<f`, `<B` or `<i` by property type, and
      nothing for any other type; `<B` and `<i` reject out-of-range integers. */
  function EncodeValue(v: Value, t: string): (r: Result<seq<byte>>)
    requires v.Float32? <==> t == "float"
    ensures r.Ok? ==> |r.value| == Width(t)
    ensures r.Err? <==> (t == "uchar" && !InUChar(v.n)) || (t == "int" && !InInt32(v.n))
  {
    Pow256Four();
    match v
    case Float32(b) => Ok(LeBytes(b, 4))
    case Integer(n) =>
      if t == "uchar" then
        if InUChar(n) then Ok(LeBytes(n, 1))
        else Err(StructError("ubyte format requires 0 <= number <= 255"))
      else if t == "int" then
        if InInt32(n) then Ok(LeBytes(Int32Pattern(n), 4))
        else Err(StructError("'i' format requires -2147483648 <= number <= 2147483647"))
      else Ok([])
  }

  /** The bytes of one record: its values packed in order. */
  function EncodeRecord(vals: seq<Value>, types: seq<string>): (r: Result<seq<byte>>)
    requires Conforms(vals, types)
    ensures r.Ok? ==> |r.value| == RecordWidth(types[..|vals|])
    ensures r.Ok? <==> RowPacks(vals, types)
  {
    if |vals| == 0 then assert types[..0] == []; Ok([])
    else
      var head :- EncodeValue(vals[0], types[0]);
      var tail :- EncodeRecord(vals[1..], types[1..]);
      assert types[..|vals|][1..] == types[1..][..|vals| - 1];
      Ok(head + tail)
  }

  /** Every value of a row fits its property type's `struct` format. */
  predicate RowPacks(vals: seq<Value>, types: seq<string>)
    requires Conforms(vals, types)
  {
    forall j :: 0 <= j < |vals| ==> EncodeValue(vals[j], types[j]).Ok?
  }

  /** Every row packs. */
  predicate Packs(rows: seq<seq<Value>>, types: seq<string>)
    requires forall i :: 0 <= i < |rows| ==> Conforms(rows[i], types)
  {
    forall i :: 0 <= i < |rows| ==> RowPacks(rows[i], types)
  }

  /** The data section: every record's bytes, concatenated in row order. */
  function EncodeBody(rows: seq<seq<Value>>, types: seq<string>): (r: Result<seq<byte>>)
    requires forall i :: 0 <= i < |rows| ==> Conforms(rows[i], types)
    ensures r.Ok? <==> Packs(rows, types)
  {
    if |rows| == 0 then Ok([])
    else
      var head :- EncodeRecord(rows[0], types);
      var tail :- EncodeBody(rows[1..], types);
      Ok(head + tail)
  }

  /** `struct.unpack` of one value from the front of `data`; `f.read(n)` on a
      too-short stream returns fewer bytes and `unpack` then fails. Unknown
      types read nothing and add no value. */
  function DecodeValue(data: seq<byte>, t: string): (r: Result<(seq<Value>, seq<byte>)>)
    ensures r.Ok? <==> |data| >= Width(t)
    ensures r.Ok? ==> r.value.1 == data[Width(t)..]
    ensures r.Ok? ==> |r.value.0| == (if Supported(t) then 1 else 0)
  {
    Pow256Four();
    if |data| < Width(t) then Err(StructError("unpack requires a buffer of " + NatToString(Width(t)) + " bytes"))
    else if t == "float" then Ok(([Float32(LeValue(data[..4]))], data[4..]))
    else if t == "uchar" then Ok(([Integer(LeValue(data[..1]))], data[1..]))
    else if t == "int" then Ok(([Integer(SignedOf(LeValue(data[..4])))], data[4..]))
    else Ok(([], data))
  }

  /** One record read property by property, in header order. */
  function DecodeRecord(data: seq<byte>, types: seq<string>): (r: Result<(seq<Value>, seq<byte>)>)
    ensures r.Ok? <==> |data| >= RecordWidth(types)
    ensures r.Ok? ==> r.value.1 == data[RecordWidth(types)..]
    decreases |types|
  {
    if |types| == 0 then Ok(([], data))
    else
      var (v, rest) :- DecodeValue(data, types[0]);
      var (vs, rest') :- DecodeRecord(rest, types[1..]);
      assert data[Width(types[0])..][RecordWidth(types[1..])..] == data[RecordWidth(types)..];
      Ok((v + vs, rest'))
  }

  /** Exactly `n` records from the front of the body; what follows is never read. */
  function DecodeRows(data: seq<byte>, types: seq<string>, n: nat): (r: Result<seq<seq<Value>>>)
    ensures r.Ok? <==> |data| >= n * RecordWidth(types)
    ensures r.Ok? ==> |r.value| == n
    decreases n
  {
    if n == 0 then Ok([])
    else
      var (row, rest) :- DecodeRecord(data, types);
      var rows :- DecodeRows(rest, types, n - 1);
      Ok([row] + rows)
  }

  // ---------------------------------------------------------------------------
  // Round trips
  // ---------------------------------------------------------------------------

  /** Decoding an encoded value gives it back (and nothing for unknown types);
      the bytes after it are left for the next value. */
  lemma ValueRoundTrip(v: Value, t: string, rest: seq<byte>)
    requires v.Float32? <==> t == "float"
    requires EncodeValue(v, t).Ok?
    ensures DecodeValue(EncodeValue(v, t).value + rest, t) ==
      Ok((if Supported(t) then [v] else [], rest))
  {
    Pow256Four();
    var b := EncodeValue(v, t).value;
    var data := b + rest;
    assert data[..|b|] == b && data[|b|..] == rest;
    match v
    case Float32(bits) =>
      LeValueOfBytes(bits, 4);
    case Integer(n) =>
      if t == "uchar" {
        LeValueOfBytes(n, 1);
      } else if t == "int" {
        LeValueOfBytes(Int32Pattern(n), 4);
      }
  }

  /** A full-width record decodes back to its supported values, and the
      decoder stops exactly at the record's end. */
  lemma {:induction false} RecordRoundTrip(vals: seq<Value>, types: seq<string>, rest: seq<byte>)
    requires Conforms(vals, types) && |vals| == |types|
    requires EncodeRecord(vals, types).Ok?
    ensures DecodeRecord(EncodeRecord(vals, types).value + rest, types) ==
      Ok((KeepSupported(vals, types), rest))
    decreases |vals|
  {
    if |vals| > 0 {
      var head := EncodeValue(vals[0], types[0]).value;
      var tail := EncodeRecord(vals[1..], types[1..]).value;
      assert EncodeRecord(vals, types).value == head + tail;
      assert head + tail + rest == head + (tail + rest);
      ValueRoundTrip(vals[0], types[0], tail + rest);
      RecordRoundTrip(vals[1..], types[1..], rest);
    }
  }

  /** `KeepSupported` of every row. */
  function KeepSupportedRows(rows: seq<seq<Value>>, types: seq<string>): (r: seq<seq<Value>>)
    requires forall i :: 0 <= i < |rows| ==> |rows[i]| <= |types|
    ensures |r| == |rows|
  {
    if |rows| == 0 then [] else [KeepSupported(rows[0], types)] + KeepSupportedRows(rows[1..], types)
  }

  /** Binary round trip of a data section: decoding `|rows|` records of the
      encoded body (followed by any trailing bytes) gives back every row's
      supported values, exactly. */
  lemma {:induction false} BodyRoundTrip(rows: seq<seq<Value>>, types: seq<string>, trailing: seq<byte>)
    requires forall i :: 0 <= i < |rows| ==> Conforms(rows[i], types) && |rows[i]| == |types|
    requires EncodeBody(rows, types).Ok?
    ensures DecodeRows(EncodeBody(rows, types).value + trailing, types, |rows|) ==
      Ok(KeepSupportedRows(rows, types))
    decreases |rows|
  {
    if |rows| > 0 {
      var head := EncodeRecord(rows[0], types).value;
      var tail := EncodeBody(rows[1..], types).value;
      assert EncodeBody(rows, types).value == head + tail;
      assert head + tail + trailing == head + (tail + trailing);
      RecordRoundTrip(rows[0], types, tail + trailing);
      BodyRoundTrip(rows[1..], types, trailing);
    }
  }

  /** The supported property types, in order. */
  function SupportedTypes(types: seq<string>): (r: seq<string>)
    ensures forall i :: 0 <= i < |r| ==> Supported(r[i])
  {
    if |types| == 0 then []
    else (if Supported(types[0]) then [types[0]] else []) + SupportedTypes(types[1..])
  }

  /** Re-encoding a decoded value of a supported type reproduces the bytes
      it was read from. */
  lemma ValueBytesRoundTrip(data: seq<byte>, t: string)
    requires Supported(t) && |data| >= Width(t)
    ensures var v := DecodeValue(data, t).value.0;
      && |v| == 1 && (v[0].Float32? <==> t == "float")
      && EncodeValue(v[0], t) == Ok(data[..Width(t)])
  {
    Pow256Four();
    if t == "float" {
      LeBytesOfValue(data[..4]);
    } else if t == "uchar" {
      LeBytesOfValue(data[..1]);
    } else {
      LeBytesOfValue(data[..4]);
      var u := LeValue(data[..4]);
      assert Int32Pattern(SignedOf(u)) == u;
    }
  }

  /** A record with one more value in front encodes to that value's bytes
      followed by the record's. */
  lemma EncodeRecordCons(x: Value, xs: seq<Value>, t: string, ts: seq<string>, hb: seq<byte>, tb: seq<byte>)
    requires (x.Float32? <==> t == "float") && Conforms(xs, ts)
    requires EncodeValue(x, t) == Ok(hb) && EncodeRecord(xs, ts) == Ok(tb)
    ensures Conforms([x] + xs, [t] + ts)
    ensures EncodeRecord([x] + xs, [t] + ts) == Ok(hb + tb)
  {
    var vals, types := [x] + xs, [t] + ts;
    assert vals[1..] == xs && types[1..] == ts;
    forall i | 1 <= i < |vals| ensures vals[i].Float32? <==> types[i] == "float" {
      assert vals[i] == xs[i - 1] && types[i] == ts[i - 1];
    }
  }

  /** The step of `RecordBytesRoundTrip` for a supported first type: the
      value read from the front goes back in front of the rest. */
  lemma SupportedStep(data: seq<byte>, t: string, ts: seq<string>, vs: seq<Value>)
    requires Supported(t) && |data| >= Width(t) + RecordWidth(ts)
    requires Conforms(vs, SupportedTypes(ts))
    requires EncodeRecord(vs, SupportedTypes(ts)) == Ok(data[Width(t)..][..RecordWidth(ts)])
    ensures var v := DecodeValue(data, t).value.0;
      && Conforms(v + vs, [t] + SupportedTypes(ts))
      && EncodeRecord(v + vs, [t] + SupportedTypes(ts)) == Ok(data[..Width(t) + RecordWidth(ts)])
  {
    ValueBytesRoundTrip(data, t);
    var v := DecodeValue(data, t).value.0;
    var w, n := Width(t), RecordWidth(ts);
    var hb, tb := data[..w], data[w..][..n];
    AdjacentSlices(data, w, n);
    assert v == [v[0]];
    EncodeRecordCons(v[0], vs, t, SupportedTypes(ts), hb, tb);
  }

  /** Re-encoding a decoded record reproduces exactly the bytes the decoder
      consumed. */
  lemma {:induction false} RecordBytesRoundTrip(data: seq<byte>, types: seq<string>)
    requires DecodeRecord(data, types).Ok?
    ensures var vals := DecodeRecord(data, types).value.0;
      && Conforms(vals, SupportedTypes(types)) && |vals| == |SupportedTypes(types)|
      && EncodeRecord(vals, SupportedTypes(types)) == Ok(data[..RecordWidth(types)])
    decreases |types|
  {
    if |types| > 0 {
      var t := types[0];
      var dv := DecodeValue(data, t).value;
      var v, rest := dv.0, dv.1;
      var vs := DecodeRecord(rest, types[1..]).value.0;
      RecordBytesRoundTrip(rest, types[1..]);
      assert DecodeRecord(data, types).value.0 == v + vs;
      if Supported(t) {
        assert SupportedTypes(types) == [t] + SupportedTypes(types[1..]);
        SupportedStep(data, t, types[1..], vs);
      } else {
        assert SupportedTypes(types) == SupportedTypes(types[1..]);
        assert v + vs == vs && rest == data;
      }
    }
  }

  // ---------------------------------------------------------------------------
  // The two converters
  // ---------------------------------------------------------------------------

  /** `line.replace("format ascii", "format binary_little_endian")` */
  function ToBinaryFormat(line: string): string {
    ReplaceAll(line, "format ascii", "format binary_little_endian")
  }

  /** `line.replace("binary_little_endian", "ascii")` */
  function ToAsciiFormat(line: string): string {
    ReplaceAll(line, "binary_little_endian", "ascii")
  }

  /** Every header line passed through `ToBinaryFormat`. */
  function ToBinaryHeader(header: seq<string>): (r: seq<string>)
    ensures |r| == |header|
  {
    if |header| == 0 then [] else [ToBinaryFormat(header[0])] + ToBinaryHeader(header[1..])
  }

  /** Every header line passed through `ToAsciiFormat`. */
  function ToAsciiHeader(header: seq<string>): (r: seq<string>)
    ensures |r| == |header|
    ensures forall k :: 0 <= k < |header| ==> r[k] == ToAsciiFormat(header[k])
  {
    if |header| == 0 then [] else [ToAsciiFormat(header[0])] + ToAsciiHeader(header[1..])
  }

  /** The number of rows the decoder reads: `range(n)` is empty for n <= 0. */
  function RowsToRead(count: int): nat {
    if count < 0 then 0 else count
  }

  /** The data lines `convert_ascii_ply_to_binary` reads, parsed and packed
      in order. */
  function PackRows(dataLines: seq<string>, types: seq<string>, readFloat: FloatReader): (r: Result<seq<byte>>)
    ensures r.Ok? ==> ParseRows(dataLines, types, readFloat).Ok?
    ensures r.Ok? <==> var rows := ParseRows(dataLines, types, readFloat);
      rows.Ok? && Packs(rows.value, types)
  {
    var rows :- ParseRows(dataLines, types, readFloat);
    EncodeBody(rows, types)
  }

  /** `convert_ascii_ply_to_binary`: scan the header through the first
      `end_header` line, rewrite its format line, parse the
      `vertex_count` lines after the header (`lines[h:h + vertex_count]`,
      which Python clamps to the file) against the property types and pack
      them. */
  function AsciiToBinary(lines: seq<string>, readFloat: FloatReader): (r: Result<BinaryPly>)
    ensures var sec := SplitAtSentinel(lines, IsEndHeader);
      r.Ok? ==> ScanSchema(sec.header).Ok? && r.value.header == ToBinaryHeader(sec.header)
    ensures var sec := SplitAtSentinel(lines, IsEndHeader);
      r.Ok? <==> && ScanSchema(sec.header).Ok?
                 && var schema := ScanSchema(sec.header).value;
                    var rows := ParseRows(PySlice(lines, sec.dataStart, sec.dataStart + schema.count), schema.types, readFloat);
                    rows.Ok? && Packs(rows.value, schema.types)
  {
    var sec := SplitAtSentinel(lines, IsEndHeader);
    var schema :- ScanSchema(sec.header);
    var body :- PackRows(PySlice(lines, sec.dataStart, sec.dataStart + schema.count), schema.types, readFloat);
    Ok(BinaryPly(ToBinaryHeader(sec.header), body))
  }

  /** `str(v)` for each decoded value. */
  function Render(v: Value, writeFloat: FloatWriter): string {
    match v
    case Float32(b) => writeFloat(b)
    case Integer(n) => IntToString(n)
  }

  /** `" ".join(map(str, data)) + "\n"` */
  function RenderRow(vals: seq<Value>, writeFloat: FloatWriter): string {
    Join(seq(|vals|, i requires 0 <= i < |vals| => Render(vals[i], writeFloat)), " ") + "\n"
  }

  /** One output line per record. */
  function RenderRows(rows: seq<seq<Value>>, writeFloat: FloatWriter): (r: seq<string>)
    ensures |r| == |rows|
    ensures forall i :: 0 <= i < |rows| ==> r[i] == RenderRow(rows[i], writeFloat)
  {
    if |rows| == 0 then [] else [RenderRow(rows[0], writeFloat)] + RenderRows(rows[1..], writeFloat)
  }

  predicate DeclaresBinary(header: seq<string>) {
    exists i :: 0 <= i < |header| && Contains(header[i], "format binary")
  }

  /** `convert_binary_ply_to_ascii`: read header lines up to the first
      `end_header` line (the `readline` loop never ends when there is none),
      reject a header without `format binary`, rewrite the format line and
      print exactly `num_vertices` decoded records, one line each. */
  function BinaryToAscii(file: BinaryPly, writeFloat: FloatWriter): (r: Result<seq<string>>)
    ensures r.Ok? ==> SplitAtSentinel(file.header, IsEndHeader).dataStart > 0
    ensures r.Ok? ==> DeclaresBinary(SplitAtSentinel(file.header, IsEndHeader).header)
    ensures var sec := SplitAtSentinel(file.header, IsEndHeader);
      sec.dataStart == 0 ==> r.Err? && r.error.NoTerminator?
    ensures var sec := SplitAtSentinel(file.header, IsEndHeader);
      r.Ok? <==> && sec.dataStart > 0 && ScanSchema(sec.header).Ok? && DeclaresBinary(sec.header)
                 && var schema := ScanSchema(sec.header).value;
                    |file.body| >= RowsToRead(schema.count) * RecordWidth(schema.types)
    ensures var sec := SplitAtSentinel(file.header, IsEndHeader);
      r.Ok? ==> && ScanSchema(sec.header).Ok?
                && var schema := ScanSchema(sec.header).value;
                   var n := RowsToRead(schema.count);
                   var rows := DecodeRows(file.body, schema.types, n);
                   && rows.Ok?
                   && |r.value| == |sec.header| + n
                   && (forall k :: 0 <= k < |sec.header| ==> r.value[k] == ToAsciiFormat(sec.header[k]))
                   && forall k :: 0 <= k < n ==> r.value[|sec.header| + k] == RenderRow(rows.value[k], writeFloat)
  {
    var sec := SplitAtSentinel(file.header, IsEndHeader);
    if sec.dataStart == 0 then Err(NoTerminator("no line starts with end_header"))
    else
      var schema :- ScanSchema(sec.header);
      if !DeclaresBinary(sec.header) then Err(ValueError("The input file is not in binary format."))
      else
        var rows :- DecodeRows(file.body, schema.types, RowsToRead(schema.count));
        Ok(ToAsciiHeader(sec.header) + RenderRows(rows, writeFloat))
  }

  // ---------------------------------------------------------------------------
  // Whole-file round trip
  // ---------------------------------------------------------------------------

  /** A line neither rewrite changes. */
  predicate Untouched(line: string) {
    !Contains(line, "format ascii") && !Contains(line, "binary_little_endian")
  }

  /** An ASCII format line, `format ascii <version>`, whose version part
      neither rewrite changes. */
  predicate AsciiFormatLine(line: string) {
    StartsWith(line, "format ascii") && Untouched(line[12..])
  }

  /** What `ToBinaryFormat` makes of an ASCII format line. */
  function BinaryFormatOf(line: string): string
    requires |line| >= 12
  {
    "format binary_little_endian" + line[12..]
  }

  /** The header lines the round trip restores: the format line and the
      lines neither rewrite touches. */
  predicate PlainHeaderLine(line: string) {
    AsciiFormatLine(line) || Untouched(line)
  }

  lemma FormatLineToBinary(line: string)
    requires AsciiFormatLine(line)
    ensures ToBinaryFormat(line) == BinaryFormatOf(line)
  {
    var rest := line[12..];
    assert line == "format ascii" + rest;
    ReplaceLeading("format ascii", rest, "format binary_little_endian");
    ReplaceAbsent(rest, "format ascii", "format binary_little_endian");
  }

  lemma FormatLineToAscii(line: string)
    requires AsciiFormatLine(line)
    ensures ToAsciiFormat(BinaryFormatOf(line)) == line
  {
    var rest, pat := line[12..], "binary_little_endian";
    ReplaceAbsent(rest, pat, "ascii");
    ReplaceLeading(pat, rest, "ascii");
    FormatLiterals();
    Associative("format ", pat, rest);
    ReplaceKeepsPrefix("format ", pat + rest, pat, "ascii");
    PrefixParts(line, "format ", "ascii");
  }

  /** Both format keywords follow the same `format ` prefix. */
  lemma FormatLiterals()
    ensures "format binary_little_endian" == "format " + "binary_little_endian"
    ensures "format ascii" == "format " + "ascii"
  {
  }

  /** A line that starts with `p + q` is `p`, then `q`, then the rest. */
  lemma PrefixParts(line: string, p: string, q: string)
    requires StartsWith(line, p + q)
    ensures line == p + (q + line[|p| + |q|..])
  {
    var n := |p| + |q|;
    assert line == line[..n] + line[n..];
  }

  /** The format line is neither a sentinel nor a declaration before or after
      the rewrite, and after it declares the binary format. */
  lemma FormatLineKinds(line: string)
    requires AsciiFormatLine(line)
    ensures !IsEndHeader(line) && !IsVertexLine(line) && !IsPropertyLine(line)
    ensures var b := BinaryFormatOf(line);
      !IsEndHeader(b) && !IsVertexLine(b) && !IsPropertyLine(b)
    ensures Contains(BinaryFormatOf(line), "format binary")
  {
    assert line[0] == line[..12][0] == 'f';
    StartsWithF(line);
    var b := BinaryFormatOf(line);
    assert b[..13] == "format binary";
    assert b[0] == 'f';
    StartsWithF(b);
  }

  /** A line starting with `f` is neither a sentinel nor a declaration. */
  lemma StartsWithF(line: string)
    requires |line| > 0 && line[0] == 'f'
    ensures !IsEndHeader(line) && !IsVertexLine(line) && !IsPropertyLine(line)
  {
  }

  /** Lines that are neither `element vertex` nor `property` lines do not
      affect the schema scan, so headers that differ only in such lines scan
      alike. */
  lemma {:induction false} ScanIgnoresPlainLines(acc: Schema, a: seq<string>, b: seq<string>)
    requires |a| == |b|
    requires forall i :: 0 <= i < |a| ==>
      a[i] == b[i] || (!IsVertexLine(a[i]) && !IsPropertyLine(a[i]) && !IsVertexLine(b[i]) && !IsPropertyLine(b[i]))
    ensures ScanFrom(acc, a) == ScanFrom(acc, b)
    decreases |a|
  {
    if |a| > 0 {
      assert ScanLine(acc, a[0]) == ScanLine(acc, b[0]);
      match ScanLine(acc, a[0])
      case Err(_) =>
      case Ok(acc') =>
        ScanIgnoresPlainLines(acc', a[1..], b[1..]);
    }
  }

  /** A header line `ToBinaryFormat` rewrites (the format line) or leaves
      alone, and `ToAsciiFormat` then restores. */
  lemma PlainLineRoundTrip(line: string)
    requires PlainHeaderLine(line)
    ensures ToAsciiFormat(ToBinaryFormat(line)) == line
    ensures AsciiFormatLine(line) ==> ToBinaryFormat(line) == BinaryFormatOf(line)
    ensures !AsciiFormatLine(line) ==> ToBinaryFormat(line) == line
  {
    if AsciiFormatLine(line) {
      FormatLineToBinary(line);
      FormatLineToAscii(line);
    } else {
      ReplaceAbsent(line, "format ascii", "format binary_little_endian");
      ReplaceAbsent(line, "binary_little_endian", "ascii");
    }
  }

  /** The header rewrite is undone by the reverse rewrite, and touches only
      the format line. */
  lemma {:induction false} HeaderRoundTrip(h: seq<string>)
    requires forall i :: 0 <= i < |h| ==> PlainHeaderLine(h[i])
    ensures ToAsciiHeader(ToBinaryHeader(h)) == h
    ensures forall i :: 0 <= i < |h| ==>
      (if AsciiFormatLine(h[i]) then ToBinaryHeader(h)[i] == BinaryFormatOf(h[i]) else ToBinaryHeader(h)[i] == h[i])
    decreases |h|
  {
    if |h| > 0 {
      PlainLineRoundTrip(h[0]);
      HeaderRoundTrip(h[1..]);
      var hb := ToBinaryHeader(h);
      assert hb[1..] == ToBinaryHeader(h[1..]);
      forall i | 0 < i < |h|
        ensures if AsciiFormatLine(h[i]) then hb[i] == BinaryFormatOf(h[i]) else hb[i] == h[i]
      {
        assert hb[i] == ToBinaryHeader(h[1..])[i - 1] && h[i] == h[1..][i - 1];
      }
    }
  }

  /** The binary reader accepts the header the ASCII converter writes and
      reads the same schema from it. */
  lemma BinaryHeaderAccepted(h: seq<string>)
    requires |h| > 0 && IsEndHeader(h[|h| - 1])
    requires forall j :: 0 <= j < |h| - 1 ==> !IsEndHeader(h[j])
    requires forall i :: 0 <= i < |h| ==> PlainHeaderLine(h[i])
    requires exists i :: 0 <= i < |h| && AsciiFormatLine(h[i])
    ensures var hb := ToBinaryHeader(h);
      && SplitAtSentinel(hb, IsEndHeader) == Sections(hb, |hb|)
      && ScanSchema(hb) == ScanSchema(h)
      && DeclaresBinary(hb)
  {
    BinaryHeaderKinds(h);
    var hb := ToBinaryHeader(h);
    SentinelAtEnd(hb, IsEndHeader);
    ScanIgnoresPlainLines(Schema(0, []), h, hb);
    BinaryHeaderDeclares(h);
  }

  /** Line by line, the rewritten header has the lines of the same kinds. */
  lemma BinaryHeaderKinds(h: seq<string>)
    requires forall i :: 0 <= i < |h| ==> PlainHeaderLine(h[i])
    ensures var hb := ToBinaryHeader(h);
      && |hb| == |h|
      && (forall i :: 0 <= i < |h| ==> IsEndHeader(hb[i]) == IsEndHeader(h[i]))
      && (forall i :: 0 <= i < |h| ==>
            hb[i] == h[i] || (!IsVertexLine(h[i]) && !IsPropertyLine(h[i]) && !IsVertexLine(hb[i]) && !IsPropertyLine(hb[i])))
  {
    HeaderRoundTrip(h);
    var hb := ToBinaryHeader(h);
    forall i | 0 <= i < |h|
      ensures IsEndHeader(hb[i]) == IsEndHeader(h[i])
      ensures hb[i] == h[i] || (!IsVertexLine(h[i]) && !IsPropertyLine(h[i]) && !IsVertexLine(hb[i]) && !IsPropertyLine(hb[i]))
    {
      BinaryLineKinds(h[i], hb[i]);
    }
  }

  /** A header with a `format ascii` line declares the binary format once
      rewritten. */
  lemma BinaryHeaderDeclares(h: seq<string>)
    requires forall i :: 0 <= i < |h| ==> PlainHeaderLine(h[i])
    requires exists i :: 0 <= i < |h| && AsciiFormatLine(h[i])
    ensures DeclaresBinary(ToBinaryHeader(h))
  {
    HeaderRoundTrip(h);
    var f :| 0 <= f < |h| && AsciiFormatLine(h[f]);
    FormatLineKinds(h[f]);
  }

  /** A header line and its rewrite are of the same kind: the sentinel
      stays the sentinel, and only a line that declares nothing changes. */
  lemma BinaryLineKinds(line: string, out: string)
    requires PlainHeaderLine(line)
    requires if AsciiFormatLine(line) then out == BinaryFormatOf(line) else out == line
    ensures IsEndHeader(out) == IsEndHeader(line)
    ensures out == line || (!IsVertexLine(line) && !IsPropertyLine(line) && !IsVertexLine(out) && !IsPropertyLine(out))
  {
    if AsciiFormatLine(line) {
      FormatLineKinds(line);
    }
  }

  /** What a successful `AsciiToBinary` consists of, for a file that splits
      into header `h` with schema `s`, followed by at least `s.count` lines. */
  lemma AsciiToBinaryParts(lines: seq<string>, readFloat: FloatReader, h: seq<string>, s: Schema, dataLines: seq<string>)
    requires SplitAtSentinel(lines, IsEndHeader) == Sections(h, |h|)
    requires ScanSchema(h) == Ok(s) && 0 <= s.count && |h| + s.count <= |lines|
    requires dataLines == lines[|h|..|h| + s.count]
    requires AsciiToBinary(lines, readFloat).Ok?
    ensures ParseRows(dataLines, s.types, readFloat).Ok?
    ensures EncodeBody(ParseRows(dataLines, s.types, readFloat).value, s.types).Ok?
    ensures AsciiToBinary(lines, readFloat).value ==
      BinaryPly(ToBinaryHeader(h), EncodeBody(ParseRows(dataLines, s.types, readFloat).value, s.types).value)
  {
    AsciiToBinaryAt(lines, readFloat, h, s);
    assert PySlice(lines, |h|, |h| + s.count) == dataLines;
    PackRowsParts(dataLines, s.types, readFloat);
  }

  /** A successful conversion packed the rows after the header `h`. */
  lemma AsciiToBinaryAt(lines: seq<string>, readFloat: FloatReader, h: seq<string>, s: Schema)
    requires SplitAtSentinel(lines, IsEndHeader) == Sections(h, |h|)
    requires ScanSchema(h) == Ok(s)
    requires AsciiToBinary(lines, readFloat).Ok?
    ensures PackRows(PySlice(lines, |h|, |h| + s.count), s.types, readFloat).Ok?
    ensures AsciiToBinary(lines, readFloat).value ==
      BinaryPly(ToBinaryHeader(h), PackRows(PySlice(lines, |h|, |h| + s.count), s.types, readFloat).value)
  {
    AsciiToBinaryOk(lines, readFloat);
  }

  /** A successful conversion scanned the header and packed the rows after it. */
  lemma AsciiToBinaryOk(lines: seq<string>, readFloat: FloatReader)
    requires AsciiToBinary(lines, readFloat).Ok?
    ensures var sec := SplitAtSentinel(lines, IsEndHeader);
      && ScanSchema(sec.header).Ok?
      && var s := ScanSchema(sec.header).value;
      && var packed := PackRows(PySlice(lines, sec.dataStart, sec.dataStart + s.count), s.types, readFloat);
      && packed.Ok?
      && AsciiToBinary(lines, readFloat).value == BinaryPly(ToBinaryHeader(sec.header), packed.value)
  {
  }

  lemma PackRowsParts(dataLines: seq<string>, types: seq<string>, readFloat: FloatReader)
    requires PackRows(dataLines, types, readFloat).Ok?
    ensures ParseRows(dataLines, types, readFloat).Ok?
    ensures EncodeBody(ParseRows(dataLines, types, readFloat).value, types).Ok?
    ensures PackRows(dataLines, types, readFloat) == EncodeBody(ParseRows(dataLines, types, readFloat).value, types)
  {
  }

  /** What `BinaryToAscii` prints for a well-formed header and a long enough body. */
  lemma BinaryToAsciiParts(file: BinaryPly, writeFloat: FloatWriter, s: Schema, rows: seq<seq<Value>>)
    requires SplitAtSentinel(file.header, IsEndHeader) == Sections(file.header, |file.header|)
    requires |file.header| > 0
    requires ScanSchema(file.header) == Ok(s)
    requires DeclaresBinary(file.header)
    requires DecodeRows(file.body, s.types, RowsToRead(s.count)) == Ok(rows)
    ensures BinaryToAscii(file, writeFloat) == Ok(ToAsciiHeader(file.header) + RenderRows(rows, writeFloat))
  {
  }

  /** A header the round trip restores: a `format ascii` line, and nothing
      else either rewrite would touch. */
  predicate RoundTripHeader(h: seq<string>) {
    && (forall i :: 0 <= i < |h| ==> PlainHeaderLine(h[i]))
    && (exists i :: 0 <= i < |h| && AsciiFormatLine(h[i]))
  }

  /** Every data line holds a value for every property, each of which parses. */
  predicate CompleteRows(data: seq<string>, types: seq<string>, readFloat: FloatReader) {
    forall k :: 0 <= k < |data| ==>
      |Split(data[k])| >= |types| && ParseRow(Split(data[k]), types, readFloat).Ok?
  }

  /** Each ASCII data line as the binary round trip prints it again: its
      values of supported types, rendered and space-joined. */
  function ReprintedRows(data: seq<string>, types: seq<string>, readFloat: FloatReader, writeFloat: FloatWriter): (r: seq<string>)
    requires CompleteRows(data, types, readFloat)
    ensures |r| == |data|
    ensures forall k :: 0 <= k < |data| ==>
      r[k] == RenderRow(KeepSupported(ParseRow(Split(data[k]), types, readFloat).value, types), writeFloat)
  {
    if |data| == 0 then []
    else
      [RenderRow(KeepSupported(ParseRow(Split(data[0]), types, readFloat).value, types), writeFloat)]
        + ReprintedRows(data[1..], types, readFloat, writeFloat)
  }

  /** ASCII -> binary -> ASCII reproduces the header line for line and prints
      one line per declared row, in the same position as the ASCII row it
      came from and holding that row's values (those of the supported
      property types) as the binary file stores them. The header must end at
      an `end_header` line, carry a `format ascii` line and no other text
      either rewrite would touch, and every declared row must be
      present and complete. */
  lemma AsciiBinaryRoundTrip(lines: seq<string>, readFloat: FloatReader, writeFloat: FloatWriter,
                             h: seq<string>, s: Schema, dataLines: seq<string>)
    requires SplitAtSentinel(lines, IsEndHeader) == Sections(h, |h|) && |h| > 0
    requires ScanSchema(h) == Ok(s) && 0 <= s.count && |h| + s.count <= |lines|
    requires dataLines == lines[|h|..|h| + s.count]
    requires RoundTripHeader(h)
    requires CompleteRows(dataLines, s.types, readFloat)
    requires AsciiToBinary(lines, readFloat).Ok?
    ensures BinaryToAscii(AsciiToBinary(lines, readFloat).value, writeFloat) ==
      Ok(h + ReprintedRows(dataLines, s.types, readFloat, writeFloat))
  {
    SentinelHeaderEnds(lines, IsEndHeader);
    AsciiToBinaryParts(lines, readFloat, h, s, dataLines);
    var rows := ParseRows(dataLines, s.types, readFloat).value;
    assert |rows| == |dataLines|;
    ReprintFromBinary(h, s, dataLines, rows, readFloat, writeFloat);
  }

  /** The core of the round trip, on the header, schema and data lines that
      `AsciiToBinary` works with. */
  lemma ReprintFromBinary(h: seq<string>, s: Schema, dataLines: seq<string>, rows: seq<seq<Value>>,
                          readFloat: FloatReader, writeFloat: FloatWriter)
    requires |h| > 0 && IsEndHeader(h[|h| - 1])
    requires forall j :: 0 <= j < |h| - 1 ==> !IsEndHeader(h[j])
    requires RoundTripHeader(h)
    requires ScanSchema(h) == Ok(s) && s.count == |dataLines|
    requires ParseRows(dataLines, s.types, readFloat) == Ok(rows)
    requires CompleteRows(dataLines, s.types, readFloat)
    requires EncodeBody(rows, s.types).Ok?
    ensures BinaryToAscii(BinaryPly(ToBinaryHeader(h), EncodeBody(rows, s.types).value), writeFloat) ==
      Ok(h + ReprintedRows(dataLines, s.types, readFloat, writeFloat))
  {
    RenderKeptRows(dataLines, s.types, rows, readFloat, writeFloat);
    ReprintRows(h, s, rows, writeFloat);
  }

  /** Decoding the encoded rows under the rewritten header prints the
      original header and the rows' supported values. */
  lemma ReprintRows(h: seq<string>, s: Schema, rows: seq<seq<Value>>, writeFloat: FloatWriter)
    requires |h| > 0 && IsEndHeader(h[|h| - 1])
    requires forall j :: 0 <= j < |h| - 1 ==> !IsEndHeader(h[j])
    requires RoundTripHeader(h)
    requires ScanSchema(h) == Ok(s) && s.count == |rows|
    requires forall i :: 0 <= i < |rows| ==> Conforms(rows[i], s.types) && |rows[i]| == |s.types|
    requires EncodeBody(rows, s.types).Ok?
    ensures BinaryToAscii(BinaryPly(ToBinaryHeader(h), EncodeBody(rows, s.types).value), writeFloat) ==
      Ok(h + RenderRows(KeepSupportedRows(rows, s.types), writeFloat))
  {
    var body := EncodeBody(rows, s.types).value;
    var bin := BinaryPly(ToBinaryHeader(h), body);
    BinaryHeaderAccepted(h);
    HeaderRoundTrip(h);
    BodyRoundTrip(rows, s.types, []);
    assert body + [] == body;
    var kept := KeepSupportedRows(rows, s.types);
    BinaryToAsciiParts(bin, writeFloat, s, kept);
  }

  /** Printing the decoded rows prints, line for line, what each ASCII row
      holds of the supported types. */
  lemma RenderKeptRows(dataLines: seq<string>, types: seq<string>, rows: seq<seq<Value>>,
                       readFloat: FloatReader, writeFloat: FloatWriter)
    requires ParseRows(dataLines, types, readFloat) == Ok(rows)
    requires CompleteRows(dataLines, types, readFloat)
    ensures forall j :: 0 <= j < |rows| ==> |rows[j]| <= |types|
    ensures RenderRows(KeepSupportedRows(rows, types), writeFloat) == ReprintedRows(dataLines, types, readFloat, writeFloat)
  {
    var kept := KeepSupportedRows(rows, types);
    forall k | 0 <= k < |dataLines|
      ensures RenderRows(kept, writeFloat)[k] ==
        RenderRow(KeepSupported(ParseRow(Split(dataLines[k]), types, readFloat).value, types), writeFloat)
    {
      KeepSupportedRowsAt(rows, types, k);
    }
  }

  lemma {:induction false} KeepSupportedRowsAt(rows: seq<seq<Value>>, types: seq<string>, i: nat)
    requires forall j :: 0 <= j < |rows| ==> |rows[j]| <= |types|
    requires i < |rows|
    ensures KeepSupportedRows(rows, types)[i] == KeepSupported(rows[i], types)
    decreases i
  {
    if i > 0 {
      KeepSupportedRowsAt(rows[1..], types, i - 1);
    }
  }
}

=== FILE: compress.dfy ===
/** The ID bookkeeping of `repc4.py` around a learned point-cloud codec: the
    reader and writer of `x y z id` files, the greedy loop that gives every
    encoded coordinate a distinct ID of a nearby input point, and the
    decoder's carrying over of the input IDs. The codec and the k-d tree are
    foreign: the tree's answer for one coordinate is the ranking of all
    input points by distance, a parameter. */
module Compress {
  import opened Results
  import opened Text
  import opened PlyHeader
  import opened Numeric
  import opened Sorting

  // ---------------------------------------------------------------------------
  // Points and their text
  // ---------------------------------------------------------------------------

  /** `str(x)` of a coordinate. */
  type FloatRenderer = real -> string

  datatype Coord = Coord(x: real, y: real, z: real)

  datatype Point = Point(at: Coord, id: int)

  /** `len(line.strip().split()) >= 4`: a row the reader takes. */
  predicate IsLong(line: string) {
    |Split(line)| >= 4
  }

  /** A taken row whose first four tokens are numbers. */
  predicate Readable(line: string, parse: FloatParser) {
    IsLong(line) ==>
      var t := Split(line);
      parse(t[0]).Some? && parse(t[1]).Some? && parse(t[2]).Some? && parse(t[3]).Some?
  }

  /** The point of a taken row: the first three tokens as coordinates and
      `int(float(token 3))` as the ID. */
  function PointOf(line: string, parse: FloatParser): (p: Point)
    requires IsLong(line) && Readable(line, parse)
    ensures var t := Split(line);
      && Some(p.at.x) == parse(t[0]) && Some(p.at.y) == parse(t[1]) && Some(p.at.z) == parse(t[2])
      && p.id == Trunc(parse(t[3]).value)
  {
    var t := Split(line);
    Point(Coord(parse(t[0]).value, parse(t[1]).value, parse(t[2]).value), Trunc(parse(t[3]).value))
  }

  /** The rows of `data` with at least four tokens, in order. */
  function LongLines(data: seq<string>): (r: seq<string>)
    ensures |r| <= |data|
    ensures forall k :: 0 <= k < |r| ==> IsLong(r[k])
    decreases |data|
  {
    if |data| == 0 then []
    else
      var rest := LongLines(data[1..]);
      if IsLong(data[0]) then [data[0]] + rest else rest
  }

  /** The taken rows are exactly the rows of `data` with at least four
      tokens. */
  lemma {:induction false} LongLinesMembers(data: seq<string>, line: string)
    ensures line in LongLines(data) <==> line in data && IsLong(line)
    decreases |data|
  {
    if |data| > 0 {
      LongLinesMembers(data[1..], line);
      assert data == [data[0]] + data[1..];
    }
  }

  /** When every row is long enough, every row is taken. */
  lemma {:induction false} LongLinesAll(data: seq<string>)
    requires forall k :: 0 <= k < |data| ==> IsLong(data[k])
    ensures LongLines(data) == data
    decreases |data|
  {
    if |data| > 0 {
      assert forall k :: 1 <= k < |data| ==> data[k] == data[1..][k - 1];
      LongLinesAll(data[1..]);
      assert data == [data[0]] + data[1..];
    }
  }

  /** Every taken row of `data` reads. */
  predicate AllReadable(data: seq<string>, parse: FloatParser) {
    forall k :: 0 <= k < |data| ==> Readable(data[k], parse)
  }

  lemma AllReadableCons(data: seq<string>, parse: FloatParser)
    requires |data| > 0
    ensures AllReadable(data, parse) <==> Readable(data[0], parse) && AllReadable(data[1..], parse)
  {
    assert forall k :: 1 <= k < |data| ==> data[k] == data[1..][k - 1];
  }

  /** `points` are the points of the taken rows of `data`, one per row. */
  predicate ReadsAs(points: seq<Point>, data: seq<string>, parse: FloatParser)
    requires AllReadable(data, parse)
  {
    var rows := LongLines(data);
    && |points| == |rows|
    && forall k :: 0 <= k < |rows| ==> Readable(rows[k], parse) && points[k] == PointOf(rows[k], parse)
  }

  lemma ReadsAsCons(first: Point, rest: seq<Point>, data: seq<string>, parse: FloatParser)
    requires |data| > 0 && AllReadable(data, parse)
    requires AllReadable(data[1..], parse) && ReadsAs(rest, data[1..], parse)
    requires IsLong(data[0]) && first == PointOf(data[0], parse)
    ensures ReadsAs([first] + rest, data, parse)
  {
    var rows, tail := LongLines(data), LongLines(data[1..]);
    assert rows == [data[0]] + tail;
    var pts := [first] + rest;
    forall k | 0 <= k < |rows| ensures Readable(rows[k], parse) && pts[k] == PointOf(rows[k], parse) {
      if k > 0 {
        assert rows[k] == tail[k - 1] && pts[k] == rest[k - 1];
      }
    }
  }

  /** The loop over the lines after the header: short rows are skipped, and
      the first taken row with a token that is not a number raises
      ValueError. */
  function ReadRows(data: seq<string>, parse: FloatParser): (r: Result<seq<Point>>)
    ensures r.Ok? <==> AllReadable(data, parse)
    ensures r.Ok? ==> ReadsAs(r.value, data, parse)
    decreases |data|
  {
    if |data| == 0 then Ok([])
    else
      AllReadableCons(data, parse);
      if !IsLong(data[0]) then
        assert LongLines(data) == LongLines(data[1..]);
        ReadRows(data[1..], parse)
      else if !Readable(data[0], parse) then Err(ValueError("could not convert string to float"))
      else
        var first := PointOf(data[0], parse);
        var rest :- ReadRows(data[1..], parse);
        ReadsAsCons(first, rest, data, parse);
        Ok([first] + rest)
  }

  /** The lines the reader treats as rows: those after the first line that
      starts with `end_header`, and none when there is no such line. */
  function DataLines(lines: seq<string>): (r: seq<string>)
    ensures var sec := SplitAtSentinel(lines, IsEndHeader);
      r == if sec.dataStart > 0 then lines[sec.dataStart..] else []
    ensures (forall i :: 0 <= i < |lines| ==> !IsEndHeader(lines[i])) ==> r == []
  {
    var sec := SplitAtSentinel(lines, IsEndHeader);
    SentinelFound(lines, IsEndHeader);
    if sec.dataStart > 0 then lines[sec.dataStart..] else []
  }

  /** `read_ply_with_id`. */
  function ReadPlyWithId(lines: seq<string>, parse: FloatParser): (r: Result<seq<Point>>)
    ensures r.Ok? <==> AllReadable(DataLines(lines), parse)
    ensures r.Ok? ==> ReadsAs(r.value, DataLines(lines), parse)
  {
    ReadRows(DataLines(lines), parse)
  }

  /** `f"{x} {y} {z} {id}\n"`. */
  function RowText(p: Point, show: FloatRenderer): string {
    Join([show(p.at.x), show(p.at.y), show(p.at.z), IntToString(p.id)], " ") + "\n"
  }

  /** A renderer whose every output is one token. */
  ghost predicate RendersTokens(show: FloatRenderer) {
    forall v :: IsToken(show(v))
  }

  /** A row written by a token renderer splits into the four rendered
      fields. */
  lemma RowTextTokens(p: Point, show: FloatRenderer)
    requires RendersTokens(show)
    ensures Split(RowText(p, show)) == [show(p.at.x), show(p.at.y), show(p.at.z), IntToString(p.id)]
  {
    RenderedIsToken(p.id);
    SplitJoinedLine([show(p.at.x), show(p.at.y), show(p.at.z), IntToString(p.id)]);
  }

  /** `write_ply_with_id`: the input header through its first `end_header`
      line (every line when there is none), with every `element vertex`
      line declaring the number of points, then one row per point. */
  function WritePlyWithId(lines: seq<string>, points: seq<Point>, show: FloatRenderer): (r: PlyLines)
    ensures var h := SplitAtSentinel(lines, IsEndHeader).header;
      && |r.header| == |h|
      && forall i :: 0 <= i < |h| ==> if IsVertexLine(h[i]) then r.header[i] == VertexLine(|points|) else r.header[i] == h[i]
    ensures |r.data| == |points| && forall i :: 0 <= i < |points| ==> r.data[i] == RowText(points[i], show)
    ensures RendersTokens(show) ==> forall i :: 0 <= i < |points| ==>
      Split(r.data[i]) == [show(points[i].at.x), show(points[i].at.y), show(points[i].at.z), IntToString(points[i].id)]
  {
    var rows := seq(|points|, i requires 0 <= i < |points| => RowText(points[i], show));
    assert RendersTokens(show) ==> forall i :: 0 <= i < |points| ==>
      Split(rows[i]) == [show(points[i].at.x), show(points[i].at.y), show(points[i].at.z), IntToString(points[i].id)] by {
      if RendersTokens(show) {
        forall i | 0 <= i < |points|
          ensures Split(rows[i]) == [show(points[i].at.x), show(points[i].at.y), show(points[i].at.z), IntToString(points[i].id)]
        {
          RowTextTokens(points[i], show);
        }
      }
    }
    PlyLines(RewriteVertexLines(SplitAtSentinel(lines, IsEndHeader).header, |points|), rows)
  }

  /** A vertex line never starts with `end_header`. */
  lemma VertexNotEnd(line: string)
    requires IsVertexLine(line)
    ensures !IsEndHeader(line)
  {
    assert line[1] == 'l';
  }

  /** The written header still ends at its first `end_header` line. */
  lemma WrittenHeaderEnds(lines: seq<string>, n: int, data: seq<string>)
    requires exists i :: 0 <= i < |lines| && IsEndHeader(lines[i])
    ensures var h := RewriteVertexLines(SplitAtSentinel(lines, IsEndHeader).header, n);
      DataLines(h + data) == data
  {
    SentinelFound(lines, IsEndHeader);
    SentinelHeaderEnds(lines, IsEndHeader);
    var h0 := SplitAtSentinel(lines, IsEndHeader).header;
    RewriteKeepsEnds(h0, n);
    SentinelBeforeData(RewriteVertexLines(h0, n), data, IsEndHeader);
  }

  /** Rewriting the vertex lines makes no line an `end_header` line and
      takes none away. */
  lemma RewriteKeepsEnds(h0: seq<string>, n: int)
    ensures var h := RewriteVertexLines(h0, n);
      forall j :: 0 <= j < |h0| ==> IsEndHeader(h[j]) == IsEndHeader(h0[j])
  {
    var h := RewriteVertexLines(h0, n);
    VertexNotEnd(VertexLine(n));
    forall j | 0 <= j < |h0| ensures IsEndHeader(h[j]) == IsEndHeader(h0[j]) {
      if IsVertexLine(h0[j]) {
        VertexNotEnd(h0[j]);
      }
    }
  }

  /** A parser that reads back what the renderer writes, and reads a
      rendered integer as that integer. */
  ghost predicate Inverse(parse: FloatParser, show: FloatRenderer) {
    && (forall v :: parse(show(v)) == Some(v))
    && (forall n: int :: parse(IntToString(n)) == Some(n as real))
  }

  /** A written row reads back as the point it was written from. */
  lemma RowReadsBack(p: Point, show: FloatRenderer, parse: FloatParser)
    requires RendersTokens(show) && Inverse(parse, show)
    ensures IsLong(RowText(p, show)) && Readable(RowText(p, show), parse)
    ensures PointOf(RowText(p, show), parse) == p
  {
    RowTextTokens(p, show);
    TruncOfInt(p.id);
  }

  /** Written rows read back as the points they were written from. */
  lemma RowsReadBack(rows: seq<string>, points: seq<Point>, show: FloatRenderer, parse: FloatParser)
    requires RendersTokens(show) && Inverse(parse, show)
    requires |rows| == |points| && forall k :: 0 <= k < |rows| ==> rows[k] == RowText(points[k], show)
    ensures ReadRows(rows, parse) == Ok(points)
  {
    forall k | 0 <= k < |rows| ensures IsLong(rows[k]) && Readable(rows[k], parse) && PointOf(rows[k], parse) == points[k] {
      RowReadsBack(points[k], show, parse);
    }
    ReadTakenRows(rows, points, parse);
  }

  /** Rows that are all taken read as their points. */
  lemma ReadTakenRows(rows: seq<string>, points: seq<Point>, parse: FloatParser)
    requires |rows| == |points|
    requires forall k :: 0 <= k < |rows| ==> IsLong(rows[k]) && Readable(rows[k], parse) && PointOf(rows[k], parse) == points[k]
    ensures ReadRows(rows, parse) == Ok(points)
  {
    LongLinesAll(rows);
    var r := ReadRows(rows, parse);
    assert AllReadable(rows, parse);
    var got := r.value;
    assert ReadsAs(got, rows, parse);
    forall k | 0 <= k < |rows| ensures got[k] == points[k] {
      assert got[k] == PointOf(rows[k], parse);
    }
    assert got == points;
  }

  /** What `write_ply_with_id` writes, `read_ply_with_id` reads back as the
      same points, when the input has an `end_header` line. */
  lemma WriteReadRoundTrip(lines: seq<string>, points: seq<Point>, show: FloatRenderer, parse: FloatParser)
    requires exists i :: 0 <= i < |lines| && IsEndHeader(lines[i])
    requires RendersTokens(show) && Inverse(parse, show)
    ensures var out := WritePlyWithId(lines, points, show);
      ReadPlyWithId(out.header + out.data, parse) == Ok(points)
  {
    var out := WritePlyWithId(lines, points, show);
    WrittenHeaderEnds(lines, |points|, out.data);
    RowsReadBack(out.data, points, show, parse);
  }

  // ---------------------------------------------------------------------------
  // The greedy ID assignment of the encoder
  // ---------------------------------------------------------------------------

  /** The number of neighbours the encoder asks for first. */
  const InitialNeighbours: nat := 10

  /** `ranking` orders all `n` input points by distance: each index once. */
  predicate IsRanking(ranking: seq<nat>, n: nat) {
    && |ranking| == n
    && (forall j :: 0 <= j < |ranking| ==> ranking[j] < n)
    && (forall i :: 0 <= i < n ==> i in ranking)
  }

  /** `kdtree.query(c, k=k)[1]`: the first `k` ranked indices, padded with
      the number of points (the tree's mark for a missing neighbour) when
      `k` exceeds it. */
  function Query(ranking: seq<nat>, k: nat): (r: seq<nat>)
    ensures |r| == k
    ensures forall i :: 0 <= i < k ==> r[i] == if i < |ranking| then ranking[i] else |ranking|
  {
    seq(k, i requires 0 <= i < k => if i < |ranking| then ranking[i] else |ranking|)
  }

  /** Asking for at most as many neighbours as there are points gives a
      prefix of the ranking, and asking for one more only extends the
      answer. */
  lemma QueryPrefix(ranking: seq<nat>, k: nat)
    ensures k <= |ranking| ==> Query(ranking, k) == ranking[..k]
    ensures Query(ranking, k) == Query(ranking, k + 1)[..k]
  {
  }

  /** How the `for neighbor_index in indices` loop ends. */
  datatype Scan = Found(id: int) | Missed | OutOfRange

  /** The candidate loop: the first candidate whose ID is unused is taken;
      a padding index raises IndexError at `ids[neighbor_index]`. */
  function ScanCandidates(cands: seq<nat>, ids: seq<int>, used: set<int>): (r: Scan)
    ensures r.Found? ==> r.id !in used && r.id in ids
    ensures r.Missed? ==> forall j :: 0 <= j < |cands| ==> cands[j] < |ids| && ids[cands[j]] in used
    decreases |cands|
  {
    if |cands| == 0 then Missed
    else if cands[0] >= |ids| then OutOfRange
    else if ids[cands[0]] !in used then Found(ids[cands[0]])
    else
      var r := ScanCandidates(cands[1..], ids, used);
      assert forall j :: 1 <= j < |cands| ==> cands[j] == cands[1..][j - 1];
      r
  }

  /** The `while not assigned` loop for one coordinate: widen the query by
      one neighbour until the scan finds an unused ID or fails. The result
      carries the widened `k`, which the encoder keeps for the next
      coordinate. */
  function AssignOne(ranking: seq<nat>, ids: seq<int>, used: set<int>, k: nat): (r: Result<(int, nat)>)
    requires |ranking| == |ids|
    ensures r.Ok? ==> r.value.0 !in used && r.value.0 in ids && r.value.1 >= k
    decreases |ids| + 1 - k
  {
    var q := Query(ranking, k);
    match ScanCandidates(q, ids, used)
    case Found(id) => Ok((id, k))
    case OutOfRange => Err(IndexError("index out of bounds"))
    case Missed =>
      if k > |ids| then
        assert q[|ids|] == |ids|;
        Err(IndexError("index out of bounds"))
      else AssignOne(ranking, ids, used, k + 1)
  }

  /** The position in `ranking` of the first point whose ID is unused, or
      the length of the ranking when every ranked ID is used. */
  function FirstUnusedFrom(ranking: seq<nat>, ids: seq<int>, used: set<int>, j: nat): (p: nat)
    requires j <= |ranking|
    requires forall i :: 0 <= i < |ranking| ==> ranking[i] < |ids|
    requires forall i :: 0 <= i < j ==> ids[ranking[i]] in used
    ensures j <= p <= |ranking|
    ensures forall i :: 0 <= i < p ==> ids[ranking[i]] in used
    ensures p < |ranking| ==> ids[ranking[p]] !in used
    decreases |ranking| - j
  {
    if j == |ranking| then j
    else if ids[ranking[j]] !in used then j
    else FirstUnusedFrom(ranking, ids, used, j + 1)
  }

  function FirstUnused(ranking: seq<nat>, ids: seq<int>, used: set<int>): (p: nat)
    requires forall i :: 0 <= i < |ranking| ==> ranking[i] < |ids|
    ensures p <= |ranking|
    ensures forall i :: 0 <= i < p ==> ids[ranking[i]] in used
    ensures p < |ranking| ==> ids[ranking[p]] !in used
  {
    FirstUnusedFrom(ranking, ids, used, 0)
  }

  /** The scan stops at the first candidate that is a padding index or has
      an unused ID. */
  lemma {:induction false} ScanStops(c: seq<nat>, ids: seq<int>, used: set<int>, q: nat)
    requires q <= |c|
    requires forall j :: 0 <= j < q ==> c[j] < |ids| && ids[c[j]] in used
    ensures q == |c| ==> ScanCandidates(c, ids, used) == Missed
    ensures q < |c| && c[q] >= |ids| ==> ScanCandidates(c, ids, used) == OutOfRange
    ensures q < |c| && c[q] < |ids| && ids[c[q]] !in used ==> ScanCandidates(c, ids, used) == Found(ids[c[q]])
    decreases q
  {
    if q > 0 {
      assert forall j :: 0 <= j < q - 1 ==> c[1..][j] == c[j + 1];
      ScanStops(c[1..], ids, used, q - 1);
    }
  }

  /** However far the query has widened, the loop for one coordinate takes
      the ID of the first ranked point whose ID is unused, and fails exactly
      when there is none. */
  lemma {:induction false} AssignOneTakesFirstUnused(ranking: seq<nat>, ids: seq<int>, used: set<int>, k: nat)
    requires |ranking| == |ids|
    requires forall i :: 0 <= i < |ranking| ==> ranking[i] < |ids|
    ensures var p := FirstUnused(ranking, ids, used);
      var r := AssignOne(ranking, ids, used, k);
      && (r.Ok? <==> p < |ids|)
      && (r.Ok? ==> r.value.0 == ids[ranking[p]])
    decreases |ids| + 1 - k
  {
    var p := FirstUnused(ranking, ids, used);
    var c := Query(ranking, k);
    var q := if p < k then p else k;
    ScanStops(c, ids, used, q);
    if k <= p {
      AssignOneTakesFirstUnused(ranking, ids, used, k + 1);
    }
  }

  /** The IDs of the input points. */
  function IdSet(ids: seq<int>): (s: set<int>)
    ensures forall x :: x in s <==> x in ids
  {
    set j | 0 <= j < |ids| :: ids[j]
  }

  /** With a ranking of every input point, the loop for one coordinate
      succeeds exactly when some input ID is still unused. */
  lemma AssignOneSucceeds(ranking: seq<nat>, ids: seq<int>, used: set<int>, k: nat)
    requires IsRanking(ranking, |ids|)
    ensures AssignOne(ranking, ids, used, k).Ok? <==> IdSet(ids) - used != {}
  {
    AssignOneTakesFirstUnused(ranking, ids, used, k);
    var p := FirstUnused(ranking, ids, used);
    var d := IdSet(ids) - used;
    if p < |ids| {
      var x := ids[ranking[p]];
      assert x in d;
    } else {
      forall x | x in IdSet(ids) ensures x in used {
        var i :| 0 <= i < |ids| && ids[i] == x;
        assert i in ranking;
        var j :| 0 <= j < |ranking| && ranking[j] == i;
        assert ids[ranking[j]] in used;
      }
      assert d == {};
    }
  }

  /** `ids` never repeats a value. */
  predicate Distinct(ids: seq<int>) {
    forall i, j :: 0 <= i < j < |ids| ==> ids[i] != ids[j]
  }

  /** The encoder loop over the output coordinates, one ranking each,
      threading the used IDs and the widened `k`. */
  function AssignAll(rankings: seq<seq<nat>>, ids: seq<int>, used: set<int>, k: nat): (r: Result<seq<int>>)
    requires forall j :: 0 <= j < |rankings| ==> |rankings[j]| == |ids|
    ensures r.Ok? ==> |r.value| == |rankings|
    ensures r.Ok? ==> forall j :: 0 <= j < |r.value| ==> r.value[j] in ids && r.value[j] !in used
    ensures r.Ok? ==> Distinct(r.value)
    decreases |rankings|
  {
    if |rankings| == 0 then Ok([])
    else
      var pick :- AssignOne(rankings[0], ids, used, k);
      var id := pick.0;
      var rest :- AssignAll(rankings[1..], ids, used + {id}, pick.1);
      var all := [id] + rest;
      assert forall j :: 1 <= j < |all| ==> all[j] == rest[j - 1];
      Ok(all)
  }

  /** One ranking of every input point per coordinate. */
  predicate RanksAll(rankings: seq<seq<nat>>, n: nat) {
    forall j :: 0 <= j < |rankings| ==> |rankings[j]| == n && IsRanking(rankings[j], n)
  }

  /** With a ranking of every input point per coordinate, the loop succeeds
      exactly when there are no more coordinates than unused input IDs. */
  lemma {:induction false} AssignAllSucceeds(rankings: seq<seq<nat>>, ids: seq<int>, used: set<int>, k: nat)
    requires RanksAll(rankings, |ids|)
    ensures AssignAll(rankings, ids, used, k).Ok? <==> |rankings| <= |IdSet(ids) - used|
    decreases |rankings|
  {
    if |rankings| > 0 {
      AssignOneSucceeds(rankings[0], ids, used, k);
      var r := AssignOne(rankings[0], ids, used, k);
      if r.Ok? {
        var id := r.value.0;
        assert forall j :: 0 <= j < |rankings| - 1 ==> rankings[1..][j] == rankings[j + 1];
        AssignAllSucceeds(rankings[1..], ids, used + {id}, r.value.1);
        assert IdSet(ids) - used == (IdSet(ids) - (used + {id})) + {id};
      }
    }
  }

  /** The encoder's IDs: from the first neighbour query of ten, one distinct
      input ID per output coordinate. */
  function EncoderIds(rankings: seq<seq<nat>>, ids: seq<int>): (r: Result<seq<int>>)
    requires forall j :: 0 <= j < |rankings| ==> |rankings[j]| == |ids|
    ensures r.Ok? ==> |r.value| == |rankings| && Distinct(r.value)
    ensures r.Ok? ==> forall j :: 0 <= j < |r.value| ==> r.value[j] in ids
    ensures RanksAll(rankings, |ids|) ==>
      (r.Ok? <==> |rankings| <= |IdSet(ids)|)
  {
    var used: set<int> := {};
    assert RanksAll(rankings, |ids|) ==>
      (AssignAll(rankings, ids, used, InitialNeighbours).Ok? <==> |rankings| <= |IdSet(ids)|) by {
      if RanksAll(rankings, |ids|) {
        AssignAllSucceeds(rankings, ids, used, InitialNeighbours);
        assert IdSet(ids) - used == IdSet(ids);
      }
    }
    AssignAll(rankings, ids, used, InitialNeighbours)
  }

  /** The encoder's points sorted by assigned ID (`np.argsort(id_mapping)`),
      as written by `write_ply_with_id`: every coordinate paired with its
      assigned ID, ascending. */
  function EncoderPoints(coords: seq<Coord>, rankings: seq<seq<nat>>, ids: seq<int>): (r: Result<seq<(int, Coord)>>)
    requires |rankings| == |coords|
    requires forall j :: 0 <= j < |rankings| ==> |rankings[j]| == |ids|
    ensures RanksAll(rankings, |ids|) ==>
      (r.Ok? <==> |coords| <= |IdSet(ids)|)
    ensures r.Ok? ==> SortedByKey(r.value)
    ensures r.Ok? ==> EncoderIds(rankings, ids).Ok? && var m := EncoderIds(rankings, ids).value;
      multiset(r.value) == multiset(seq(|coords|, j requires 0 <= j < |coords| => (m[j], coords[j])))
    ensures r.Ok? ==> forall j :: 0 <= j < |r.value| ==> r.value[j].0 in ids
  {
    var m :- EncoderIds(rankings, ids);
    var pairs := seq(|coords|, j requires 0 <= j < |coords| => (m[j], coords[j]));
    SortByKeySpec(pairs);
    var sorted := SortByKey(pairs);
    forall j | 0 <= j < |sorted| ensures sorted[j].0 in ids {
      assert sorted[j] in multiset(pairs);
      var i :| 0 <= i < |pairs| && pairs[i] == sorted[j];
    }
    Ok(sorted)
  }

  /** The written points of the encoder. */
  function AsPoints(pairs: seq<(int, Coord)>): (r: seq<Point>)
    ensures |r| == |pairs|
    ensures forall j :: 0 <= j < |pairs| ==> r[j] == Point(pairs[j].1, pairs[j].0)
  {
    seq(|pairs|, j requires 0 <= j < |pairs| => Point(pairs[j].1, pairs[j].0))
  }

  /** The encoder's output file reads back as its points, in ascending ID
      order, each ID an input ID. */
  lemma EncoderFileReadsBack(lines: seq<string>, coords: seq<Coord>, rankings: seq<seq<nat>>, ids: seq<int>,
                             show: FloatRenderer, parse: FloatParser)
    requires |rankings| == |coords|
    requires forall j :: 0 <= j < |rankings| ==> |rankings[j]| == |ids|
    requires EncoderPoints(coords, rankings, ids).Ok?
    requires exists i :: 0 <= i < |lines| && IsEndHeader(lines[i])
    requires RendersTokens(show) && Inverse(parse, show)
    ensures var pts := AsPoints(EncoderPoints(coords, rankings, ids).value);
      var out := WritePlyWithId(lines, pts, show);
      && ReadPlyWithId(out.header + out.data, parse) == Ok(pts)
      && (forall i, j :: 0 <= i < j < |pts| ==> pts[i].id <= pts[j].id)
      && (forall j :: 0 <= j < |pts| ==> pts[j].id in ids)
  {
    var pts := AsPoints(EncoderPoints(coords, rankings, ids).value);
    WriteReadRoundTrip(lines, pts, show, parse);
  }

  // ---------------------------------------------------------------------------
  // The decoder
  // ---------------------------------------------------------------------------

  /** `decoder_process` after the codec: each input point is moved to its
      nearest reconstructed coordinate (`nearest[i]`, the tree's answer) and
      keeps its ID. An index past the reconstruction raises IndexError. */
  function Decode(input: seq<Point>, recon: seq<Coord>, nearest: seq<nat>): (r: Result<seq<Point>>)
    requires |nearest| == |input|
    ensures r.Ok? <==> forall i :: 0 <= i < |nearest| ==> nearest[i] < |recon|
    ensures r.Ok? ==> |r.value| == |input|
    ensures r.Ok? ==> forall i :: 0 <= i < |input| ==> r.value[i].id == input[i].id && r.value[i].at in recon
    ensures r.Ok? ==> forall i :: 0 <= i < |input| ==> r.value[i].at == recon[nearest[i]]
  {
    if forall i :: 0 <= i < |nearest| ==> nearest[i] < |recon| then
      Ok(seq(|input|, i requires 0 <= i < |input| => Point(recon[nearest[i]], input[i].id)))
    else Err(IndexError("index out of bounds"))
  }

  /** A reconstruction that reproduces every input coordinate, matched to
      itself, gives back the input points. */
  lemma DecodeExact(input: seq<Point>)
    ensures var recon := seq(|input|, i requires 0 <= i < |input| => input[i].at);
      Decode(input, recon, seq(|input|, i requires 0 <= i < |input| => i)) == Ok(input)
  {
    var recon := seq(|input|, i requires 0 <= i < |input| => input[i].at);
    var nearest := seq(|input|, i requires 0 <= i < |input| => i);
    assert forall i :: 0 <= i < |nearest| ==> nearest[i] < |recon|;
    var r := Decode(input, recon, nearest).value;
    assert forall i :: 0 <= i < |input| ==> r[i] == Point(recon[nearest[i]], input[i].id) == input[i];
    assert r == input;
  }

  /** The decoder's file, read back, has the input's IDs in the input's
      order. */
  lemma DecoderKeepsIds(lines: seq<string>, recon: seq<Coord>, nearest: seq<nat>,
                        show: FloatRenderer, parse: FloatParser)
    requires ReadPlyWithId(lines, parse).Ok?
    requires |nearest| == |ReadPlyWithId(lines, parse).value|
    requires Decode(ReadPlyWithId(lines, parse).value, recon, nearest).Ok?
    requires exists i :: 0 <= i < |lines| && IsEndHeader(lines[i])
    requires RendersTokens(show) && Inverse(parse, show)
    ensures var input := ReadPlyWithId(lines, parse).value;
      var out := WritePlyWithId(lines, Decode(input, recon, nearest).value, show);
      var back := ReadPlyWithId(out.header + out.data, parse);
      && back.Ok? && |back.value| == |input|
      && forall i :: 0 <= i < |input| ==> back.value[i].id == input[i].id
  {
    var input := ReadPlyWithId(lines, parse).value;
    WriteReadRoundTrip(lines, Decode(input, recon, nearest).value, show, parse);
  }
}

=== FILE: dedup.dfy ===
/** `delete_repeat_voxel.py`: after voxelization several points can share a
    grid cell. The data lines are read as `(x, y, z)` plus an ID, every
    coordinate triple keeps the ID of its first occurrence (a Python dict in
    insertion order), and the header's `element vertex` lines are rewritten
    to the number of distinct triples. */
module Dedup {
  import opened Text
  import opened PlyHeader
  import opened Numeric

  datatype Point = Point(x: real, y: real, z: real)

  /** One parsed data line: its coordinates and its ID. */
  datatype Entry = Entry(p: Point, id: int)

  /** The numbers the regular expression finds on a line, as floats. The
      tokenizer itself is a parameter of the model. */
  type NumberScanner = string -> seq<real>

  // ---------------------------------------------------------------------------
  // Parsing
  // ---------------------------------------------------------------------------

  /** The entry a line with at least four numbers yields:
      `tuple(map(float, coordinates[:3]))` and `int(float(coordinates[3]))`. */
  function EntryOf(nums: seq<real>): Entry
    requires |nums| >= 4
  {
    Entry(Point(nums[0], nums[1], nums[2]), Trunc(nums[3]))
  }

  /** The entries of the lines with at least four numbers, in line order;
      other lines are skipped. */
  function ParsePoints(lines: seq<seq<real>>): (r: seq<Entry>)
    ensures |r| <= |lines|
    ensures (forall k :: 0 <= k < |lines| ==> |lines[k]| >= 4) ==>
      |r| == |lines| && forall k :: 0 <= k < |lines| ==> r[k] == EntryOf(lines[k])
  {
    if |lines| == 0 then []
    else
      var rest := ParsePoints(lines[1..]);
      assert forall k :: 1 <= k < |lines| ==> lines[k] == lines[1..][k - 1];
      if |lines[0]| >= 4 then [EntryOf(lines[0])] + rest else rest
  }

  /** A line with fewer than four numbers contributes nothing, wherever it is. */
  lemma {:induction false} ParseSkipsShort(a: seq<seq<real>>, line: seq<real>, b: seq<seq<real>>)
    requires |line| < 4
    ensures ParsePoints(a + [line] + b) == ParsePoints(a + b)
    decreases |a|
  {
    if |a| == 0 {
      assert a + [line] + b == [line] + b;
      assert ([line] + b)[1..] == b;
      assert a + b == b;
    } else {
      ParseSkipsShort(a[1..], line, b);
      assert (a + [line] + b)[1..] == a[1..] + [line] + b;
      assert (a + b)[1..] == a[1..] + b;
    }
  }

  // ---------------------------------------------------------------------------
  // First-occurrence deduplication
  // ---------------------------------------------------------------------------

  /** The coordinate triples of a list of entries. */
  function Points(s: seq<Entry>): set<Point> {
    set k | 0 <= k < |s| :: s[k].p
  }

  /** No two entries share a coordinate triple. */
  predicate Distinct(s: seq<Entry>) {
    forall a, b :: 0 <= a < b < |s| ==> s[a].p != s[b].p
  }

  /** The loop `if point not in unique_points: unique_points[point] = ids[i]`,
      with the dict as its list of entries in insertion order. */
  function KeepFirst(pts: seq<Entry>): (u: seq<Entry>)
    ensures Distinct(u)
    ensures Points(u) == Points(pts)
    ensures |u| <= |pts|
    decreases |pts|
  {
    if |pts| == 0 then []
    else
      var pre := pts[..|pts| - 1];
      var e := pts[|pts| - 1];
      var u := KeepFirst(pre);
      assert Points(pts) == Points(pre) + {e.p} by {
        assert forall k :: 0 <= k < |pre| ==> pre[k] == pts[k];
      }
      if e.p in Points(u) then u
      else
        assert forall k :: 0 <= k < |u| ==> (u + [e])[k] == u[k];
        assert (u + [e])[|u|] == e;
        assert Points(u + [e]) == Points(u) + {e.p};
        u + [e]
  }

  /** Entry `i` is the first with its coordinates. */
  predicate IsFirst(pts: seq<Entry>, i: nat)
    requires i < |pts|
  {
    forall j :: 0 <= j < i ==> pts[j].p != pts[i].p
  }

  /** The reference definition: the entries that are the first with their
      coordinates, in input order. */
  function FirstOccurrences(pts: seq<Entry>): seq<Entry>
    decreases |pts|
  {
    if |pts| == 0 then []
    else FirstOccurrences(pts[..|pts| - 1]) + (if IsFirst(pts, |pts| - 1) then [pts[|pts| - 1]] else [])
  }

  /** The dict loop keeps exactly the first occurrences, in order of first
      appearance: every triple with the ID it had first. */
  lemma {:induction false} KeepFirstIsFirstOccurrences(pts: seq<Entry>)
    ensures KeepFirst(pts) == FirstOccurrences(pts)
    decreases |pts|
  {
    if |pts| > 0 {
      var pre := pts[..|pts| - 1];
      var e := pts[|pts| - 1];
      KeepFirstIsFirstOccurrences(pre);
      assert e.p in Points(pre) <==> !IsFirst(pts, |pts| - 1) by {
        if e.p in Points(pre) {
          var k :| 0 <= k < |pre| && pre[k].p == e.p;
          assert pts[k].p == e.p;
        }
        if !IsFirst(pts, |pts| - 1) {
          var j :| 0 <= j < |pts| - 1 && pts[j].p == e.p;
          assert pre[j].p == e.p;
        }
      }
    }
  }

  /** A list whose triples are already distinct is its own deduplication. */
  lemma {:induction false} KeepFirstOfDistinct(s: seq<Entry>)
    requires Distinct(s)
    ensures KeepFirst(s) == s
    decreases |s|
  {
    if |s| > 0 {
      var pre := s[..|s| - 1];
      KeepFirstOfDistinct(pre);
      assert s[|s| - 1].p !in Points(pre);
      assert pre + [s[|s| - 1]] == s;
    }
  }

  /** Deduplicating twice is deduplicating once. */
  lemma KeepFirstIdempotent(pts: seq<Entry>)
    ensures KeepFirst(KeepFirst(pts)) == KeepFirst(pts)
  {
    KeepFirstOfDistinct(KeepFirst(pts));
  }

  /** Nothing is dropped exactly when the triples are already distinct. */
  lemma {:induction false} NoDuplicatesIff(pts: seq<Entry>)
    ensures |KeepFirst(pts)| == |pts| <==> Distinct(pts)
    decreases |pts|
  {
    if Distinct(pts) {
      KeepFirstOfDistinct(pts);
    } else if |pts| > 0 {
      var pre := pts[..|pts| - 1];
      var e := pts[|pts| - 1];
      NoDuplicatesIff(pre);
      if Distinct(pre) {
        assert forall x, y :: 0 <= x < y < |pts| - 1 ==> pts[x].p != pts[y].p by {
          forall x, y | 0 <= x < y < |pts| - 1 ensures pts[x].p != pts[y].p {
            assert pre[x] == pts[x] && pre[y] == pts[y];
          }
        }
        var a, b :| 0 <= a < b < |pts| && pts[a].p == pts[b].p;
        assert b == |pts| - 1;
        assert pre[a].p == e.p;
        assert e.p in Points(KeepFirst(pre));
      }
    }
  }

  /** The distinct entries in order of first appearance; as many as the
      input exactly when the input has no duplicate. */
  function Unique(pts: seq<Entry>): (u: seq<Entry>)
    ensures Distinct(u)
    ensures u == FirstOccurrences(pts)
    ensures |u| <= |pts|
    ensures |u| == |pts| <==> Distinct(pts)
  {
    NoDuplicatesIff(pts);
    KeepFirstIsFirstOccurrences(pts);
    KeepFirst(pts)
  }

  // ---------------------------------------------------------------------------
  // The file
  // ---------------------------------------------------------------------------

  datatype Deduplicated = Deduplicated(header: seq<string>, points: seq<Entry>, duplicates: int)

  /** The data lines: those after the first line starting with `end_header`;
      none when there is no such line. */
  function DataLines(lines: seq<string>): (r: seq<string>)
    ensures |r| <= |lines|
  {
    var sec := SplitAtSentinel(lines, IsEndHeader);
    if sec.dataStart > 0 then lines[sec.dataStart..] else []
  }

  function ScanAll(lines: seq<string>, scan: NumberScanner): (r: seq<seq<real>>)
    ensures |r| == |lines|
    ensures forall k :: 0 <= k < |lines| ==> r[k] == scan(lines[k])
  {
    seq(|lines|, k requires 0 <= k < |lines| => scan(lines[k]))
  }

  /** `detect_and_remove_duplicates`: the header (every `element vertex` line
      declaring the distinct count), the distinct points with their first
      IDs, and the number of dropped duplicates. */
  function DetectAndRemoveDuplicates(lines: seq<string>, scan: NumberScanner): (r: Deduplicated)
    ensures var sec := SplitAtSentinel(lines, IsEndHeader);
      && |r.header| == |sec.header|
      && (forall k :: 0 <= k < |sec.header| ==>
            r.header[k] == if IsVertexLine(sec.header[k]) then VertexLine(|r.points|) else sec.header[k])
    ensures Distinct(r.points)
    ensures r.duplicates >= 0
    ensures r.duplicates == |ParsePoints(ScanAll(DataLines(lines), scan))| - |r.points|
    ensures r.duplicates == 0 <==> Distinct(ParsePoints(ScanAll(DataLines(lines), scan)))
    ensures r.points == FirstOccurrences(ParsePoints(ScanAll(DataLines(lines), scan)))
  {
    var sec := SplitAtSentinel(lines, IsEndHeader);
    var pts := ParsePoints(ScanAll(DataLines(lines), scan));
    var u := Unique(pts);
    Deduplicated(RewriteVertexLines(sec.header, |u|), u, |pts| - |u|)
  }
}

=== FILE: delete_id.dfy ===
/** `deleteid.py`: drop the ID column of an ASCII PLY file (its property
    declaration and the last column of the data), and report whether a file
    declares one. */
module DeleteId {
  import opened Results
  import opened Text
  import opened PlyHeader
  import opened Numeric

  // ---------------------------------------------------------------------------
  // The stripped header
  // ---------------------------------------------------------------------------

  /** The lines `f.readline().strip()` yields before the first one equal to
      `end_header`. At the end of the file `readline()` keeps returning "",
      so without that line the loop never ends. */
  function StrippedHeader(lines: seq<string>): (r: Result<seq<string>>)
    ensures r.Ok? <==> exists i :: 0 <= i < |lines| && IsStrippedEndHeader(lines[i])
    ensures r.Ok? ==> |r.value| < |lines| && IsStrippedEndHeader(lines[|r.value|])
    ensures r.Ok? ==> forall k :: 0 <= k < |r.value| ==> r.value[k] == Strip(lines[k]) && r.value[k] != "end_header"
  {
    FindFirstFound(lines, IsStrippedEndHeader);
    match FindFirst(lines, IsStrippedEndHeader)
    case None => Err(NoTerminator("no header line strips to end_header"))
    case Some(i) => Ok(seq(i, k requires 0 <= k < i => Strip(lines[k])))
  }

  // ---------------------------------------------------------------------------
  // Removing the ID declaration
  // ---------------------------------------------------------------------------

  /** `line.startswith('property') and 'id' in line.lower()`. */
  predicate IsIdProperty(s: string) {
    IsPropertyLine(s) && Contains(Lower(s), "id")
  }

  /** One pass of the header loop: an `element vertex` line is kept once its
      count parses, an ID property line is skipped, every other line is
      kept. */
  function LoopLine(line: string): (r: Result<seq<string>>)
    ensures r.Ok? <==> (IsVertexLine(line) ==> ParseInt(LastToken(line)).Some?)
    ensures r.Ok? ==> r.value == if IsIdProperty(line) then [] else [line]
  {
    if IsVertexLine(line) then
      assert line[0] == 'e' && !IsPropertyLine(line);
      match ParseInt(LastToken(line))
      case None => Err(ValueError("invalid literal for int(): " + LastToken(line)))
      case Some(_) => Ok([line])
    else if IsIdProperty(line) then Ok([])
    else Ok([line])
  }

  /** The reference definition: the lines that are not ID declarations, in
      order. */
  function NonIdLines(h: seq<string>): (r: seq<string>)
    ensures forall k :: 0 <= k < |r| ==> r[k] in h && !IsIdProperty(r[k])
    ensures forall k :: 0 <= k < |h| && !IsIdProperty(h[k]) ==> h[k] in r
    decreases |h|
  {
    if |h| == 0 then []
    else
      var rest := NonIdLines(h[1..]);
      assert forall k :: 0 < k < |h| ==> h[k] == h[1..][k - 1];
      if IsIdProperty(h[0]) then rest else [h[0]] + rest
  }

  /** An `element vertex` line whose count `int()` rejects. */
  predicate BadCount(line: string) {
    IsVertexLine(line) && ParseInt(LastToken(line)).None?
  }

  /** A raw line that raises once stripped. */
  predicate RaisesOn(line: string) {
    BadCount(Strip(line))
  }

  /** Some line satisfies `bad` with no line before it satisfying `stop`. */
  predicate FirstBefore(lines: seq<string>, bad: string -> bool, stop: string -> bool) {
    exists i :: 0 <= i < |lines| && bad(lines[i]) && forall j :: 0 <= j < i ==> !stop(lines[j])
  }

  /** No line satisfies either predicate. */
  predicate NoneOf(lines: seq<string>, bad: string -> bool, stop: string -> bool) {
    forall i :: 0 <= i < |lines| ==> !stop(lines[i]) && !bad(lines[i])
  }

  /** The loop meets a bad count before any `end_header` line: it raises
      ValueError there. */
  predicate FailsOnCount(lines: seq<string>) {
    FirstBefore(lines, RaisesOn, IsStrippedEndHeader)
  }

  /** No line ends the header and none raises: past the end of the file
      `readline()` returns "" forever, which is kept as an ordinary line. */
  predicate NeverEnds(lines: seq<string>) {
    NoneOf(lines, RaisesOn, IsStrippedEndHeader)
  }

  /** The header loop of `remove_id_from_ply`: each line is read, stripped
      and handled in turn until one is `end_header`, so a bad count raises
      before a later sentinel is seen, and a file that runs out first loops
      forever. */
  function ReadHeader(lines: seq<string>): Result<seq<string>>
    decreases |lines|
  {
    if |lines| == 0 then Err(NoTerminator("readline() returns '' forever before end_header"))
    else if IsStrippedEndHeader(lines[0]) then Ok([])
    else
      var first :- LoopLine(Strip(lines[0]));
      var rest :- ReadHeader(lines[1..]);
      Ok(first + rest)
  }

  /** Past a first line that is not `end_header`, the header is terminated
      exactly when the rest of the file's is. */
  lemma StrippedHeaderConsOk(lines: seq<string>)
    requires |lines| > 0 && !IsStrippedEndHeader(lines[0])
    ensures StrippedHeader(lines).Ok? <==> StrippedHeader(lines[1..]).Ok?
  {
    ExistsCons(lines, IsStrippedEndHeader);
  }

  /** Past a first line that is not `end_header`, the stripped header is
      that line stripped, then the stripped header of the rest. */
  lemma StrippedHeaderCons(lines: seq<string>)
    requires |lines| > 0 && !IsStrippedEndHeader(lines[0])
    requires StrippedHeader(lines).Ok?
    ensures StrippedHeader(lines[1..]).Ok?
    ensures StrippedHeader(lines).value == [Strip(lines[0])] + StrippedHeader(lines[1..]).value
  {
    StrippedHeaderConsOk(lines);
    var a, b := StrippedHeader(lines).value, StrippedHeader(lines[1..]).value;
    var i := FindFirst(lines[1..], IsStrippedEndHeader);
    assert FindFirst(lines, IsStrippedEndHeader) == Some(i.value + 1);
    MapCons(lines, a, b, Strip);
  }

  /** One step of the loop past a line that is not `end_header`. */
  lemma ReadHeaderCons(lines: seq<string>)
    requires |lines| > 0 && !IsStrippedEndHeader(lines[0])
    ensures ReadHeader(lines).Ok? <==> LoopLine(Strip(lines[0])).Ok? && ReadHeader(lines[1..]).Ok?
    ensures ReadHeader(lines).Ok? ==>
      ReadHeader(lines).value == LoopLine(Strip(lines[0])).value + ReadHeader(lines[1..]).value
  {
  }

  /** The reference filter, one line at a time. */
  lemma NonIdCons(x: string, t: seq<string>)
    ensures NonIdLines([x] + t) == (if IsIdProperty(x) then [] else [x]) + NonIdLines(t)
  {
    assert ([x] + t)[1..] == t;
  }

  /** A line-by-line image of `lines` is its first line's image followed by
      the image of the rest. */
  lemma MapCons(lines: seq<string>, a: seq<string>, b: seq<string>, f: string -> string)
    requires 0 < |a| <= |lines| && |a| == |b| + 1
    requires forall k :: 0 <= k < |a| ==> a[k] == f(lines[k])
    requires forall k :: 0 <= k < |b| ==> b[k] == f(lines[1..][k])
    ensures a == [f(lines[0])] + b
  {
    forall k | 0 < k < |a| ensures a[k] == b[k - 1] {
      assert lines[1..][k - 1] == lines[k];
    }
  }

  /** Past a first line that satisfies neither predicate, both outcomes are
      decided by the rest of the lines. */
  lemma OutcomeCons(lines: seq<string>, bad: string -> bool, stop: string -> bool)
    requires |lines| > 0 && !stop(lines[0]) && !bad(lines[0])
    ensures FirstBefore(lines, bad, stop) <==> FirstBefore(lines[1..], bad, stop)
    ensures NoneOf(lines, bad, stop) <==> NoneOf(lines[1..], bad, stop)
  {
    var rest := lines[1..];
    assert forall k :: 0 <= k < |rest| ==> rest[k] == lines[k + 1];
    if FirstBefore(lines, bad, stop) {
      var i :| 0 <= i < |lines| && bad(lines[i]) && forall j :: 0 <= j < i ==> !stop(lines[j]);
      assert i > 0 && bad(rest[i - 1]);
    }
    if FirstBefore(rest, bad, stop) {
      var i :| 0 <= i < |rest| && bad(rest[i]) && forall j :: 0 <= j < i ==> !stop(rest[j]);
      assert bad(lines[i + 1]);
      assert forall j :: 0 <= j < i + 1 ==> !stop(lines[j]) by {
        forall j | 0 < j < i + 1 ensures !stop(lines[j]) {
          assert lines[j] == rest[j - 1];
        }
      }
    }
  }

  /** The loop succeeds exactly when the file has an `end_header` line and
      every count before it parses, and then keeps the reference lines. */
  lemma {:induction false} ReadHeaderOk(lines: seq<string>)
    ensures ReadHeader(lines).Ok? <==>
      StrippedHeader(lines).Ok? && VertexCountsParse(StrippedHeader(lines).value)
    ensures ReadHeader(lines).Ok? ==> ReadHeader(lines).value == NonIdLines(StrippedHeader(lines).value)
    decreases |lines|
  {
    if |lines| == 0 {
    } else if IsStrippedEndHeader(lines[0]) {
      assert StrippedHeader(lines).value == [];
    } else {
      var rest := lines[1..];
      ReadHeaderOk(rest);
      ReadHeaderCons(lines);
      StrippedHeaderConsOk(lines);
      if StrippedHeader(lines).Ok? {
        StrippedHeaderCons(lines);
        var x, b := Strip(lines[0]), StrippedHeader(rest).value;
        ParseCons([x] + b);
        assert ([x] + b)[1..] == b;
        NonIdCons(x, b);
      }
    }
  }

  /** The loop raises ValueError exactly when a bad count comes before any
      `end_header`, and runs forever exactly when no line ends it or raises. */
  lemma {:induction false} ReadHeaderFails(lines: seq<string>)
    ensures ReadHeader(lines).Err? && ReadHeader(lines).error.ValueError? <==> FailsOnCount(lines)
    ensures ReadHeader(lines).Err? && ReadHeader(lines).error.NoTerminator? <==> NeverEnds(lines)
    decreases |lines|
  {
    if |lines| == 0 {
    } else if IsStrippedEndHeader(lines[0]) {
    } else if RaisesOn(lines[0]) {
      assert FailsOnCount(lines) by {
        assert RaisesOn(lines[0]);
      }
    } else {
      ReadHeaderFails(lines[1..]);
      OutcomeCons(lines, RaisesOn, IsStrippedEndHeader);
    }
  }

  /** The four outcomes of the header loop, as `remove_id_from_ply` meets
      them line by line. */
  lemma ReadHeaderSpec(lines: seq<string>)
    ensures ReadHeader(lines).Ok? <==>
      StrippedHeader(lines).Ok? && VertexCountsParse(StrippedHeader(lines).value)
    ensures ReadHeader(lines).Ok? ==> ReadHeader(lines).value == NonIdLines(StrippedHeader(lines).value)
    ensures ReadHeader(lines).Err? && ReadHeader(lines).error.ValueError? <==> FailsOnCount(lines)
    ensures ReadHeader(lines).Err? && ReadHeader(lines).error.NoTerminator? <==> NeverEnds(lines)
  {
    ReadHeaderOk(lines);
    ReadHeaderFails(lines);
  }

  // ---------------------------------------------------------------------------
  // The file
  // ---------------------------------------------------------------------------

  /** The output of `remove_id_from_ply`: header lines as written, and the
      table `data[:, :-1]`. Rendering the values with sixteen decimals is
      not modelled. */
  datatype Removed = Removed(header: seq<string>, rows: Table)

  /** A table `np.loadtxt` returns as a two-dimensional array: it squeezes a
      single row or a single column to one dimension, on which `data[:, :-1]`
      raises IndexError. */
  predicate TwoDimensional(data: Table, width: nat) {
    |data| >= 2 && width >= 2
  }

  /** `hd` writes `kept` one per line, then `end_header`. */
  predicate WritesHeader(hd: seq<string>, kept: seq<string>) {
    && |hd| == |kept| + 1
    && (forall k :: 0 <= k < |kept| ==> hd[k] == kept[k] + "\n")
    && hd[|kept|] == EndHeaderLine
  }

  /** `rows` is `data` without its last column: nothing else is lost. */
  predicate DropsLastColumn(rows: Table, data: Table, width: nat)
    requires Rectangular(data, width) && width > 0
  {
    && |rows| == |data| && Rectangular(rows, width - 1)
    && forall i :: 0 <= i < |data| ==> rows[i] + [data[i][width - 1]] == data[i]
  }

  function DropLast(data: Table, width: nat): (r: Table)
    requires Rectangular(data, width) && width > 0
    ensures DropsLastColumn(r, data, width)
  {
    var r := seq(|data|, i requires 0 <= i < |data| => data[i][..width - 1]);
    assert forall i :: 0 <= i < |data| ==> r[i] + [data[i][width - 1]] == data[i];
    r
  }

  function WriteLines(kept: seq<string>): (hd: seq<string>)
    ensures WritesHeader(hd, kept)
  {
    seq(|kept|, k requires 0 <= k < |kept| => kept[k] + "\n") + [EndHeaderLine]
  }

  /** `remove_id_from_ply`, with `data` the table `np.loadtxt` reads from the
      lines after `end_header`. */
  function RemoveIdFromPly(lines: seq<string>, data: Table, width: nat): (r: Result<Removed>)
    requires Rectangular(data, width)
    ensures r.Ok? <==>
      && StrippedHeader(lines).Ok?
      && VertexCountsParse(StrippedHeader(lines).value)
      && TwoDimensional(data, width)
    ensures r.Ok? ==> WritesHeader(r.value.header, NonIdLines(StrippedHeader(lines).value))
    ensures r.Ok? ==> DropsLastColumn(r.value.rows, data, width)
    ensures r.Err? && r.error.ValueError? <==> FailsOnCount(lines)
    ensures r.Err? && r.error.NoTerminator? <==> NeverEnds(lines)
  {
    ReadHeaderSpec(lines);
    var kept :- ReadHeader(lines);
    if !TwoDimensional(data, width) then Err(IndexError("too many indices for array"))
    else
      Ok(Removed(WriteLines(kept), DropLast(data, width)))
  }

  /** The written header holds exactly one `end_header`, as its last line,
      and no ID declaration. */
  lemma RemovedHeaderShape(lines: seq<string>, data: Table, width: nat)
    requires Rectangular(data, width)
    requires RemoveIdFromPly(lines, data, width).Ok?
    ensures var hd := RemoveIdFromPly(lines, data, width).value.header;
      && |hd| > 0 && hd[|hd| - 1] == EndHeaderLine
      && forall k :: 0 <= k < |hd| - 1 ==> !IsStrippedEndHeader(hd[k]) && !IsIdProperty(Strip(hd[k]))
  {
    var h := StrippedHeader(lines).value;
    var kept := NonIdLines(h);
    var hd := RemoveIdFromPly(lines, data, width).value.header;
    forall k | 0 <= k < |hd| - 1
      ensures !IsStrippedEndHeader(hd[k]) && !IsIdProperty(Strip(hd[k]))
    {
      assert hd[k] == kept[k] + "\n";
      var j :| 0 <= j < |h| && h[j] == kept[k];
      StripNewline(kept[k], lines[j]);
    }
  }

  // ---------------------------------------------------------------------------
  // `check_file_structure`
  // ---------------------------------------------------------------------------

  /** The line the check reports: it contains `property` and, in lower case, `id`. */
  predicate MentionsIdProperty(s: string) {
    Contains(s, "property") && Contains(Lower(s), "id")
  }

  function AnyMentions(h: seq<string>): (b: bool)
    ensures b <==> exists k :: 0 <= k < |h| && MentionsIdProperty(h[k])
    decreases |h|
  {
    if |h| == 0 then false
    else
      assert forall k :: 0 < k < |h| ==> h[k] == h[1..][k - 1];
      MentionsIdProperty(h[0]) || AnyMentions(h[1..])
  }

  /** `check_file_structure`: whether some header line mentions an ID property. */
  function CheckFileStructure(lines: seq<string>): (r: Result<bool>)
    ensures r.Ok? <==> StrippedHeader(lines).Ok?
    ensures r.Ok? ==> (r.value <==> exists k :: 0 <= k < |StrippedHeader(lines).value| &&
                                            MentionsIdProperty(StrippedHeader(lines).value[k]))
  {
    var h :- StrippedHeader(lines);
    Ok(AnyMentions(h))
  }

  /** A line starting with a prefix contains it. */
  lemma StartsWithContains(s: string, p: string)
    requires StartsWith(s, p)
    ensures Contains(s, p)
  {
  }

  /** When the check finds no ID property, removing it drops no header line. */
  lemma {:induction false} NoIdNothingDropped(lines: seq<string>, data: Table, width: nat)
    requires Rectangular(data, width)
    requires CheckFileStructure(lines) == Ok(false)
    requires RemoveIdFromPly(lines, data, width).Ok?
    ensures NonIdLines(StrippedHeader(lines).value) == StrippedHeader(lines).value
  {
    var h := StrippedHeader(lines).value;
    forall k | 0 <= k < |h| ensures !IsIdProperty(h[k]) {
      if IsPropertyLine(h[k]) {
        StartsWithContains(h[k], "property");
        assert !MentionsIdProperty(h[k]);
      }
    }
    NonIdOfClean(h);
  }

  lemma {:induction false} NonIdOfClean(h: seq<string>)
    requires forall k :: 0 <= k < |h| ==> !IsIdProperty(h[k])
    ensures NonIdLines(h) == h
    decreases |h|
  {
    if |h| > 0 {
      assert forall k :: 0 <= k < |h| - 1 ==> h[1..][k] == h[k + 1];
      NonIdOfClean(h[1..]);
      assert !IsIdProperty(h[0]);
      assert h == [h[0]] + h[1..];
    }
  }
}

=== FILE: delete_points.dfy ===
/** `3dgsdeletepoint.py`: remove from an ASCII PLY file the points whose ID
    (the last column) is listed in a text file, and update the row count. */
module DeletePoints {
  import opened Results
  import opened Text
  import opened PlyHeader

  // ---------------------------------------------------------------------------
  // The removal set
  // ---------------------------------------------------------------------------

  predicate IsBlank(line: string) {
    Strip(line) == ""
  }

  /** Every non-blank line of the ID file is an integer literal. */
  predicate IdsListed(idLines: seq<string>) {
    forall k :: 0 <= k < |idLines| && !IsBlank(idLines[k]) ==> ParseInt(Strip(idLines[k])).Some?
  }

  lemma IdsListedCons(idLines: seq<string>)
    requires |idLines| > 0
    ensures IdsListed(idLines) <==>
      (!IsBlank(idLines[0]) ==> ParseInt(Strip(idLines[0])).Some?) && IdsListed(idLines[1..])
  {
    var rest := idLines[1..];
    if (!IsBlank(idLines[0]) ==> ParseInt(Strip(idLines[0])).Some?) && IdsListed(rest) {
      forall k | 0 < k < |idLines| && !IsBlank(idLines[k]) ensures ParseInt(Strip(idLines[k])).Some? {
        assert idLines[k] == rest[k - 1];
      }
    }
    if IdsListed(idLines) {
      forall k | 0 <= k < |rest| && !IsBlank(rest[k]) ensures ParseInt(Strip(rest[k])).Some? {
        assert rest[k] == idLines[k + 1];
      }
    }
  }

  /** `set(int(line.strip()) for line in f if line.strip())`, failing at the
      first non-blank line that is not an integer. */
  function RemovalSet(idLines: seq<string>): (r: Result<set<int>>)
    ensures r.Ok? <==> IdsListed(idLines)
    decreases |idLines|
  {
    if |idLines| == 0 then Ok({})
    else
      IdsListedCons(idLines);
      if IsBlank(idLines[0]) then RemovalSet(idLines[1..])
      else
        match ParseInt(Strip(idLines[0]))
        case None => Err(ValueError("invalid literal for int(): " + Strip(idLines[0])))
        case Some(x) =>
          var rest :- RemovalSet(idLines[1..]);
          Ok({x} + rest)
  }

  /** A non-blank line that strips to the integer `x`. */
  predicate ListsId(line: string, x: int) {
    !IsBlank(line) && ParseInt(Strip(line)) == Some(x)
  }

  /** The set holds exactly the integers on the non-blank lines. */
  lemma {:induction false} RemovalSetMembers(idLines: seq<string>, x: int)
    requires IdsListed(idLines)
    ensures RemovalSet(idLines).Ok?
    ensures x in RemovalSet(idLines).value <==> exists k :: 0 <= k < |idLines| && ListsId(idLines[k], x)
    decreases |idLines|
  {
    if |idLines| > 0 {
      IdsListedCons(idLines);
      RemovalSetMembers(idLines[1..], x);
      RemovalSetCons(idLines, x);
      ExistsCons(idLines, line => ListsId(line, x));
    }
  }

  /** One step of the set comprehension. */
  lemma RemovalSetCons(idLines: seq<string>, x: int)
    requires |idLines| > 0 && IdsListed(idLines)
    ensures IdsListed(idLines[1..])
    ensures x in RemovalSet(idLines).value <==> ListsId(idLines[0], x) || x in RemovalSet(idLines[1..]).value
  {
    IdsListedCons(idLines);
  }

  // ---------------------------------------------------------------------------
  // Filtering the data lines
  // ---------------------------------------------------------------------------

  /** The ID of a data line, `int(parts[-1])`, for a line with at least four
      tokens; `None` for a shorter line, which is skipped. */
  function LineId(line: string): Option<Option<int>> {
    var parts := Split(Strip(line));
    if |parts| < 4 then None else Some(ParseInt(parts[|parts| - 1]))
  }

  /** Every line that is not skipped has an integer last token. */
  predicate IdsParse(data: seq<string>) {
    forall k :: 0 <= k < |data| && LineId(data[k]).Some? ==> LineId(data[k]).value.Some?
  }

  /** The line is long enough and its ID is not to be removed. */
  predicate Survives(line: string, remove: set<int>) {
    LineId(line).Some? && LineId(line).value.Some? && LineId(line).value.value !in remove
  }

  /** The loop over the data lines, failing at the first long line whose last
      token is not an integer. */
  function KeepLines(data: seq<string>, remove: set<int>): Result<seq<string>>
    decreases |data|
  {
    if |data| == 0 then Ok([])
    else
      match LineId(data[0])
      case None => KeepLines(data[1..], remove)
      case Some(None) => Err(ValueError("invalid literal for int()"))
      case Some(Some(id)) =>
        var rest :- KeepLines(data[1..], remove);
        Ok((if id in remove then [] else [data[0]]) + rest)
  }

  /** The reference definition: the surviving lines, verbatim and in order. */
  function Retained(data: seq<string>, remove: set<int>): (r: seq<string>)
    ensures |r| <= |data|
    ensures forall k :: 0 <= k < |r| ==> r[k] in data && Survives(r[k], remove)
    ensures forall k :: 0 <= k < |data| && Survives(data[k], remove) ==> data[k] in r
    decreases |data|
  {
    if |data| == 0 then []
    else
      var rest := Retained(data[1..], remove);
      FilterCons(data, rest, line => Survives(line, remove));
      if Survives(data[0], remove) then [data[0]] + rest else rest
  }

  /** One step of the loop. */
  lemma KeepLinesCons(data: seq<string>, remove: set<int>)
    requires |data| > 0
    ensures KeepLines(data, remove).Ok? <==>
      (LineId(data[0]).Some? ==> LineId(data[0]).value.Some?) && KeepLines(data[1..], remove).Ok?
    ensures KeepLines(data, remove).Ok? ==>
      KeepLines(data, remove).value ==
        (if Survives(data[0], remove) then [data[0]] else []) + KeepLines(data[1..], remove).value
  {
  }

  lemma IdsParseCons(data: seq<string>)
    requires |data| > 0
    ensures IdsParse(data) <==>
      (LineId(data[0]).Some? ==> LineId(data[0]).value.Some?) && IdsParse(data[1..])
  {
    assert forall k :: 0 < k < |data| ==> data[k] == data[1..][k - 1];
  }

  /** The loop fails exactly when a long line has a non-integer ID, and
      otherwise keeps exactly the surviving lines. */
  lemma {:induction false} KeepLinesSpec(data: seq<string>, remove: set<int>)
    ensures KeepLines(data, remove).Ok? <==> IdsParse(data)
    ensures KeepLines(data, remove).Ok? ==> KeepLines(data, remove).value == Retained(data, remove)
    decreases |data|
  {
    if |data| > 0 {
      KeepLinesCons(data, remove);
      IdsParseCons(data);
      KeepLinesSpec(data[1..], remove);
    }
  }

  /** Filtering the kept lines again keeps them all. */
  lemma {:induction false} RetainedIdempotent(data: seq<string>, remove: set<int>)
    ensures Retained(Retained(data, remove), remove) == Retained(data, remove)
    decreases |data|
  {
    if |data| > 0 {
      RetainedIdempotent(data[1..], remove);
      var rest := Retained(data[1..], remove);
      if Survives(data[0], remove) {
        var r := [data[0]] + rest;
        assert r[0] == data[0] && r[1..] == rest;
      }
    }
  }

  /** Surviving lines all have integer IDs. */
  lemma RetainedParses(data: seq<string>, remove: set<int>)
    ensures IdsParse(Retained(data, remove))
  {
  }

  // ---------------------------------------------------------------------------
  // The file
  // ---------------------------------------------------------------------------

  /** `remove_points_by_id`: the header runs through the first line that
      strips to `end_header` (every line when there is none); the data lines
      follow it. The kept lines are written verbatim after the header, whose
      first `element vertex` line declares their number. */
  function RemovePointsById(lines: seq<string>, idLines: seq<string>): (r: Result<PlyLines>)
    ensures var sec := SplitAtSentinel(lines, IsStrippedEndHeader);
      r.Ok? <==> IdsListed(idLines) && IdsParse(lines[sec.dataStart..])
    ensures r.Ok? ==> RemovalSet(idLines).Ok? && var sec := SplitAtSentinel(lines, IsStrippedEndHeader);
      && r.value.data == Retained(lines[sec.dataStart..], RemovalSet(idLines).value)
      && r.value.header == RewriteFirstVertexLine(sec.header, |r.value.data|)
    ensures r.Ok? ==> DeclaresCount(r.value.header, SplitAtSentinel(lines, IsStrippedEndHeader).header, |r.value.data|)
  {
    var remove :- RemovalSet(idLines);
    var sec := SplitAtSentinel(lines, IsStrippedEndHeader);
    KeepLinesSpec(lines[sec.dataStart..], remove);
    var kept :- KeepLines(lines[sec.dataStart..], remove);
    RewriteDeclaresCount(sec.header, |kept|);
    Ok(PlyLines(RewriteFirstVertexLine(sec.header, |kept|), kept))
  }

  /** Running the script on its own output, with the same ID file, writes the
      same file again. */
  lemma RemovePointsIdempotent(lines: seq<string>, idLines: seq<string>)
    requires RemovePointsById(lines, idLines).Ok?
    requires SplitAtSentinel(lines, IsStrippedEndHeader).dataStart > 0
    ensures var out := RemovePointsById(lines, idLines).value;
      RemovePointsById(out.header + out.data, idLines) == Ok(out)
  {
    var out := RemovePointsById(lines, idLines).value;
    var remove := RemovalSet(idLines).value;
    ResplitRewritten(lines, |out.data|, out.data);
    RetainedParses(lines[SplitAtSentinel(lines, IsStrippedEndHeader).dataStart..], remove);
    KeepLinesSpec(out.data, remove);
    RetainedIdempotent(lines[SplitAtSentinel(lines, IsStrippedEndHeader).dataStart..], remove);
    RewriteFirstVertexLineTwice(SplitAtSentinel(lines, IsStrippedEndHeader).header, |out.data|);
  }
}

=== FILE: delete_row.dfy ===
/** `delete_row.py`: keep only tokens 2 and 3 (the `z` cell and the ID) of
    every data row after voxelization; the header is copied verbatim. */
module DeleteRow {
  import opened Results
  import opened Text
  import opened PlyHeader

  /** `lines.index('end_header\n')` compares whole lines: padding or a
      missing line terminator does not match. */
  predicate IsExactEndHeader(line: string) {
    line == EndHeaderLine
  }

  /** `f"{parts[2]} {parts[3]}\n"` with `parts = line.split()`; a row of
      fewer than four tokens raises IndexError. The written row holds
      exactly tokens 2 and 3 of the input, in that order. */
  function KeepLastTwo(line: string): (r: Result<string>)
    ensures r.Ok? <==> |Split(line)| >= 4
    ensures r.Ok? ==> Split(r.value) == Split(line)[2..4]
  {
    var parts := Split(line);
    if |parts| < 4 then Err(IndexError("list index out of range"))
    else
      assert Join([parts[3]], " ") == parts[3];
      assert Join(parts[2..4], " ") == parts[2] + " " + parts[3];
      SplitJoinedLine(parts[2..4]);
      Ok(Join(parts[2..4], " ") + "\n")
  }

  /** Every row has at least four tokens. */
  predicate LongRows(data: seq<string>) {
    forall k :: 0 <= k < |data| ==> |Split(data[k])| >= 4
  }

  /** `rows` holds tokens 2 and 3 of each line of `data`, one row per line. */
  predicate KeepsLastTwo(rows: seq<string>, data: seq<string>) {
    && |rows| == |data|
    && forall k :: 0 <= k < |data| ==> |Split(data[k])| >= 4 && Split(rows[k]) == Split(data[k])[2..4]
  }

  lemma KeepsLastTwoCons(first: string, rest: seq<string>, line: string, data: seq<string>)
    requires |data| > 0 && line == data[0]
    requires |Split(line)| >= 4 && Split(first) == Split(line)[2..4]
    requires KeepsLastTwo(rest, data[1..])
    ensures KeepsLastTwo([first] + rest, data)
  {
    var rows := [first] + rest;
    assert forall k :: 0 < k < |data| ==> data[k] == data[1..][k - 1] && rows[k] == rest[k - 1];
  }

  lemma LongRowsCons(data: seq<string>)
    requires |data| > 0
    ensures LongRows(data) <==> |Split(data[0])| >= 4 && LongRows(data[1..])
  {
    assert forall k :: 0 < k < |data| ==> data[k] == data[1..][k - 1];
  }

  /** The row loop, stopping at the first short row. */
  function KeepRows(data: seq<string>): (r: Result<seq<string>>)
    ensures r.Ok? <==> LongRows(data)
    ensures r.Ok? ==> KeepsLastTwo(r.value, data)
    decreases |data|
  {
    if |data| == 0 then Ok([])
    else
      LongRowsCons(data);
      var first :- KeepLastTwo(data[0]);
      var rest :- KeepRows(data[1..]);
      KeepsLastTwoCons(first, rest, data[0], data);
      Ok([first] + rest)
  }

  /** `delete_columns`: a file without the exact line `end_header\n` raises
      ValueError; otherwise the header through that line is copied and every
      line after it becomes its tokens 2 and 3, one row per line. */
  function DeleteColumns(lines: seq<string>): (r: Result<PlyLines>)
    ensures r.Ok? <==>
      && (exists i :: 0 <= i < |lines| && IsExactEndHeader(lines[i]))
      && LongRows(lines[SplitAtSentinel(lines, IsExactEndHeader).dataStart..])
    ensures r.Ok? ==> var sec := SplitAtSentinel(lines, IsExactEndHeader);
      && sec.dataStart > 0
      && r.value.header == lines[..sec.dataStart]
      && r.value.header[|r.value.header| - 1] == EndHeaderLine
      && KeepsLastTwo(r.value.data, lines[sec.dataStart..])
  {
    var sec := SplitAtSentinel(lines, IsExactEndHeader);
    SentinelFound(lines, IsExactEndHeader);
    if sec.dataStart == 0 then Err(ValueError("'end_header\\n' is not in list"))
    else
      var header := lines[..sec.dataStart];
      assert header[|header| - 1] == lines[sec.dataStart - 1];
      assert IsExactEndHeader(lines[sec.dataStart - 1]);
      WithRows(header, lines[sec.dataStart..])
  }

  /** The header copied as it is, followed by the rows kept from `data`. */
  function WithRows(header: seq<string>, data: seq<string>): (r: Result<PlyLines>)
    ensures r.Ok? <==> LongRows(data)
    ensures r.Ok? ==> r.value.header == header && KeepsLastTwo(r.value.data, data)
  {
    var rows :- KeepRows(data);
    Ok(PlyLines(header, rows))
  }

  /** The written file keeps its header: it splits back at the same line,
      and the rows after it are the rows written. */
  lemma DeleteColumnsResplits(lines: seq<string>)
    requires DeleteColumns(lines).Ok?
    ensures var out := DeleteColumns(lines).value;
      && SplitAtSentinel(out.header + out.data, IsExactEndHeader) == Sections(out.header, |out.header|)
      && (out.header + out.data)[|out.header|..] == out.data
  {
    var out := DeleteColumns(lines).value;
    SentinelHeaderEnds(lines, IsExactEndHeader);
    SentinelBeforeData(out.header, out.data, IsExactEndHeader);
  }

  /** A written row has two tokens, so running the script on its own output
      fails as soon as there is a row. */
  lemma DeleteColumnsNotRepeatable(lines: seq<string>)
    requires DeleteColumns(lines).Ok?
    requires |DeleteColumns(lines).value.data| > 0
    ensures var out := DeleteColumns(lines).value;
      DeleteColumns(out.header + out.data) == Err(IndexError("list index out of range"))
  {
    var out := DeleteColumns(lines).value;
    DeleteColumnsResplits(lines);
    var d := out.data;
    assert |Split(d[0])| == 2;
    assert KeepRows(d) == Err(IndexError("list index out of range"));
  }
}

=== FILE: denoise.dfy ===
/** The ID bookkeeping of `SORdenoise.py`, `RORdenoise.py` and
    `DBSCANdenoise.py` around open3d's outlier filters. The filters
    themselves are foreign: their results (the inlier indices of statistical
    or radius outlier removal, the cluster labels of DBSCAN) are parameters.
    Points are of any type `P`; their coordinates are never looked at. */
module Denoise {
  import opened Results
  import opened Text
  import opened Sorting
  import DeletePoints

  // ---------------------------------------------------------------------------
  // IDs and numpy indexing
  // ---------------------------------------------------------------------------

  /** `np.arange(1, len(points) + 1)`: the IDs 1..N in read order. */
  function PointIds(n: nat): (ids: seq<int>)
    ensures |ids| == n
    ensures forall i :: 0 <= i < n ==> ids[i] == i + 1
    ensures StrictlyIncreasing(ids)
    ensures forall id :: id in ids <==> 1 <= id <= n
  {
    var ids := seq(n, i requires 0 <= i < n => i + 1);
    forall id | 1 <= id <= n ensures id in ids {
      assert ids[id - 1] == id;
    }
    ids
  }

  /** The element numpy's `a[i]` denotes in an array of length `n`: negative
      indices count from the end; anything outside `-n..n-1` is an
      IndexError. */
  function NumpyIndex(n: nat, i: int): (r: Option<nat>)
    ensures r.Some? <==> -(n as int) <= i < n
    ensures r.Some? ==> r.value < n && (if i >= 0 then r.value == i else r.value == i + n)
  {
    if 0 <= i < n then Some(i)
    else if -(n as int) <= i < 0 then Some(i + n)
    else None
  }

  /** A negative index names the same element as the non-negative one `n`
      places later, and the two ranges never overlap. */
  lemma NumpyIndexWraps(n: nat, i: int)
    requires 0 <= i < n
    ensures NumpyIndex(n, i - n) == NumpyIndex(n, i) == Some(i)
    ensures NumpyIndex(n, i + n) == None
  {
  }

  predicate ValidIndices(n: nat, idx: seq<int>) {
    forall k :: 0 <= k < |idx| ==> -(n as int) <= idx[k] < n
  }

  /** Fancy indexing `xs[idx]`: the elements at `idx`, in the order of
      `idx`, failing if an index is out of range. */
  function Take<T>(xs: seq<T>, idx: seq<int>): (r: Result<seq<T>>)
    ensures r.Ok? <==> ValidIndices(|xs|, idx)
    ensures r.Ok? ==> |r.value| == |idx|
    ensures r.Ok? ==> forall k :: 0 <= k < |idx| ==> r.value[k] == xs[NumpyIndex(|xs|, idx[k]).value]
  {
    if ValidIndices(|xs|, idx) then
      Ok(seq(|idx|, k requires 0 <= k < |idx| => xs[NumpyIndex(|xs|, idx[k]).value]))
    else Err(IndexError("index out of bounds"))
  }

  // ---------------------------------------------------------------------------
  // Outliers as the complement of the inliers (SOR, ROR)
  // ---------------------------------------------------------------------------

  /** `np.setdiff1d(np.arange(m), inliers)`: the indices below `m` that are
      not inliers, ascending and without repetition. */
  function SetDiffRange(m: nat, inliers: seq<int>): (r: seq<int>)
    ensures StrictlyIncreasing(r)
    ensures forall k :: k in r <==> 0 <= k < m && k !in inliers
    decreases m
  {
    if m == 0 then []
    else
      var r := SetDiffRange(m - 1, inliers);
      if m - 1 in inliers then r
      else
        assert forall i :: 0 <= i < |r| ==> r[i] in r;
        r + [m - 1]
  }

  /** What a denoiser returns: the kept points and their IDs, in the order
      of the inlier indices, and the removed IDs. */
  datatype Denoised<P> = Denoised(points: seq<P>, ids: seq<int>, outlierIds: seq<int>)

  /** `ids` and `outlierIds` split the IDs 1..n: every ID is in exactly one. */
  ghost predicate PartitionsIds(ids: seq<int>, outlierIds: seq<int>, n: nat) {
    && (forall id :: id in ids || id in outlierIds <==> 1 <= id <= n)
    && (forall id :: !(id in ids && id in outlierIds))
  }

  /** Every inlier index names a point, without wrapping around. */
  predicate InRange(n: nat, idx: seq<int>) {
    forall k :: 0 <= k < |idx| ==> 0 <= idx[k] < n
  }

  /** `denoise_and_sort` (SOR) and `denoise_and_sort_with_ror` (ROR), given
      the inlier indices the filter returned: the kept points and their IDs
      are the ones at those indices, and the outliers are the IDs of the
      other points, ascending. */
  function DenoiseByIndices<P>(points: seq<P>, inliers: seq<int>): (r: Result<Denoised<P>>)
    ensures r.Ok? <==> ValidIndices(|points|, inliers)
    ensures r.Ok? ==> |r.value.points| == |r.value.ids| == |inliers|
    ensures r.Ok? ==> forall k :: 0 <= k < |inliers| ==>
      var j := NumpyIndex(|points|, inliers[k]).value;
      r.value.points[k] == points[j] && r.value.ids[k] == j + 1
    ensures r.Ok? ==> StrictlyIncreasing(r.value.outlierIds)
    ensures r.Ok? ==> forall id :: id in r.value.outlierIds <==> 1 <= id <= |points| && id - 1 !in inliers
  {
    var n := |points|;
    var ids := PointIds(n);
    if !ValidIndices(n, inliers) then Err(IndexError("index out of bounds"))
    else
      var kept := Take(points, inliers).value;
      var keptIds := Take(ids, inliers).value;
      var outliers := SetDiffRange(n, inliers);
      assert forall k :: 0 <= k < |outliers| ==> outliers[k] in outliers;
      var outlierIds := Take(ids, outliers).value;
      assert forall k :: 0 <= k < |outliers| ==> outlierIds[k] == outliers[k] + 1;
      OutlierIdsMembers(outliers, outlierIds, n, inliers);
      Ok(Denoised(kept, keptIds, outlierIds))
  }

  lemma OutlierIdsMembers(outliers: seq<int>, outlierIds: seq<int>, n: nat, inliers: seq<int>)
    requires |outlierIds| == |outliers|
    requires forall k :: 0 <= k < |outliers| ==> outlierIds[k] == outliers[k] + 1
    requires forall k :: k in outliers <==> 0 <= k < n && k !in inliers
    requires StrictlyIncreasing(outliers)
    ensures StrictlyIncreasing(outlierIds)
    ensures forall id :: id in outlierIds <==> 1 <= id <= n && id - 1 !in inliers
  {
    forall id ensures id in outlierIds <==> 1 <= id <= n && id - 1 !in inliers {
      if id in outlierIds {
        var k :| 0 <= k < |outlierIds| && outlierIds[k] == id;
        assert outliers[k] in outliers;
      }
      if 1 <= id <= n && id - 1 !in inliers {
        var x := id - 1;
        assert x in outliers;
        var k :| 0 <= k < |outliers| && outliers[k] == x;
        assert outlierIds[k] == id;
      }
    }
  }

  /** With inlier indices that name points directly, the kept IDs and the
      removed IDs split 1..N: no point is both kept and removed, and none is
      lost. */
  lemma DenoiseByIndicesPartition<P>(points: seq<P>, inliers: seq<int>)
    requires InRange(|points|, inliers)
    ensures DenoiseByIndices(points, inliers).Ok?
    ensures var d := DenoiseByIndices(points, inliers).value;
      PartitionsIds(d.ids, d.outlierIds, |points|)
  {
    var d := DenoiseByIndices(points, inliers).value;
    assert forall k :: 0 <= k < |inliers| ==> d.ids[k] == inliers[k] + 1;
    KeptIdsMembers(d.ids, inliers, |points|);
    SplitByInliers(d.ids, d.outlierIds, |points|, inliers);
  }

  /** IDs whose index is an inlier and IDs whose index is not split 1..n. */
  lemma SplitByInliers(ids: seq<int>, outlierIds: seq<int>, n: nat, inliers: seq<int>)
    requires forall id :: id in ids <==> 1 <= id <= n && id - 1 in inliers
    requires forall id :: id in outlierIds <==> 1 <= id <= n && id - 1 !in inliers
    ensures PartitionsIds(ids, outlierIds, n)
  {
  }

  /** IDs one past the inlier indices are the IDs whose index is an inlier. */
  lemma KeptIdsMembers(ids: seq<int>, inliers: seq<int>, n: nat)
    requires InRange(n, inliers)
    requires |ids| == |inliers|
    requires forall k :: 0 <= k < |inliers| ==> ids[k] == inliers[k] + 1
    ensures forall id :: id in ids <==> 1 <= id <= n && id - 1 in inliers
  {
    forall id ensures id in ids <==> 1 <= id <= n && id - 1 in inliers {
      if id in ids {
        var k :| 0 <= k < |ids| && ids[k] == id;
        assert inliers[k] == id - 1;
      }
      if 1 <= id <= n && id - 1 in inliers {
        var k :| 0 <= k < |inliers| && inliers[k] == id - 1;
        assert ids[k] == id;
      }
    }
  }

  // ---------------------------------------------------------------------------
  // Outliers as the noise label (DBSCAN)
  // ---------------------------------------------------------------------------

  /** The DBSCAN label of noise. */
  const Noise := -1

  /** `np.where(labels == -1)[0]` (when `noise`) or `np.where(labels != -1)[0]`
      over the first `m` labels: the matching indices, ascending. */
  function WhereBelow(labels: seq<int>, m: nat, noise: bool): (r: seq<int>)
    requires m <= |labels|
    ensures StrictlyIncreasing(r)
    ensures forall k :: 0 <= k < |r| ==> 0 <= r[k] < m
    ensures forall i :: i in r <==> 0 <= i < m && (labels[i] == Noise) == noise
    decreases m
  {
    if m == 0 then []
    else
      var r := WhereBelow(labels, m - 1, noise);
      if (labels[m - 1] == Noise) != noise then r
      else
        assert forall i :: 0 <= i < |r| ==> r[i] in r;
        r + [m - 1]
  }

  function Where(labels: seq<int>, noise: bool): (r: seq<int>)
    ensures StrictlyIncreasing(r)
    ensures forall k :: 0 <= k < |r| ==> 0 <= r[k] < |labels|
    ensures forall i :: i in r <==> 0 <= i < |labels| && (labels[i] == Noise) == noise
  {
    WhereBelow(labels, |labels|, noise)
  }

  /** `denoise_and_sort_with_dbscan`, given the labels `cluster_dbscan`
      returns, one per point: the kept points are those not labelled noise,
      in ascending index order, and the removed IDs are those of the noise
      points, ascending. */
  function DenoiseByLabels<P>(points: seq<P>, labels: seq<int>): (r: Denoised<P>)
    requires |labels| == |points|
    ensures |r.points| == |r.ids| == |Where(labels, false)|
    ensures forall k :: 0 <= k < |r.ids| ==>
      var j := Where(labels, false)[k];
      r.points[k] == points[j] && r.ids[k] == j + 1
    ensures StrictlyIncreasing(r.ids) && StrictlyIncreasing(r.outlierIds)
    ensures forall id :: id in r.ids <==> 1 <= id <= |labels| && labels[id - 1] != Noise
    ensures forall id :: id in r.outlierIds <==> 1 <= id <= |labels| && labels[id - 1] == Noise
  {
    var n := |points|;
    var ids := PointIds(n);
    var inliers := Where(labels, false);
    var outliers := Where(labels, true);
    var kept := Take(points, inliers).value;
    var keptIds := Take(ids, inliers).value;
    var outlierIds := Take(ids, outliers).value;
    ShiftedIds(inliers, keptIds, labels, false);
    ShiftedIds(outliers, outlierIds, labels, true);
    Denoised(kept, keptIds, outlierIds)
  }

  lemma ShiftedIds(idx: seq<int>, out: seq<int>, labels: seq<int>, noise: bool)
    requires idx == Where(labels, noise)
    requires |out| == |idx| && forall k :: 0 <= k < |idx| ==> out[k] == idx[k] + 1
    ensures StrictlyIncreasing(out)
    ensures forall id :: id in out <==> 1 <= id <= |labels| && (labels[id - 1] == Noise) == noise
  {
    forall id ensures id in out <==> 1 <= id <= |labels| && (labels[id - 1] == Noise) == noise {
      if id in out {
        var k :| 0 <= k < |out| && out[k] == id;
        assert idx[k] in idx;
      }
      if 1 <= id <= |labels| && (labels[id - 1] == Noise) == noise {
        var x := id - 1;
        assert x in idx;
        var k :| 0 <= k < |idx| && idx[k] == x;
        assert out[k] == id;
      }
    }
  }

  /** The kept and removed IDs split 1..N. */
  lemma DenoiseByLabelsPartition<P>(points: seq<P>, labels: seq<int>)
    requires |labels| == |points|
    ensures var d := DenoiseByLabels(points, labels);
      PartitionsIds(d.ids, d.outlierIds, |points|)
  {
  }

  /** DBSCAN's noise indices are exactly the complement of its cluster
      indices, so it is the index-based denoiser given the non-noise
      indices. */
  lemma DbscanIsIndexDenoising<P>(points: seq<P>, labels: seq<int>)
    requires |labels| == |points|
    ensures DenoiseByIndices(points, Where(labels, false)) == Ok(DenoiseByLabels(points, labels))
  {
    var n := |points|;
    var inliers := Where(labels, false);
    var a := DenoiseByLabels(points, labels);
    var b := DenoiseByIndices(points, inliers).value;
    assert a.points == b.points;
    assert a.ids == b.ids;
    StrictlyIncreasingUnique(a.outlierIds, b.outlierIds);
  }

  // ---------------------------------------------------------------------------
  // Saving
  // ---------------------------------------------------------------------------

  /** The kept points paired with their IDs. */
  function Records<P>(d: Denoised<P>): (r: seq<(int, P)>)
    requires |d.ids| == |d.points|
    ensures |r| == |d.ids| && forall k :: 0 <= k < |r| ==> r[k] == (d.ids[k], d.points[k])
  {
    seq(|d.ids|, k requires 0 <= k < |d.ids| => (d.ids[k], d.points[k]))
  }

  /** The points of a record sequence, in order. */
  function Points<P>(s: seq<(int, P)>): (r: seq<P>)
    ensures |r| == |s| && forall i :: 0 <= i < |s| ==> r[i] == s[i].1
  {
    seq(|s|, i requires 0 <= i < |s| => s[i].1)
  }

  /** Pairing loses nothing: the records unzip back into the kept IDs and
      points. */
  lemma RecordsUnzip<P>(d: Denoised<P>)
    requires |d.ids| == |d.points|
    ensures Keys(Records(d)) == d.ids
    ensures Points(Records(d)) == d.points
  {
  }

  /** `save_denoised_point_cloud`: the kept points reordered by
      `np.argsort(filtered_ids)`. */
  function SaveSorted<P>(d: Denoised<P>): (r: seq<(int, P)>)
    requires |d.ids| == |d.points|
    ensures SortedByKey(r)
    ensures multiset(r) == multiset(Records(d))
  {
    SortByKeySpec(Records(d));
    SortByKey(Records(d))
  }

  /** DBSCAN keeps its points in index order, so sorting them by ID before
      saving changes nothing. */
  lemma DbscanSavedInOrder<P>(points: seq<P>, labels: seq<int>)
    requires |labels| == |points|
    ensures var d := DenoiseByLabels(points, labels);
      SaveSorted(d) == Records(d)
  {
    var d := DenoiseByLabels(points, labels);
    SortByKeySorted(Records(d));
  }

  /** The removed-IDs file: one `f"{id}\n"` line per removed ID. */
  function RemovedIdLines(ids: seq<int>): (lines: seq<string>)
    ensures |lines| == |ids|
    ensures forall k :: 0 <= k < |ids| ==> ParseInt(Strip(lines[k])) == Some(ids[k])
  {
    var lines := seq(|ids|, k requires 0 <= k < |ids| => IntToString(ids[k]) + "\n");
    assert forall k :: 0 <= k < |ids| ==> ParseInt(Strip(lines[k])) == Some(ids[k]) by {
      forall k | 0 <= k < |ids| ensures ParseInt(Strip(lines[k])) == Some(ids[k]) {
        RenderedLine(ids[k]);
      }
    }
    lines
  }

  /** A rendered integer with its line terminator strips back to the
      rendering. */
  lemma RenderedLine(n: int)
    ensures Strip(IntToString(n) + "\n") == IntToString(n)
    ensures ParseInt(Strip(IntToString(n) + "\n")) == Some(n)
  {
    var s := IntToString(n);
    assert !IsSpace(s[0]) && !IsSpace(s[|s| - 1]);
    StripUnpadded(s);
    StripNewline(s, s);
    ParseRendered(n);
  }

  /** Every line of the removed-IDs file is a non-blank integer literal. */
  lemma RemovedIdLinesListed(ids: seq<int>)
    ensures DeletePoints.IdsListed(RemovedIdLines(ids))
    ensures forall k :: 0 <= k < |ids| ==> !DeletePoints.IsBlank(RemovedIdLines(ids)[k])
  {
    var lines := RemovedIdLines(ids);
    forall k | 0 <= k < |lines| ensures !DeletePoints.IsBlank(lines[k]) {
      RenderedLine(ids[k]);
    }
  }

  /** One ID is read back exactly when it was written. */
  lemma RemovedIdRead(ids: seq<int>, x: int)
    ensures DeletePoints.RemovalSet(RemovedIdLines(ids)).Ok?
    ensures x in DeletePoints.RemovalSet(RemovedIdLines(ids)).value <==> x in ids
  {
    var lines := RemovedIdLines(ids);
    RemovedIdLinesListed(ids);
    DeletePoints.RemovalSetMembers(lines, x);
    if x in ids {
      var k :| 0 <= k < |ids| && ids[k] == x;
      assert DeletePoints.ListsId(lines[k], x);
    }
  }

  /** The removed-IDs file, read back by `3dgsdeletepoint.py`, gives exactly
      the removed IDs. */
  lemma RemovedIdsRoundTrip(ids: seq<int>)
    ensures DeletePoints.RemovalSet(RemovedIdLines(ids)) == Ok(set id | id in ids)
  {
    var lines := RemovedIdLines(ids);
    RemovedIdRead(ids, 0);
    forall x ensures x in DeletePoints.RemovalSet(lines).value <==> x in ids {
      RemovedIdRead(ids, x);
    }
    ReadBackAll(lines, ids);
  }

  /** A successful read whose members are those of `ids` is the set of `ids`. */
  lemma ReadBackAll(lines: seq<string>, ids: seq<int>)
    requires DeletePoints.RemovalSet(lines).Ok?
    requires forall x :: x in DeletePoints.RemovalSet(lines).value <==> x in ids
    ensures DeletePoints.RemovalSet(lines) == Ok(set id | id in ids)
  {
    SameMembers(DeletePoints.RemovalSet(lines).value, ids);
  }

  lemma SameMembers(got: set<int>, ids: seq<int>)
    requires forall x :: x in got <==> x in ids
    ensures got == set id | id in ids
  {
    var want := set id | id in ids;
    forall x ensures x in got <==> x in want {
      assert x in want <==> x in ids;
    }
  }
}

=== FILE: fusion.dfy ===
/** `fusion.py`: the per-group tables written by the split/grid pipeline are
    named column by column, joined on their `ID` column with inner joins from
    left to right, stripped of the `ID` column and written under a fresh
    ASCII header declaring one float property per remaining column. */
module Fusion {
  import opened Results
  import opened Text
  import opened PlyHeader
  import opened Numeric

  /** A row of a named table with its `ID` cell taken out. */
  datatype Keyed = Keyed(id: real, vals: seq<real>)

  /** A named table with its `ID` column taken out: the other column names in
      order, and the rows. */
  datatype Frame = Frame(names: seq<string>, rows: seq<Keyed>)

  /** One input file: its data table, the table's width and the column names
      it is given. */
  datatype Group = Group(table: Table, width: nat, columns: seq<string>)

  predicate WellFormed(g: Group) {
    Rectangular(g.table, g.width)
  }

  // ---------------------------------------------------------------------------
  // Naming the columns
  // ---------------------------------------------------------------------------

  /** The positions of the columns named `ID`. */
  function IdPositions(names: seq<string>): (r: seq<nat>)
    ensures forall k :: 0 <= k < |r| ==> r[k] < |names| && names[r[k]] == "ID"
    ensures forall j :: 0 <= j < |names| && names[j] == "ID" ==> j in r
  {
    if |names| == 0 then []
    else
      var rest := IdPositions(names[..|names| - 1]);
      if names[|names| - 1] == "ID" then rest + [|names| - 1] else rest
  }

  /** `s` with position `k` taken out. */
  function Without<T>(s: seq<T>, k: nat): (r: seq<T>)
    requires k < |s|
    ensures |r| == |s| - 1
    ensures forall j :: 0 <= j < |r| ==> r[j] == if j < k then s[j] else s[j + 1]
  {
    s[..k] + s[k + 1..]
  }

  /** `data.columns = columns`, then the `ID` column taken as the join key.
      A name list of the wrong length is a ValueError; a table without an
      `ID` column cannot be joined (KeyError), nor one with two (ValueError). */
  function Label(g: Group): (r: Result<Frame>)
    requires WellFormed(g)
    ensures r.Ok? <==> |g.columns| == g.width && |IdPositions(g.columns)| == 1
    ensures r.Ok? ==> var k := IdPositions(g.columns)[0];
      && r.value.names == Without(g.columns, k)
      && |r.value.rows| == |g.table|
      && forall i :: 0 <= i < |g.table| ==>
           r.value.rows[i] == Keyed(g.table[i][k], Without(g.table[i], k))
  {
    if |g.columns| != g.width then Err(ValueError("Length mismatch"))
    else
      var ids := IdPositions(g.columns);
      if |ids| == 0 then Err(KeyError("ID"))
      else if |ids| > 1 then Err(ValueError("The column label 'ID' is not unique."))
      else
        var k := ids[0];
        Ok(Frame(Without(g.columns, k),
          seq(|g.table|, i requires 0 <= i < |g.table| => Keyed(g.table[i][k], Without(g.table[i], k)))))
  }

  // ---------------------------------------------------------------------------
  // The inner join
  // ---------------------------------------------------------------------------

  function Ids(rows: seq<Keyed>): set<real> {
    set k | 0 <= k < |rows| :: rows[k].id
  }

  lemma IdsConcat(a: seq<Keyed>, b: seq<Keyed>)
    ensures Ids(a + b) == Ids(a) + Ids(b)
  {
    assert forall k :: 0 <= k < |a| ==> (a + b)[k] == a[k];
    assert forall k :: 0 <= k < |b| ==> (a + b)[|a| + k] == b[k];
    forall x | x in Ids(a + b) ensures x in Ids(a) + Ids(b) {
      var k :| 0 <= k < |a + b| && (a + b)[k].id == x;
      if k >= |a| {
        assert b[k - |a|].id == x;
      }
    }
  }

  lemma IdsCons(rows: seq<Keyed>)
    requires |rows| > 0
    ensures Ids(rows) == {rows[0].id} + Ids(rows[1..])
  {
    IdsConcat([rows[0]], rows[1..]);
    assert [rows[0]] + rows[1..] == rows;
  }

  /** No two rows share an ID. */
  predicate UniqueIds(rows: seq<Keyed>) {
    forall a, b :: 0 <= a < b < |rows| ==> rows[a].id != rows[b].id
  }

  /** The first row with ID `x`. */
  function Lookup(rows: seq<Keyed>, x: real): (r: Keyed)
    requires x in Ids(rows)
    ensures r.id == x
    ensures exists k :: 0 <= k < |rows| && rows[k] == r
    decreases |rows|
  {
    IdsCons(rows);
    if rows[0].id == x then rows[0]
    else
      var r := Lookup(rows[1..], x);
      assert exists k :: 0 <= k < |rows[1..]| && rows[1..][k] == r;
      var k :| 0 <= k < |rows[1..]| && rows[1..][k] == r;
      assert rows[k + 1] == r;
      r
  }

  /** The join of one left row with the right rows sharing its ID, in right
      order. */
  function Matches(l: Keyed, rs: seq<Keyed>): (r: seq<Keyed>)
    ensures forall k :: 0 <= k < |r| ==> r[k].id == l.id
    ensures Ids(r) == if l.id in Ids(rs) then {l.id} else {}
    decreases |rs|
  {
    if |rs| == 0 then []
    else
      var rest := Matches(l, rs[1..]);
      IdsCons(rs);
      if rs[0].id == l.id then
        var head := Keyed(l.id, l.vals + rs[0].vals);
        IdsConcat([head], rest);
        assert Ids([head]) == {l.id} by {
          assert [head][0] == head;
        }
        [head] + rest
      else rest
  }

  /** With unique right IDs a left row matches at most once, with the right
      row carrying its ID. */
  lemma {:induction false} MatchesUnique(l: Keyed, rs: seq<Keyed>)
    requires UniqueIds(rs)
    ensures Matches(l, rs) == if l.id in Ids(rs) then [Keyed(l.id, l.vals + Lookup(rs, l.id).vals)] else []
    decreases |rs|
  {
    if |rs| > 0 {
      IdsCons(rs);
      assert UniqueIds(rs[1..]) by {
        forall a, b | 0 <= a < b < |rs[1..]| ensures rs[1..][a].id != rs[1..][b].id {
          assert rs[1..][a] == rs[a + 1] && rs[1..][b] == rs[b + 1];
        }
      }
      MatchesUnique(l, rs[1..]);
      if rs[0].id == l.id {
        forall k | 0 <= k < |rs[1..]| ensures rs[1..][k].id != l.id {
          assert rs[1..][k] == rs[k + 1];
        }
      }
    }
  }

  /** `pd.merge(left, right, on='ID', how='inner')` on the rows: for each
      left row in order, one row per right row with the same ID. */
  function JoinRows(ls: seq<Keyed>, rs: seq<Keyed>): (r: seq<Keyed>)
    ensures Ids(r) == Ids(ls) * Ids(rs)
    decreases |ls|
  {
    if |ls| == 0 then []
    else
      var m := Matches(ls[0], rs);
      var rest := JoinRows(ls[1..], rs);
      IdsCons(ls);
      IdsConcat(m, rest);
      m + rest
  }

  lemma UniqueTail(rows: seq<Keyed>)
    requires |rows| > 0 && UniqueIds(rows)
    ensures UniqueIds(rows[1..])
    ensures rows[0].id !in Ids(rows[1..])
  {
    forall a, b | 0 <= a < b < |rows[1..]| ensures rows[1..][a].id != rows[1..][b].id {
      assert rows[1..][a] == rows[a + 1] && rows[1..][b] == rows[b + 1];
    }
    forall k | 0 <= k < |rows[1..]| ensures rows[1..][k].id != rows[0].id {
      assert rows[1..][k] == rows[k + 1];
    }
  }

  /** With unique IDs on both sides the join has unique IDs. */
  lemma {:induction false} JoinRowsUnique(ls: seq<Keyed>, rs: seq<Keyed>)
    requires UniqueIds(ls) && UniqueIds(rs)
    ensures UniqueIds(JoinRows(ls, rs))
    decreases |ls|
  {
    if |ls| > 0 {
      UniqueTail(ls);
      JoinRowsUnique(ls[1..], rs);
      MatchesUnique(ls[0], rs);
      var m := Matches(ls[0], rs);
      var rest := JoinRows(ls[1..], rs);
      var r := m + rest;
      forall a, b | 0 <= a < b < |r| ensures r[a].id != r[b].id {
        if a < |m| {
          assert r[b] == rest[b - |m|];
          assert rest[b - |m|].id in Ids(rest);
        } else {
          assert r[a] == rest[a - |m|] && r[b] == rest[b - |m|];
        }
      }
    }
  }

  /** A joined row: its ID is on both sides, and its values are the left
      row's followed by the right row's. */
  predicate JoinedRow(row: Keyed, ls: seq<Keyed>, rs: seq<Keyed>) {
    row.id in Ids(ls) && row.id in Ids(rs)
    && row.vals == Lookup(ls, row.id).vals + Lookup(rs, row.id).vals
  }

  /** With unique IDs on both sides, the joined row with ID `x` is the left
      row with ID `x` extended by the right one. */
  lemma {:induction false} JoinRowsContent(ls: seq<Keyed>, rs: seq<Keyed>)
    requires UniqueIds(ls) && UniqueIds(rs)
    ensures forall k :: 0 <= k < |JoinRows(ls, rs)| ==> JoinedRow(JoinRows(ls, rs)[k], ls, rs)
    decreases |ls|
  {
    if |ls| > 0 {
      UniqueTail(ls);
      JoinRowsContent(ls[1..], rs);
      MatchesUnique(ls[0], rs);
      IdsCons(ls);
      var m := Matches(ls[0], rs);
      var rest := JoinRows(ls[1..], rs);
      var r := m + rest;
      forall k | 0 <= k < |r| ensures JoinedRow(r[k], ls, rs) {
        if k >= |m| {
          var x := rest[k - |m|].id;
          assert r[k] == rest[k - |m|];
          assert x in Ids(ls[1..]);
          assert x != ls[0].id;
          assert Lookup(ls, x) == Lookup(ls[1..], x);
        } else {
          assert r[k] == m[0];
        }
      }
    }
  }

  function Merge(left: Frame, right: Frame): (r: Frame)
    ensures r.names == left.names + right.names
    ensures Ids(r.rows) == Ids(left.rows) * Ids(right.rows)
  {
    Frame(left.names + right.names, JoinRows(left.rows, right.rows))
  }

  /** `reduce(merge, frames)` from the left. */
  function MergeAll(first: Frame, rest: seq<Frame>): (r: Frame)
    decreases |rest|
  {
    if |rest| == 0 then first
    else MergeAll(Merge(first, rest[0]), rest[1..])
  }

  /** The IDs common to all frames. */
  function CommonIds(first: Frame, rest: seq<Frame>): set<real>
    decreases |rest|
  {
    if |rest| == 0 then Ids(first.rows)
    else CommonIds(first, rest[..|rest| - 1]) * Ids(rest[|rest| - 1].rows)
  }

  /** All column names, in file order. */
  function AllNames(first: Frame, rest: seq<Frame>): seq<string>
    decreases |rest|
  {
    if |rest| == 0 then first.names
    else AllNames(first, rest[..|rest| - 1]) + rest[|rest| - 1].names
  }

  /** The chain of inner joins keeps exactly the IDs present in every file,
      and its columns are every file's non-ID columns in file order. */
  lemma {:induction false} MergeAllSpec(first: Frame, rest: seq<Frame>)
    ensures Ids(MergeAll(first, rest).rows) == CommonIds(first, rest)
    ensures MergeAll(first, rest).names == AllNames(first, rest)
    decreases |rest|
  {
    if |rest| > 0 {
      MergeAllSpec(Merge(first, rest[0]), rest[1..]);
      MergeAllShift(first, rest);
    }
  }

  /** Moving the first joined file into the accumulator does not change the
      common IDs or the names. */
  lemma {:induction false} MergeAllShift(first: Frame, rest: seq<Frame>)
    requires |rest| > 0
    ensures CommonIds(Merge(first, rest[0]), rest[1..]) == CommonIds(first, rest)
    ensures AllNames(Merge(first, rest[0]), rest[1..]) == AllNames(first, rest)
    decreases |rest|
  {
    if |rest| > 1 {
      var last := rest[|rest| - 1];
      MergeAllShift(first, rest[..|rest| - 1]);
      assert rest[1..][..|rest[1..]| - 1] == rest[..|rest| - 1][1..];
      assert rest[..|rest| - 1][0] == rest[0];
    }
  }

  /** An ID is in the result exactly when it is in every file. */
  lemma {:induction false} CommonIdsSpec(first: Frame, rest: seq<Frame>, x: real)
    ensures x in CommonIds(first, rest) <==>
      x in Ids(first.rows) && forall g :: 0 <= g < |rest| ==> x in Ids(rest[g].rows)
    decreases |rest|
  {
    if |rest| > 0 {
      CommonIdsSpec(first, rest[..|rest| - 1], x);
      assert forall g :: 0 <= g < |rest| - 1 ==> rest[..|rest| - 1][g] == rest[g];
    }
  }

  /** In a table with unique IDs, looking up a row's ID finds that row. */
  lemma LookupUnique(rows: seq<Keyed>, k: nat)
    requires UniqueIds(rows) && k < |rows|
    ensures rows[k].id in Ids(rows) && Lookup(rows, rows[k].id) == rows[k]
  {
    assert rows[k].id in Ids(rows);
    var r := Lookup(rows, rows[k].id);
    var j :| 0 <= j < |rows| && rows[j] == r;
    assert j == k;
  }

  /** Every frame's table has unique IDs. */
  predicate AllUnique(frames: seq<Frame>) {
    forall g :: 0 <= g < |frames| ==> UniqueIds(frames[g].rows)
  }

  /** The values the later frames hold for ID `x`, in file order. */
  function TailVals(rest: seq<Frame>, x: real): seq<real>
    requires forall g :: 0 <= g < |rest| ==> x in Ids(rest[g].rows)
    decreases |rest|
  {
    if |rest| == 0 then []
    else Lookup(rest[0].rows, x).vals + TailVals(rest[1..], x)
  }

  /** A fused row: its ID is in every file, and its values are every file's
      values for that ID, in file order. */
  predicate FusedRow(row: Keyed, first: Frame, rest: seq<Frame>) {
    && row.id in Ids(first.rows)
    && (forall g :: 0 <= g < |rest| ==> row.id in Ids(rest[g].rows))
    && row.vals == Lookup(first.rows, row.id).vals + TailVals(rest, row.id)
  }

  /** One join step moves a file from the remaining list into the
      accumulated frame without changing what a fused row is. */
  lemma FusedRowStep(row: Keyed, first: Frame, rest: seq<Frame>)
    requires |rest| > 0
    requires var m := Merge(first, rest[0]);
      && (forall j :: 0 <= j < |m.rows| ==> JoinedRow(m.rows[j], first.rows, rest[0].rows))
      && FusedRow(row, m, rest[1..])
    ensures FusedRow(row, first, rest)
  {
    var m := Merge(first, rest[0]);
    var x := row.id;
    var r := Lookup(m.rows, x);
    var j :| 0 <= j < |m.rows| && m.rows[j] == r;
    assert JoinedRow(m.rows[j], first.rows, rest[0].rows);
    forall g | 0 <= g < |rest| ensures x in Ids(rest[g].rows) {
      if g > 0 {
        assert rest[g] == rest[1..][g - 1];
      }
    }
  }

  /** When every file has unique IDs, the fused table has unique IDs, and
      its row for each ID is the concatenation of every file's row for that
      ID, in file order. */
  lemma {:induction false} MergeAllContent(first: Frame, rest: seq<Frame>)
    requires UniqueIds(first.rows) && AllUnique(rest)
    ensures UniqueIds(MergeAll(first, rest).rows)
    ensures forall k :: 0 <= k < |MergeAll(first, rest).rows| ==> FusedRow(MergeAll(first, rest).rows[k], first, rest)
    decreases |rest|
  {
    if |rest| == 0 {
      forall k | 0 <= k < |first.rows| ensures FusedRow(first.rows[k], first, rest) {
        LookupUnique(first.rows, k);
      }
    } else {
      var m := Merge(first, rest[0]);
      JoinRowsUnique(first.rows, rest[0].rows);
      JoinRowsContent(first.rows, rest[0].rows);
      assert AllUnique(rest[1..]) by {
        forall g | 0 <= g < |rest[1..]| ensures UniqueIds(rest[1..][g].rows) {
          assert rest[1..][g] == rest[g + 1];
        }
      }
      MergeAllContent(m, rest[1..]);
      var out := MergeAll(first, rest).rows;
      assert out == MergeAll(m, rest[1..]).rows;
      forall k | 0 <= k < |out| ensures FusedRow(out[k], first, rest) {
        FusedRowStep(out[k], first, rest);
      }
    }
  }

  // ---------------------------------------------------------------------------
  // The fused file
  // ---------------------------------------------------------------------------

  /** The written header: `ply`, `format ascii 1.0`, the vertex count, one
      float property per column, `end_header`. */
  function FusedHeader(n: int, names: seq<string>): (r: seq<string>)
    ensures |r| == |names| + 4
    ensures r[..3] == ["ply\n", "format ascii 1.0\n", VertexLine(n)] && r[|r| - 1] == "end_header\n"
    ensures forall k :: 0 <= k < |names| ==> r[3 + k] == "property float " + names[k] + "\n"
  {
    ["ply\n", "format ascii 1.0\n", VertexLine(n)]
      + seq(|names|, k requires 0 <= k < |names| => "property float " + names[k] + "\n")
      + ["end_header\n"]
  }

  /** Every group labelled, or the first labelling error in file order. */
  function LabelAll(gs: seq<Group>): (r: Result<seq<Frame>>)
    requires forall k :: 0 <= k < |gs| ==> WellFormed(gs[k])
    ensures r.Ok? <==> forall k :: 0 <= k < |gs| ==> Label(gs[k]).Ok?
    ensures r.Ok? ==> |r.value| == |gs| && forall k :: 0 <= k < |gs| ==> Ok(r.value[k]) == Label(gs[k])
    ensures r.Err? ==> exists k :: (0 <= k < |gs| && Label(gs[k]) == Err(r.error)
      && forall j :: 0 <= j < k ==> Label(gs[j]).Ok?)
  {
    if |gs| == 0 then Ok([])
    else
      var f :- Label(gs[0]);
      assert forall k :: 1 <= k < |gs| ==> gs[k] == gs[1..][k - 1];
      var rest :- LabelAll(gs[1..]);
      Ok([f] + rest)
  }

  /** `data.columns = columns` succeeds for every file: each name list is as
      long as its table is wide. */
  predicate NamesFit(gs: seq<Group>) {
    forall k :: 0 <= k < |gs| ==> |gs[k].columns| == gs[k].width
  }

  /** The entries of `s` whose column is not named `ID`, in order:
      `drop(columns=['ID'])`, which removes every column of that name. */
  function DropIds<T>(names: seq<string>, s: seq<T>): (r: seq<T>)
    requires |s| == |names|
    ensures |r| == |names| - |IdPositions(names)|
    ensures (forall j :: 0 <= j < |names| ==> names[j] != "ID") ==> r == s
  {
    if |names| == 0 then []
    else
      var n := |names|;
      var rest := DropIds(names[..n - 1], s[..n - 1]);
      assert s[..n - 1] + [s[n - 1]] == s;
      if names[n - 1] == "ID" then rest else rest + [s[n - 1]]
  }

  /** With a single `ID` column, dropping by name is dropping that position. */
  lemma {:induction false} DropOneId<T>(names: seq<string>, s: seq<T>)
    requires |s| == |names| && |IdPositions(names)| == 1
    ensures DropIds(names, s) == Without(s, IdPositions(names)[0])
    decreases |names|
  {
    var n := |names|;
    var pre, spre := names[..n - 1], s[..n - 1];
    if names[n - 1] == "ID" {
      assert IdPositions(pre) == [];
      assert forall j :: 0 <= j < |pre| ==> pre[j] != "ID";
      assert Without(s, n - 1) == spre;
    } else {
      DropOneId(pre, spre);
      WithoutSnoc(s, IdPositions(pre)[0]);
    }
  }

  lemma WithoutSnoc<T>(s: seq<T>, k: nat)
    requires k < |s| - 1
    ensures Without(s, k) == Without(s[..|s| - 1], k) + [s[|s| - 1]]
  {
  }

  /** The key check of the merge chain, in the order pandas makes it: the
      first `merge` looks the key up in its right frame before its left one,
      and each later `merge` only needs the next file's key, because a joined
      frame has one `ID` column. */
  function KeyAll(gs: seq<Group>): (r: Result<seq<Frame>>)
    requires |gs| >= 2 && forall k :: 0 <= k < |gs| ==> WellFormed(gs[k])
    ensures r.Ok? <==> forall k :: 0 <= k < |gs| ==> Label(gs[k]).Ok?
    ensures r.Ok? ==> r == LabelAll(gs)
    ensures r.Err? ==>
      r.error == if Label(gs[1]).Err? then Label(gs[1]).error
                 else if Label(gs[0]).Err? then Label(gs[0]).error
                 else LabelAll(gs).error
  {
    var _ :- Label(gs[1]);
    var _ :- Label(gs[0]);
    LabelAll(gs)
  }

  datatype Fused = Fused(header: seq<string>, rows: seq<seq<real>>)

  /** `drop(columns=['ID'])` on a lone file that was never joined. */
  function FuseSingle(g: Group): (r: Result<Fused>)
    requires WellFormed(g) && |g.columns| == g.width
    ensures r.Ok? <==> |IdPositions(g.columns)| > 0
    ensures r.Ok? ==>
      && r.value.header == FusedHeader(|g.table|, DropIds(g.columns, g.columns))
      && |r.value.rows| == |g.table|
      && forall i :: 0 <= i < |g.table| ==>
           |g.table[i]| == |g.columns| && r.value.rows[i] == DropIds(g.columns, g.table[i])
  {
    if |IdPositions(g.columns)| == 0 then Err(KeyError("['ID'] not found in axis"))
    else
      var rows := seq(|g.table|, i requires 0 <= i < |g.table| => DropIds(g.columns, g.table[i]));
      Ok(Fused(FusedHeader(|rows|, DropIds(g.columns, g.columns)), rows))
  }

  /** The chain of joins over two or more files, then the `ID` drop. */
  function FuseJoined(gs: seq<Group>): (r: Result<Fused>)
    requires |gs| >= 2 && forall k :: 0 <= k < |gs| ==> WellFormed(gs[k])
    ensures r.Ok? <==> forall k :: 0 <= k < |gs| ==> Label(gs[k]).Ok?
    ensures r.Err? ==> r == Err(KeyAll(gs).error)
    ensures r.Ok? ==> var frames := LabelAll(gs).value;
      var m := MergeAll(frames[0], frames[1..]);
      && r.value.header == FusedHeader(|m.rows|, AllNames(frames[0], frames[1..]))
      && |r.value.rows| == |m.rows|
      && forall k :: 0 <= k < |m.rows| ==> r.value.rows[k] == m.rows[k].vals
  {
    var frames :- KeyAll(gs);
    var merged := MergeAll(frames[0], frames[1..]);
    MergeAllSpec(frames[0], frames[1..]);
    var rows := seq(|merged.rows|, k requires 0 <= k < |merged.rows| => merged.rows[k].vals);
    Ok(Fused(FusedHeader(|rows|, merged.names), rows))
  }

  /** The merge logic of `main`: name every file's columns, join them all on
      `ID` from left to right, drop `ID`, and write the header. Every name
      list is applied before any join, so a length mismatch is raised first.
      No files at all is a TypeError from `reduce`; a single file is never
      joined, and the bare `drop` removes every column named `ID` and fails
      only when there is none. */
  function Fuse(gs: seq<Group>): (r: Result<Fused>)
    requires forall k :: 0 <= k < |gs| ==> WellFormed(gs[k])
    ensures r.Ok? <==>
      && NamesFit(gs) && |gs| > 0
      && if |gs| == 1 then |IdPositions(gs[0].columns)| > 0
         else forall k :: 0 <= k < |gs| ==> |IdPositions(gs[k].columns)| == 1
    ensures !NamesFit(gs) ==> r.Err? && r.error.ValueError?
    ensures NamesFit(gs) && |gs| >= 2 && r.Err? ==> r == Err(KeyAll(gs).error)
    ensures r.Ok? && |gs| == 1 ==> var g := gs[0];
      && |g.columns| == g.width
      && r.value.header == FusedHeader(|g.table|, DropIds(g.columns, g.columns))
      && |r.value.rows| == |g.table|
      && forall i :: 0 <= i < |g.table| ==>
           |g.table[i]| == |g.columns| && r.value.rows[i] == DropIds(g.columns, g.table[i])
    ensures r.Ok? && |gs| >= 2 ==> var frames := LabelAll(gs).value;
      var m := MergeAll(frames[0], frames[1..]);
      && r.value.header == FusedHeader(|m.rows|, AllNames(frames[0], frames[1..]))
      && |r.value.rows| == |m.rows|
      && forall k :: 0 <= k < |m.rows| ==> r.value.rows[k] == m.rows[k].vals
  {
    if !NamesFit(gs) then Err(ValueError("Length mismatch"))
    else if |gs| == 0 then Err(TypeError("reduce() of empty iterable with no initial value"))
    else if |gs| == 1 then FuseSingle(gs[0])
    else FuseJoined(gs)
  }

  /** A single file is labelled and its `ID` column dropped: the same table
      `Label` keys, without the key. */
  lemma FuseOne(g: Group)
    requires WellFormed(g) && Label(g).Ok?
    ensures Fuse([g]).Ok?
    ensures Fuse([g]).value.header == FusedHeader(|g.table|, Label(g).value.names)
    ensures forall i :: 0 <= i < |g.table| ==> Fuse([g]).value.rows[i] == Label(g).value.rows[i].vals
  {
    var gs := [g];
    assert gs[0] == g && NamesFit(gs);
    var r := Fuse(gs);
    assert r.Ok?;
    var l := Label(g).value;
    var k := IdPositions(g.columns)[0];
    DropOneId(g.columns, g.columns);
    forall i | 0 <= i < |g.table| ensures r.value.rows[i] == l.rows[i].vals {
      DropOneId(g.columns, g.table[i]);
    }
  }

  /** The merge chain over frames with unique IDs: unique IDs, exactly the
      IDs of every frame, and fused rows. */
  lemma MergedFrames(frames: seq<Frame>)
    requires |frames| >= 1 && AllUnique(frames)
    ensures var m := MergeAll(frames[0], frames[1..]);
      && UniqueIds(m.rows)
      && (forall x :: x in Ids(m.rows) <==>
            x in Ids(frames[0].rows) && forall g :: 1 <= g < |frames| ==> x in Ids(frames[g].rows))
      && forall k :: 0 <= k < |m.rows| ==> FusedRow(m.rows[k], frames[0], frames[1..])
  {
    var first, rest := frames[0], frames[1..];
    assert AllUnique(rest) by {
      forall g | 0 <= g < |rest| ensures UniqueIds(rest[g].rows) {
        assert rest[g] == frames[g + 1];
      }
    }
    MergeAllSpec(first, rest);
    MergeAllContent(first, rest);
    forall x ensures x in CommonIds(first, rest) <==>
      x in Ids(first.rows) && forall g :: 1 <= g < |frames| ==> x in Ids(frames[g].rows)
    {
      CommonIdsSpec(first, rest, x);
      assert forall g :: 1 <= g < |frames| ==> frames[g] == rest[g - 1];
    }
  }

  /** When every file's IDs are unique, each fused row belongs to an ID that
      is in every file, every such ID has one row, and that row holds every
      file's values for the ID in file order, the `ID` column dropped. */
  lemma FuseContent(gs: seq<Group>)
    requires forall k :: 0 <= k < |gs| ==> WellFormed(gs[k])
    requires |gs| >= 2 && Fuse(gs).Ok?
    requires AllUnique(LabelAll(gs).value)
    ensures var frames := LabelAll(gs).value;
      var m := MergeAll(frames[0], frames[1..]);
      && UniqueIds(m.rows)
      && (forall x :: x in Ids(m.rows) <==>
            x in Ids(frames[0].rows) && forall g :: 1 <= g < |frames| ==> x in Ids(frames[g].rows))
      && forall k :: 0 <= k < |m.rows| ==>
            FusedRow(Keyed(m.rows[k].id, Fuse(gs).value.rows[k]), frames[0], frames[1..])
  {
    var frames := LabelAll(gs).value;
    var m := MergeAll(frames[0], frames[1..]);
    var out := Fuse(gs).value.rows;
    MergedFrames(frames);
    forall k | 0 <= k < |m.rows| ensures Keyed(m.rows[k].id, out[k]) == m.rows[k] {
      assert out[k] == m.rows[k].vals;
    }
  }

  /** A wrong-length name list is reported before a missing `ID` in an earlier
      file, and a lone file with two `ID` columns fuses with both dropped. */
  lemma FuseErrorOrder()
    ensures Fuse([Group([[1.0, 2.0]], 2, ["a", "b"]), Group([[1.0]], 1, ["x", "ID"])]) ==
      Err(ValueError("Length mismatch"))
    ensures Fuse([Group([[1.0, 2.0]], 2, ["ID", "ID"])]) ==
      Ok(Fused(["ply\n", "format ascii 1.0\n", VertexLine(1), "end_header\n"], [[]]))
  {
    var gs := [Group([[1.0, 2.0]], 2, ["a", "b"]), Group([[1.0]], 1, ["x", "ID"])];
    assert !NamesFit(gs) by {
      assert |gs[1].columns| != gs[1].width;
    }
    var g := Group([[1.0, 2.0]], 2, ["ID", "ID"]);
    assert IdPositions(g.columns) == [0, 1] by {
      assert g.columns[..1] == ["ID"];
      assert g.columns[..1][..0] == [];
    }
    assert DropIds(g.columns, g.columns) == [] by {
      assert g.columns[..1] == ["ID"];
    }
    assert DropIds(g.columns, g.table[0]) == [] by {
      assert g.columns[..1] == ["ID"];
      assert g.table[0][..1] == [1.0];
    }
    var r := Fuse([g]);
    assert [g][0] == g && NamesFit([g]);
    assert r.Ok? && |r.value.rows| == 1;
    assert r.value.rows[0] == [];
    assert r.value.rows == [[]];
    assert r.value.header == FusedHeader(1, []);
    assert FusedHeader(1, []) == ["ply\n", "format ascii 1.0\n", VertexLine(1), "end_header\n"];
  }

  /** The column names `main` gives the 21 files. */
  const ColumnsList: seq<seq<string>> := [
    ["x", "y", "z", "ID"], ["f_dc_0", "f_dc_1", "f_dc_2", "ID"], ["f_rest_0", "f_rest_1", "f_rest_2", "ID"],
    ["f_rest_3", "f_rest_4", "f_rest_5", "ID"], ["f_rest_6", "f_rest_7", "f_rest_8", "ID"],
    ["f_rest_9", "f_rest_10", "f_rest_11", "ID"], ["f_rest_12", "f_rest_13", "f_rest_14", "ID"],
    ["f_rest_15", "f_rest_16", "f_rest_17", "ID"], ["f_rest_18", "f_rest_19", "f_rest_20", "ID"],
    ["f_rest_21", "f_rest_22", "f_rest_23", "ID"], ["f_rest_24", "f_rest_25", "f_rest_26", "ID"],
    ["f_rest_27", "f_rest_28", "f_rest_29", "ID"], ["f_rest_30", "f_rest_31", "f_rest_32", "ID"],
    ["f_rest_33", "f_rest_34", "f_rest_35", "ID"], ["f_rest_36", "f_rest_37", "f_rest_38", "ID"],
    ["f_rest_39", "f_rest_40", "f_rest_41", "ID"], ["f_rest_42", "f_rest_43", "f_rest_44", "ID"],
    ["opacity", "ID"], ["scale_0", "scale_1", "scale_2", "ID"], ["rot_0", "rot_1", "rot_2", "ID"],
    ["rot_3", "ID"]]

  /** Each name list of `main` ends with the `ID` column, and no other
      name is `ID`. */
  lemma ColumnsListKeyed()
    ensures |ColumnsList| == 21
    ensures forall g :: 0 <= g < |ColumnsList| ==>
      |ColumnsList[g]| >= 2 && ColumnsList[g][|ColumnsList[g]| - 1] == "ID"
      && forall j :: 0 <= j < |ColumnsList[g]| - 1 ==> |ColumnsList[g][j]| > 0 && ColumnsList[g][j][0] != 'I'
  {
  }
}

=== FILE: grid.dfy ===
/** `voxelization.py` and `devoxelization.py`: the first three columns of a
    table are mapped onto an integer grid of `res` cells per axis, using each
    axis's minimum and maximum over the table, and mapped back with the
    bounds of the original table. The columns between the coordinates and
    the last one are carried through, and the last column (the point ID) is
    truncated to an integer. Arithmetic is over exact reals. */
module Grid {
  import opened Results
  import opened Text
  import opened Numeric

  /** The bounds of one axis. */
  datatype Range = Range(lo: real, hi: real)

  /** `data.iloc[:, :3]` has three columns, or all of them when there are fewer. */
  function Axes(width: nat): nat {
    if width < 3 then width else 3
  }

  /** `xyz.min(axis=0)` and `xyz.max(axis=0)`, one range per coordinate axis. */
  function AxisRanges(t: Table, width: nat): (r: seq<Range>)
    requires |t| > 0 && Rectangular(t, width)
    ensures |r| == Axes(width)
    ensures forall c, i :: 0 <= c < Axes(width) && 0 <= i < |t| ==> r[c].lo <= t[i][c] <= r[c].hi
  {
    seq(Axes(width), c requires 0 <= c < Axes(width) => Range(MinOf(Column(t, c)), MaxOf(Column(t, c))))
  }

  /** Each bound is attained: it is the coordinate of some row. */
  lemma AxisRangesAttained(t: Table, width: nat, c: nat)
    requires |t| > 0 && Rectangular(t, width) && c < Axes(width)
    ensures exists i :: 0 <= i < |t| && t[i][c] == AxisRanges(t, width)[c].lo
    ensures exists i :: 0 <= i < |t| && t[i][c] == AxisRanges(t, width)[c].hi
  {
    var ranges := AxisRanges(t, width);
    var col := Column(t, c);
    var a :| 0 <= a < |col| && col[a] == ranges[c].lo;
    var b :| 0 <= b < |col| && col[b] == ranges[c].hi;
    assert t[a][c] == ranges[c].lo && t[b][c] == ranges[c].hi;
  }

  /** No axis is flat. The source divides by `max - min` without a guard. */
  predicate Spread(ranges: seq<Range>) {
    forall c :: 0 <= c < |ranges| ==> ranges[c].lo < ranges[c].hi
  }

  // ---------------------------------------------------------------------------
  // One coordinate
  // ---------------------------------------------------------------------------

  /** `((v - min) / (max - min) * res).astype(int)`. */
  function Cell(v: real, r: Range, res: int): int
    requires r.lo < r.hi
  {
    Trunc((v - r.lo) / (r.hi - r.lo) * res as real)
  }

  /** `q / res * (max - min) + min`. */
  function Restore(q: real, r: Range, res: int): real
    requires res != 0
  {
    q / res as real * (r.hi - r.lo) + r.lo
  }

  /** A coordinate inside its range lands in a cell from 0 to `res`; the
      minimum lands in cell 0 and the maximum in cell `res`. */
  lemma CellRange(v: real, r: Range, res: nat)
    requires r.lo < r.hi && r.lo <= v <= r.hi
    ensures 0 <= Cell(v, r, res) <= res
    ensures Cell(r.lo, r, res) == 0
    ensures Cell(r.hi, r, res) == res
  {
    CellBounds(v, r, res);
    CellEnds(r, res);
  }

  lemma CellBounds(v: real, r: Range, res: nat)
    requires r.lo < r.hi && r.lo <= v <= r.hi
    ensures 0 <= Cell(v, r, res) <= res
  {
    var d := r.hi - r.lo;
    var x := (v - r.lo) / d;
    UnitFraction(v - r.lo, d);
    ScaleUnit(x, res as real);
    TruncBelow(x * res as real, res);
  }

  /** A value from 0 up to `n` truncates to at most `n`. */
  lemma TruncBelow(y: real, n: nat)
    requires 0.0 <= y <= n as real
    ensures 0 <= Trunc(y) <= n
  {
  }

  lemma CellEnds(r: Range, res: nat)
    requires r.lo < r.hi
    ensures Cell(r.lo, r, res) == 0
    ensures Cell(r.hi, r, res) == res
  {
    var d := r.hi - r.lo;
    assert (r.hi - r.lo) / d == 1.0;
    assert Cell(r.hi, r, res) == Trunc(res as real);
    TruncOfInt(res);
    assert (r.lo - r.lo) / d == 0.0;
  }

  lemma UnitFraction(a: real, d: real)
    requires 0.0 <= a <= d && 0.0 < d
    ensures 0.0 <= a / d <= 1.0
  {
    assert a / d * d == a;
    assert a / d <= 1.0 by {
      assert a * (1.0 / d) <= d * (1.0 / d);
    }
  }

  lemma ScaleUnit(x: real, n: real)
    requires 0.0 <= x <= 1.0 && 0.0 <= n
    ensures 0.0 <= x * n <= n
  {
    assert x * n <= 1.0 * n;
  }

  /** The grid mapping is monotone on every axis. */
  lemma CellMonotone(v1: real, v2: real, r: Range, res: nat)
    requires r.lo < r.hi && v1 <= v2
    ensures Cell(v1, r, res) <= Cell(v2, r, res)
  {
    var d := r.hi - r.lo;
    var x1, x2 := (v1 - r.lo) / d * res as real, (v2 - r.lo) / d * res as real;
    assert (v1 - r.lo) / d <= (v2 - r.lo) / d;
    assert x1 <= x2;
    if 0.0 <= x1 {
      assert x1.Floor <= x2.Floor;
    } else if 0.0 <= x2 {
    } else {
      assert (-x2).Floor <= (-x1).Floor;
    }
  }

  /** Restoring the end cells gives the range's ends back. */
  lemma RestoreEnds(r: Range, res: int)
    requires res != 0
    ensures Restore(0.0, r, res) == r.lo
    ensures Restore(res as real, r, res) == r.hi
  {
  }

  /** Quantizing a coordinate and restoring it lands at most one cell width
      below it, never above. */
  lemma CellRoundTrip(v: real, r: Range, res: nat)
    requires r.lo < r.hi && r.lo <= v <= r.hi && res > 0
    ensures 0.0 <= v - Restore(Cell(v, r, res) as real, r, res) < (r.hi - r.lo) / res as real
  {
    var d := r.hi - r.lo;
    var n := res as real;
    var x := (v - r.lo) / d * n;
    assert 0.0 <= x by {
      assert 0.0 <= (v - r.lo) / d;
    }
    var q := Cell(v, r, res);
    assert q as real <= x < q as real + 1.0;
    assert v - r.lo == x / n * d;
    var back := Restore(q as real, r, res);
    assert back == q as real / n * d + r.lo;
    assert v - back == (x - q as real) / n * d;
    assert 0.0 <= (x - q as real) / n < 1.0 / n;
    assert (x - q as real) / n * d < 1.0 / n * d;
  }

  // ---------------------------------------------------------------------------
  // Tables
  // ---------------------------------------------------------------------------

  /** The columns between the coordinates and the last one:
      `data.iloc[:, 3:-1]`. */
  function Attributes(row: seq<real>): (r: seq<real>)
    ensures |r| == AttributeCount(|row|)
    ensures |row| >= 4 ==> r == row[3..|row| - 1]
  {
    PySlice(row, 3, -1)
  }

  function AttributeCount(width: nat): nat {
    if width >= 4 then width - 4 else 0
  }

  /** The width of a row after either grid step: the coordinates, the
      attributes and the ID, which is `width` itself from four columns on. */
  function GridWidth(width: nat): (w: nat)
    ensures width >= 4 ==> w == width
  {
    Axes(width) + AttributeCount(width) + 1
  }

  function VoxelizeRow(row: seq<real>, ranges: seq<Range>, res: int): (out: seq<real>)
    requires |row| > 0 && |ranges| == Axes(|row|) && Spread(ranges)
    ensures |out| == GridWidth(|row|)
  {
    seq(Axes(|row|), c requires 0 <= c < Axes(|row|) => Cell(row[c], ranges[c], res) as real)
      + Attributes(row) + [Trunc(row[|row| - 1]) as real]
  }

  /** `normalize_and_voxelize(data, res)`. A frame without columns has no
      last column to take IDs from (IndexError); an empty frame has no
      minimum (ValueError). */
  function NormalizeAndVoxelize(t: Table, width: nat, res: int): (r: Result<Table>)
    requires Rectangular(t, width)
    requires |t| > 0 ==> Spread(AxisRanges(t, width))
    ensures r.Ok? <==> width > 0 && |t| > 0
    ensures r.Ok? ==> |r.value| == |t| && Rectangular(r.value, GridWidth(width))
  {
    if width == 0 then Err(IndexError("single positional indexer is out-of-bounds"))
    else if |t| == 0 then Err(ValueError("zero-size array to reduction operation minimum which has no identity"))
    else
      var ranges := AxisRanges(t, width);
      Ok(seq(|t|, i requires 0 <= i < |t| => VoxelizeRow(t[i], ranges, res)))
  }

  /** Every written grid coordinate is an integer from 0 to `res`; the
      attributes and the truncated ID follow. */
  lemma VoxelizedRows(t: Table, width: nat, res: nat)
    requires Rectangular(t, width) && width > 0 && |t| > 0
    requires Spread(AxisRanges(t, width))
    ensures var v := NormalizeAndVoxelize(t, width, res).value;
      forall i :: 0 <= i < |t| ==>
        && (forall c :: 0 <= c < Axes(width) ==>
              0.0 <= v[i][c] <= res as real && v[i][c] == v[i][c].Floor as real)
        && v[i][Axes(width)..GridWidth(width) - 1] == Attributes(t[i])
        && v[i][GridWidth(width) - 1] == Trunc(t[i][width - 1]) as real
  {
    var ranges := AxisRanges(t, width);
    var v := NormalizeAndVoxelize(t, width, res).value;
    forall i | 0 <= i < |t|
      ensures forall c :: 0 <= c < Axes(width) ==>
        0.0 <= v[i][c] <= res as real && v[i][c] == v[i][c].Floor as real
      ensures v[i][Axes(width)..GridWidth(width) - 1] == Attributes(t[i])
    {
      forall c | 0 <= c < Axes(width)
        ensures 0.0 <= v[i][c] <= res as real && v[i][c] == v[i][c].Floor as real
      {
        CellRange(t[i][c], ranges[c], res);
      }
    }
  }

  function DevoxelizeRow(row: seq<real>, ranges: seq<Range>, res: int): (out: seq<real>)
    requires |row| > 0 && |ranges| == Axes(|row|) && res != 0
    ensures |out| == GridWidth(|row|)
  {
    seq(Axes(|row|), c requires 0 <= c < Axes(|row|) => Restore(row[c], ranges[c], res))
      + Attributes(row) + [row[|row| - 1]]
  }

  /** `devoxelize(data, res, original_min, original_max)`, with the ranges of
      the original table. The attributes and the ID column are carried as
      they are. */
  function Devoxelize(t: Table, width: nat, res: int, ranges: seq<Range>): (r: Result<Table>)
    requires Rectangular(t, width)
    requires res != 0 && |ranges| == Axes(width)
    ensures r.Ok? <==> width > 0
    ensures r.Ok? ==> |r.value| == |t| && Rectangular(r.value, GridWidth(width))
    ensures r.Ok? ==> forall i :: 0 <= i < |t| ==>
      r.value[i][Axes(width)..GridWidth(width) - 1] == Attributes(t[i])
      && r.value[i][GridWidth(width) - 1] == t[i][width - 1]
  {
    if width == 0 then Err(IndexError("single positional indexer is out-of-bounds"))
    else Ok(seq(|t|, i requires 0 <= i < |t| => DevoxelizeRow(t[i], ranges, res)))
  }

  /** One row through both grid steps. */
  lemma RowRoundTrip(row: seq<real>, ranges: seq<Range>, res: nat)
    requires |row| >= 4 && |ranges| == 3 && Spread(ranges) && res > 0
    requires forall c :: 0 <= c < 3 ==> ranges[c].lo <= row[c] <= ranges[c].hi
    ensures var back := DevoxelizeRow(VoxelizeRow(row, ranges, res), ranges, res);
      && |back| == |row|
      && (forall c :: 0 <= c < 3 ==>
            0.0 <= row[c] - back[c] < (ranges[c].hi - ranges[c].lo) / res as real)
      && back[3..|row| - 1] == row[3..|row| - 1]
      && back[|row| - 1] == Trunc(row[|row| - 1]) as real
  {
    var v := VoxelizeRow(row, ranges, res);
    var back := DevoxelizeRow(v, ranges, res);
    forall c | 0 <= c < 3
      ensures 0.0 <= row[c] - back[c] < (ranges[c].hi - ranges[c].lo) / res as real
    {
      CellRoundTrip(row[c], ranges[c], res);
      assert back[c] == Restore(v[c], ranges[c], res);
      assert v[c] == Cell(row[c], ranges[c], res) as real;
    }
    assert Attributes(v) == v[3..|row| - 1] == row[3..|row| - 1];
  }

  /** `voxelization.py` followed by `devoxelization.py` on a table of at
      least four columns: every coordinate comes back at most one cell width
      below the original, the attributes come back unchanged and the ID comes
      back truncated. */
  lemma VoxelRoundTrip(t: Table, width: nat, res: nat)
    requires Rectangular(t, width) && width >= 4 && |t| > 0 && res > 0
    requires Spread(AxisRanges(t, width))
    ensures var ranges := AxisRanges(t, width);
      var v := NormalizeAndVoxelize(t, width, res);
      && v.Ok? && Rectangular(v.value, width)
      && var back := Devoxelize(v.value, width, res, ranges);
      && back.Ok? && |back.value| == |t|
      && forall i :: 0 <= i < |t| ==>
           back.value[i] == DevoxelizeRow(VoxelizeRow(t[i], ranges, res), ranges, res)
  {
  }

  /** The round trip, row by row, in terms of the source table. */
  lemma VoxelRoundTripBound(t: Table, width: nat, res: nat, i: nat)
    requires Rectangular(t, width) && width >= 4 && res > 0 && i < |t|
    requires Spread(AxisRanges(t, width))
    ensures var ranges := AxisRanges(t, width);
      var back := Devoxelize(NormalizeAndVoxelize(t, width, res).value, width, res, ranges).value;
      && (forall c :: 0 <= c < 3 ==>
            0.0 <= t[i][c] - back[i][c] < (ranges[c].hi - ranges[c].lo) / res as real)
      && back[i][3..width - 1] == t[i][3..width - 1]
      && back[i][width - 1] == Trunc(t[i][width - 1]) as real
  {
    var ranges := AxisRanges(t, width);
    VoxelRoundTrip(t, width, res);
    RowRoundTrip(t[i], ranges, res);
  }
}

=== FILE: little_endian.dfy ===
/** Fixed-width little-endian byte encodings, as produced and consumed by
    Python's `struct.pack` / `struct.unpack` with the `<B`, `<i` and `<f`
    formats. A float32 is carried as its 32-bit pattern. */
module LittleEndian {

  newtype byte = b: int | 0 <= b < 256

  /** 256 raised to `k`: the number of distinct `k`-byte strings. */
  function Pow256(k: nat): (p: nat)
    ensures p >= 1
  {
    if k == 0 then 1 else 256 * Pow256(k - 1)
  }

  /** A 32-bit pattern (the bits of an IEEE-754 float32, or an unsigned word). */
  type Bits32 = n: nat | n < 0x1_0000_0000

  /** The `k` little-endian bytes of `u`, least significant first. */
  function LeBytes(u: nat, k: nat): (r: seq<byte>)
    requires u < Pow256(k)
    ensures |r| == k
  {
    if k == 0 then [] else [(u % 256) as byte] + LeBytes(u / 256, k - 1)
  }

  /** The unsigned value of a little-endian byte string. */
  function LeValue(b: seq<byte>): (u: nat)
    ensures u < Pow256(|b|)
  {
    if |b| == 0 then 0 else b[0] as nat + 256 * LeValue(b[1..])
  }

  /** Unpacking what was packed gives the value back. */
  lemma {:induction false} LeValueOfBytes(u: nat, k: nat)
    requires u < Pow256(k)
    ensures LeValue(LeBytes(u, k)) == u
  {
    if k > 0 {
      var r := LeBytes(u, k);
      assert r[1..] == LeBytes(u / 256, k - 1);
      LeValueOfBytes(u / 256, k - 1);
    }
  }

  /** Packing what was unpacked gives the bytes back. */
  lemma {:induction false} LeBytesOfValue(b: seq<byte>)
    ensures LeBytes(LeValue(b), |b|) == b
  {
    if |b| > 0 {
      var u := LeValue(b);
      assert u % 256 == b[0] as nat;
      assert u / 256 == LeValue(b[1..]);
      LeBytesOfValue(b[1..]);
    }
  }

  // ---------------------------------------------------------------------------
  // `<B`: one unsigned byte
  // ---------------------------------------------------------------------------

  predicate InUChar(n: int) {
    0 <= n < 256
  }

  // ---------------------------------------------------------------------------
  // `<i`: four-byte two's complement
  // ---------------------------------------------------------------------------

  predicate InInt32(n: int) {
    -0x8000_0000 <= n < 0x8000_0000
  }

  /** The 32-bit two's complement pattern of an int32. */
  function Int32Pattern(n: int): (u: Bits32)
    requires InInt32(n)
    ensures 0 <= n ==> u == n
  {
    if n < 0 then n + 0x1_0000_0000 else n
  }

  /** The signed reading of a 32-bit pattern. */
  function SignedOf(u: Bits32): (n: int)
    ensures InInt32(n)
  {
    if u >= 0x8000_0000 then u - 0x1_0000_0000 else u
  }

  lemma Int32PatternRoundTrip(n: int)
    requires InInt32(n)
    ensures SignedOf(Int32Pattern(n)) == n
  {
  }

  lemma Pow256Four()
    ensures Pow256(4) == 0x1_0000_0000
    ensures Pow256(1) == 256
  {
  }
}

=== FILE: numeric.dfy ===
/** Numeric helpers shared by the grid and dedup steps: truncation toward
    zero (Python's `int(x)` on a float and numpy's `astype(int)`), and the
    minimum and maximum of a column (numpy's `min(axis=0)` and
    `max(axis=0)`), all over exact reals. */
module Numeric {
  import opened Results

  /** Python's `float(token)`: the value, or None where it raises
      ValueError. Which texts are float literals, and the rounding of their
      values, is left to the caller. */
  type FloatParser = string -> Option<real>

  /** A data frame as `pandas.read_csv` builds it from the data lines: one
      row per vertex, every row of the same width. */
  type Table = seq<seq<real>>

  predicate Rectangular(t: Table, width: nat) {
    forall i :: 0 <= i < |t| ==> |t[i]| == width
  }

  /** `int(x)`: the integer part of `x`, rounding toward zero. */
  function Trunc(x: real): (r: int)
    ensures 0.0 <= x ==> 0 <= r && r as real <= x < r as real + 1.0
    ensures x < 0.0 ==> r <= 0 && r as real - 1.0 < x <= r as real
  {
    if x >= 0.0 then x.Floor else -((-x).Floor)
  }

  /** An integral real truncates to itself. */
  lemma TruncOfInt(n: int)
    ensures Trunc(n as real) == n
  {
  }

  function MinOf(s: seq<real>): (m: real)
    requires |s| > 0
    ensures m in s
    ensures forall i :: 0 <= i < |s| ==> m <= s[i]
  {
    if |s| == 1 then s[0]
    else
      var rest := MinOf(s[1..]);
      assert forall i :: 1 <= i < |s| ==> s[i] == s[1..][i - 1];
      if s[0] <= rest then s[0] else rest
  }

  function MaxOf(s: seq<real>): (m: real)
    requires |s| > 0
    ensures m in s
    ensures forall i :: 0 <= i < |s| ==> s[i] <= m
  {
    if |s| == 1 then s[0]
    else
      var rest := MaxOf(s[1..]);
      assert forall i :: 1 <= i < |s| ==> s[i] == s[1..][i - 1];
      if s[0] >= rest then s[0] else rest
  }

  /** Column `c` of a table whose rows all reach it. */
  function Column(t: Table, c: nat): (r: seq<real>)
    requires forall i :: 0 <= i < |t| ==> c < |t[i]|
    ensures |r| == |t|
    ensures forall i :: 0 <= i < |t| ==> r[i] == t[i][c]
  {
    seq(|t|, i requires 0 <= i < |t| => t[i][c])
  }
}

=== FILE: ply_header.dfy ===
/** PLY header lines as the scripts see them: a list of text lines (each with
    its line terminator) ending at an `end_header` sentinel, with
    `element vertex <n>` declaring the row count and `property <type> <name>`
    declaring one column each. */
module PlyHeader {
  import opened Results
  import opened Text

  // ---------------------------------------------------------------------------
  // Line kinds
  // ---------------------------------------------------------------------------

  /** `line.startswith("end_header")`. */
  predicate IsEndHeader(line: string) {
    StartsWith(line, "end_header")
  }

  /** `line.strip() == "end_header"`. */
  predicate IsStrippedEndHeader(line: string) {
    Strip(line) == "end_header"
  }

  /** `line.startswith("element vertex")`. */
  predicate IsVertexLine(line: string) {
    StartsWith(line, "element vertex")
  }

  /** `line.startswith("property")`. */
  predicate IsPropertyLine(line: string) {
    StartsWith(line, "property")
  }

  /** The header line that declares `n` rows: `f"element vertex {n}\n"`. */
  function VertexLine(n: int): (line: string)
    ensures IsVertexLine(line)
  {
    "element vertex " + IntToString(n) + "\n"
  }

  /** The declaration of the 1-based ID column the editors append. */
  const IdPropertyLine := "property int id\n"

  /** The header terminator as the editors write it. */
  const EndHeaderLine := "end_header\n"

  /** An ASCII PLY file as an editor writes it: header lines, then data lines. */
  datatype PlyLines = PlyLines(header: seq<string>, data: seq<string>)

  // ---------------------------------------------------------------------------
  // Finding the sentinel
  // ---------------------------------------------------------------------------

  /** The index of the first line satisfying `p`, if any. */
  function FindFirst(lines: seq<string>, p: string -> bool): (r: Option<nat>)
    ensures r.Some? ==> r.value < |lines| && p(lines[r.value])
    ensures r.Some? ==> forall j :: 0 <= j < r.value ==> !p(lines[j])
    ensures r.None? ==> forall j :: 0 <= j < |lines| ==> !p(lines[j])
  {
    if |lines| == 0 then None
    else if p(lines[0]) then Some(0)
    else match FindFirst(lines[1..], p)
      case None => None
      case Some(i) => Some(i + 1)
  }

  /** The search finds a line exactly when some line satisfies `p`. */
  lemma FindFirstFound(lines: seq<string>, p: string -> bool)
    ensures FindFirst(lines, p).Some? <==> exists i :: 0 <= i < |lines| && p(lines[i])
  {
    var r := FindFirst(lines, p);
    if r.Some? {
      assert p(lines[r.value]);
    }
  }

  /** A file split at its header sentinel. */
  datatype Sections = Sections(header: seq<string>, dataStart: nat)

  /** The idiom `for i, line in enumerate(lines): header.append(line);
      if <sentinel>: data_start = i + 1; break` with `data_start = 0` before
      the loop: the header runs through the first sentinel line (every line
      when there is none), and the data starts just after the sentinel, or at
      line 0 when there is none. */
  function SplitAtSentinel(lines: seq<string>, p: string -> bool): (r: Sections)
    ensures r.dataStart <= |lines|
    ensures r.header <= lines
    ensures r.dataStart > 0 ==> r.header == lines[..r.dataStart] && p(lines[r.dataStart - 1])
    ensures r.dataStart > 0 ==> forall j :: 0 <= j < r.dataStart - 1 ==> !p(lines[j])
    ensures r.dataStart == 0 ==> r.header == lines && forall j :: 0 <= j < |lines| ==> !p(lines[j])
  {
    match FindFirst(lines, p)
    case None => Sections(lines, 0)
    case Some(i) => Sections(lines[..i + 1], i + 1)
  }

  /** The split finds a sentinel exactly when some line is one. */
  lemma SentinelFound(lines: seq<string>, p: string -> bool)
    ensures SplitAtSentinel(lines, p).dataStart > 0 <==> exists i :: 0 <= i < |lines| && p(lines[i])
  {
    var sec := SplitAtSentinel(lines, p);
    if sec.dataStart > 0 {
      assert p(lines[sec.dataStart - 1]);
    }
  }

  /** A header found at a sentinel is the lines before the sentinel, none
      of them a sentinel, followed by the sentinel. */
  lemma SentinelHeaderParts(lines: seq<string>, p: string -> bool)
    requires SplitAtSentinel(lines, p).dataStart > 0
    ensures var sec := SplitAtSentinel(lines, p);
      var before := lines[..sec.dataStart - 1];
      && sec.header == before + [lines[sec.dataStart - 1]]
      && p(lines[sec.dataStart - 1])
      && forall k :: 0 <= k < |before| ==> !p(before[k])
  {
    var sec := SplitAtSentinel(lines, p);
    assert lines[..sec.dataStart] == lines[..sec.dataStart - 1] + [lines[sec.dataStart - 1]];
  }

  /** A list whose only sentinel is its last line is all header. */
  lemma SentinelAtEnd(lines: seq<string>, p: string -> bool)
    requires |lines| > 0 && p(lines[|lines| - 1])
    requires forall j :: 0 <= j < |lines| - 1 ==> !p(lines[j])
    ensures SplitAtSentinel(lines, p) == Sections(lines, |lines|)
  {
    assert lines[..|lines|] == lines;
  }

  /** A header found at a sentinel ends at it, and only there. */
  lemma SentinelHeaderEnds(lines: seq<string>, p: string -> bool)
    requires SplitAtSentinel(lines, p).dataStart > 0
    ensures var h := SplitAtSentinel(lines, p).header;
      && |h| > 0 && p(h[|h| - 1])
      && forall j :: 0 <= j < |h| - 1 ==> !p(h[j])
  {
    var sec := SplitAtSentinel(lines, p);
    assert forall j :: 0 <= j < |sec.header| ==> sec.header[j] == lines[j];
  }

  /** Lines after a header that ends at its only sentinel stay after it. */
  lemma SentinelBeforeData(h: seq<string>, data: seq<string>, p: string -> bool)
    requires |h| > 0 && p(h[|h| - 1])
    requires forall j :: 0 <= j < |h| - 1 ==> !p(h[j])
    ensures SplitAtSentinel(h + data, p) == Sections(h, |h|)
    ensures (h + data)[|h|..] == data
  {
    var all := h + data;
    assert forall j :: 0 <= j < |h| ==> all[j] == h[j];
    FindFirstAt(all, p, |h| - 1);
    assert all[..|h|] == h;
  }

  /** A line that does not start with whitespace strips to a prefix of itself. */
  lemma StripIsPrefix(line: string)
    requires |line| > 0 && !IsSpace(line[0])
    ensures Strip(line) == line[..|Strip(line)|]
  {
    assert LStrip(line) == line;
  }

  /** Property and vertex lines are never the sentinel. */
  lemma KindsDisjoint(line: string)
    ensures IsPropertyLine(line) ==> !IsStrippedEndHeader(line)
    ensures IsVertexLine(line) ==> !IsStrippedEndHeader(line)
  {
    if IsPropertyLine(line) || IsVertexLine(line) {
      assert line[0] == 'p' || (line[0] == 'e' && line[1] == 'l');
      StripIsPrefix(line);
      assert "end_header"[0] == 'e' && "end_header"[1] == 'n';
    }
  }

  /** The first line satisfying `p` is found where it is. */
  lemma FindFirstAt(lines: seq<string>, p: string -> bool, i: nat)
    requires i < |lines| && p(lines[i])
    requires forall j :: 0 <= j < i ==> !p(lines[j])
    ensures FindFirst(lines, p) == Some(i)
    ensures SplitAtSentinel(lines, p) == Sections(lines[..i + 1], i + 1)
  {
    FindFirstIs(lines, p, i);
  }

  lemma {:induction false} FindFirstIs(lines: seq<string>, p: string -> bool, i: nat)
    requires i < |lines| && p(lines[i])
    requires forall j :: 0 <= j < i ==> !p(lines[j])
    ensures FindFirst(lines, p) == Some(i)
    decreases i
  {
    if i > 0 {
      var rest := lines[1..];
      assert !p(lines[0]);
      assert rest[i - 1] == lines[i];
      forall j | 0 <= j < i - 1 ensures !p(rest[j]) {
        assert rest[j] == lines[j + 1];
      }
      FindFirstIs(rest, p, i - 1);
    }
  }

  // ---------------------------------------------------------------------------
  // Rewriting the row count
  // ---------------------------------------------------------------------------

  /** Every `element vertex` line replaced by the declaration of `n` rows. */
  function RewriteVertexLines(header: seq<string>, n: int): (r: seq<string>)
    ensures |r| == |header|
    ensures forall i :: 0 <= i < |header| ==>
              r[i] == if IsVertexLine(header[i]) then VertexLine(n) else header[i]
  {
    seq(|header|, i requires 0 <= i < |header| =>
      if IsVertexLine(header[i]) then VertexLine(n) else header[i])
  }

  /** Only the first `element vertex` line replaced (the loop that `break`s
      after its first rewrite). */
  function RewriteFirstVertexLine(header: seq<string>, n: int): (r: seq<string>)
    ensures |r| == |header|
  {
    match FindFirst(header, IsVertexLine)
    case None => header
    case Some(i) => header[i := VertexLine(n)]
  }

  /** A written vertex line reads back as `element vertex <n>`. */
  lemma VertexLineDeclares(n: int)
    ensures Split(VertexLine(n)) == ["element", "vertex", IntToString(n)]
    ensures ParseInt(LastToken(VertexLine(n))) == Some(n)
  {
    VertexLineSplits(n);
    ParseRendered(n);
  }

  lemma VertexLineSplits(n: int)
    ensures Split(VertexLine(n)) == ["element", "vertex", IntToString(n)]
  {
    var s := IntToString(n);
    RenderedIsToken(n);
    assert Join([s], " ") == s;
    assert Join(["vertex", s], " ") == "vertex " + s;
    assert VertexLine(n) == Join(["element", "vertex", s], " ") + "\n";
    SplitJoinedLine(["element", "vertex", s]);
  }

  /** `r` is `header` with its first vertex line, which stays the first,
      declaring `n` rows, and every other line unchanged. */
  predicate DeclaresCount(r: seq<string>, header: seq<string>, n: int) {
    var f := FindFirst(header, IsVertexLine);
    && |r| == |header|
    && FindFirst(r, IsVertexLine) == f
    && (f.Some? ==> ParseInt(LastToken(r[f.value])) == Some(n))
    && forall i :: 0 <= i < |r| && (f.None? || i != f.value) ==> r[i] == header[i]
  }

  /** The rewrite declares the new count and changes nothing else. */
  lemma RewriteDeclaresCount(header: seq<string>, n: int)
    ensures DeclaresCount(RewriteFirstVertexLine(header, n), header, n)
  {
    match FindFirst(header, IsVertexLine)
    case None =>
    case Some(i) =>
      FindFirstAt(header[i := VertexLine(n)], IsVertexLine, i);
      VertexLineDeclares(n);
  }

  /** Rewriting the first vertex line moves no `end_header` sentinel. */
  lemma RewriteKeepsSentinels(header: seq<string>, n: int)
    ensures var r := RewriteFirstVertexLine(header, n);
      forall i :: 0 <= i < |header| ==> (IsStrippedEndHeader(r[i]) <==> IsStrippedEndHeader(header[i]))
  {
    match FindFirst(header, IsVertexLine)
    case None =>
    case Some(k) =>
      KindsDisjoint(header[k]);
      KindsDisjoint(VertexLine(n));
  }

  /** A header whose only sentinel is its last line. */
  predicate EndsAtSentinel(h: seq<string>) {
    && |h| > 0
    && IsStrippedEndHeader(h[|h| - 1])
    && forall j :: 0 <= j < |h| - 1 ==> !IsStrippedEndHeader(h[j])
  }

  /** The header of a file with a sentinel ends at it. */
  lemma SectionEndsAtSentinel(lines: seq<string>)
    requires SplitAtSentinel(lines, IsStrippedEndHeader).dataStart > 0
    ensures EndsAtSentinel(SplitAtSentinel(lines, IsStrippedEndHeader).header)
  {
    SentinelLast(lines, IsStrippedEndHeader);
  }

  /** A header found at a sentinel ends at it, and no earlier line is one. */
  lemma SentinelLast(lines: seq<string>, p: string -> bool)
    requires SplitAtSentinel(lines, p).dataStart > 0
    ensures var h := SplitAtSentinel(lines, p).header;
      && |h| > 0 && p(h[|h| - 1])
      && forall j :: 0 <= j < |h| - 1 ==> !p(h[j])
  {
    var sec := SplitAtSentinel(lines, p);
    var h := sec.header;
    assert h == lines[..sec.dataStart];
    forall j | 0 <= j < |h| - 1 ensures !p(h[j]) {
      assert h[j] == lines[j];
    }
  }

  /** Rewriting the vertex count keeps a header ending at its sentinel. */
  lemma RewrittenSentinel(h: seq<string>, n: int)
    requires EndsAtSentinel(h)
    ensures EndsAtSentinel(RewriteFirstVertexLine(h, n))
  {
    RewriteKeepsSentinels(h, n);
  }

  /** A header whose only sentinel is its last line, followed by data lines,
      splits back into that header and those lines. */
  lemma ResplitAtEnd(h: seq<string>, data: seq<string>)
    requires EndsAtSentinel(h)
    ensures SplitAtSentinel(h + data, IsStrippedEndHeader) == Sections(h, |h|)
    ensures (h + data)[|h|..] == data
  {
    SentinelBeforeData(h, data, IsStrippedEndHeader);
  }

  /** A file written as a rewritten header followed by data lines splits
      back at the same sentinel: its header is the rewritten header. */
  lemma ResplitRewritten(lines: seq<string>, n: int, data: seq<string>)
    requires SplitAtSentinel(lines, IsStrippedEndHeader).dataStart > 0
    ensures var h := RewriteFirstVertexLine(SplitAtSentinel(lines, IsStrippedEndHeader).header, n);
      && SplitAtSentinel(h + data, IsStrippedEndHeader) == Sections(h, |h|)
      && (h + data)[|h|..] == data
  {
    var hd := SplitAtSentinel(lines, IsStrippedEndHeader).header;
    SectionEndsAtSentinel(lines);
    RewrittenSentinel(hd, n);
    ResplitAtEnd(RewriteFirstVertexLine(hd, n), data);
  }

  /** The first rewrite touches exactly one line, the first vertex line. */
  lemma RewriteFirstVertexLineSpec(header: seq<string>, n: int)
    ensures var r := RewriteFirstVertexLine(header, n);
      forall i :: 0 <= i < |header| ==>
        r[i] == if IsVertexLine(header[i]) && (forall j :: 0 <= j < i ==> !IsVertexLine(header[j]))
                then VertexLine(n) else header[i]
  {
    var r := RewriteFirstVertexLine(header, n);
    match FindFirst(header, IsVertexLine)
    case None =>
    case Some(k) =>
      forall i | 0 <= i < |header|
        ensures r[i] == if IsVertexLine(header[i]) && (forall j :: 0 <= j < i ==> !IsVertexLine(header[j]))
                        then VertexLine(n) else header[i]
      {
        if i > k {
          assert IsVertexLine(header[k]);
        }
      }
  }

  /** Every `element vertex` line ends in an integer literal. */
  predicate VertexCountsParse(lines: seq<string>) {
    forall i :: 0 <= i < |lines| && IsVertexLine(lines[i]) ==> ParseInt(LastToken(lines[i])).Some?
  }

  lemma ParseCons(lines: seq<string>)
    requires |lines| > 0
    ensures VertexCountsParse(lines) <==>
      (IsVertexLine(lines[0]) ==> ParseInt(LastToken(lines[0])).Some?) && VertexCountsParse(lines[1..])
  {
    var rest := lines[1..];
    assert forall i :: 0 < i < |lines| ==> lines[i] == rest[i - 1];
  }

  /** The last token of `line.strip()` is the last token of `line`. */
  lemma LastTokenStrip(line: string)
    ensures LastToken(Strip(line)) == LastToken(line)
  {
    SplitStrip(line);
  }

  /** Rewriting the first vertex line twice with the same count is rewriting
      it once. */
  lemma RewriteFirstVertexLineTwice(header: seq<string>, n: int)
    ensures RewriteFirstVertexLine(RewriteFirstVertexLine(header, n), n) == RewriteFirstVertexLine(header, n)
  {
    match FindFirst(header, IsVertexLine)
    case None =>
    case Some(i) =>
      var h := header[i := VertexLine(n)];
      FindFirstAt(h, IsVertexLine, i);
      assert h[i := VertexLine(n)] == h;
  }

  // ---------------------------------------------------------------------------
  // The typed schema of a header
  // ---------------------------------------------------------------------------

  /** The declared row count and the property types, in declaration order. */
  datatype Schema = Schema(count: int, types: seq<string>)

  /** The last whitespace token of a line, or "" for a blank line. */
  function LastToken(line: string): string {
    var t := Split(line);
    if |t| == 0 then "" else t[|t| - 1]
  }

  /** A header line the schema scan accepts: a vertex line whose last token is
      an integer literal, a property line with at least two tokens, or any
      other line. */
  predicate ScannableLine(line: string) {
    && (IsVertexLine(line) ==> ParseInt(LastToken(line)).Some?)
    && (IsPropertyLine(line) ==> |Split(line)| >= 2)
  }

  /** What one header line does to the running schema: `element vertex`
      overwrites the count with `int(line.split()[-1])`; `property` appends
      `line.split()[1]`. (No line starts with both prefixes.) */
  function ScanLine(acc: Schema, line: string): (r: Result<Schema>)
    ensures r.Ok? <==> ScannableLine(line)
  {
    if IsVertexLine(line) then
      VertexNotProperty(line);
      match ParseInt(LastToken(line))
      case None => Err(ValueError("invalid literal for int(): " + LastToken(line)))
      case Some(n) => Ok(acc.(count := n))
    else if IsPropertyLine(line) then
      var t := Split(line);
      if |t| < 2 then Err(IndexError("list index out of range"))
      else Ok(acc.(types := acc.types + [t[1]]))
    else Ok(acc)
  }

  function ScanFrom(acc: Schema, lines: seq<string>): Result<Schema>
    decreases |lines|
  {
    if |lines| == 0 then Ok(acc)
    else
      var a :- ScanLine(acc, lines[0]);
      ScanFrom(a, lines[1..])
  }

  /** The schema scan shared by both converters: one pass over the header,
      in order, failing at the first malformed declaration. */
  function ScanSchema(header: seq<string>): Result<Schema> {
    ScanFrom(Schema(0, []), header)
  }

  // Reference definitions of what the scan computes.

  predicate Scannable(header: seq<string>) {
    forall i :: 0 <= i < |header| ==> ScannableLine(header[i])
  }

  predicate HasVertexLine(header: seq<string>) {
    exists i :: 0 <= i < |header| && IsVertexLine(header[i])
  }

  /** The count of the last `element vertex` line, or 0 when there is none
      (also 0 when that count does not parse, which a scan of the header
      rejects anyway). */
  function DeclaredCount(header: seq<string>): int
    decreases |header|
  {
    if |header| == 0 then 0
    else if HasVertexLine(header[1..]) then DeclaredCount(header[1..])
    else if IsVertexLine(header[0]) then
      match ParseInt(LastToken(header[0]))
      case Some(n) => n
      case None => 0
    else 0
  }

  /** The second token of every property line, in header order. */
  function PropertyTypes(header: seq<string>): seq<string>
    requires Scannable(header)
    decreases |header|
  {
    if |header| == 0 then []
    else (if IsPropertyLine(header[0]) then [Split(header[0])[1]] else []) + PropertyTypes(header[1..])
  }

  lemma ScanLineValue(acc: Schema, l: string)
    requires ScannableLine(l)
    ensures ScanLine(acc, l) == Ok(Schema(
      if IsVertexLine(l) then ParseInt(LastToken(l)).value else acc.count,
      acc.types + (if IsPropertyLine(l) then [Split(l)[1]] else [])))
  {
    VertexNotProperty(l);
    assert acc.types + [] == acc.types;
  }

  /** No line starts with both `element vertex` and `property`. */
  lemma VertexNotProperty(line: string)
    ensures IsVertexLine(line) ==> !IsPropertyLine(line)
  {
    if IsVertexLine(line) {
      assert line[0] == "element vertex"[0];
    }
  }

  lemma ConsFacts(lines: seq<string>)
    requires |lines| > 0
    ensures Scannable(lines) <==> ScannableLine(lines[0]) && Scannable(lines[1..])
    ensures HasVertexLine(lines) <==> IsVertexLine(lines[0]) || HasVertexLine(lines[1..])
  {
    var rest := lines[1..];
    assert forall i :: 0 < i < |lines| ==> lines[i] == rest[i - 1];
    if HasVertexLine(rest) {
      var i :| 0 <= i < |rest| && IsVertexLine(rest[i]);
      assert IsVertexLine(lines[i + 1]);
    }
  }

  lemma {:induction false} ScanFromOk(acc: Schema, lines: seq<string>)
    ensures ScanFrom(acc, lines).Ok? <==> Scannable(lines)
    decreases |lines|
  {
    if |lines| > 0 {
      ConsFacts(lines);
      if ScannableLine(lines[0]) {
        ScanLineValue(acc, lines[0]);
        ScanFromOk(ScanLine(acc, lines[0]).value, lines[1..]);
      }
    }
  }

  lemma {:induction false} ScanFromSpec(acc: Schema, lines: seq<string>)
    requires Scannable(lines)
    ensures ScanFrom(acc, lines).Ok?
    ensures ScanFrom(acc, lines).value.count ==
      (if HasVertexLine(lines) then DeclaredCount(lines) else acc.count)
    ensures ScanFrom(acc, lines).value.types == acc.types + PropertyTypes(lines)
    decreases |lines|
  {
    ScanFromOk(acc, lines);
    if |lines| > 0 {
      var a := ScanStep(acc, lines);
      ScanFromSpec(a, lines[1..]);
    }
  }

  /** One step of the scan: the schema after the first line, and how the
      reference definitions on the whole header relate to those on the rest. */
  lemma ScanStep(acc: Schema, lines: seq<string>) returns (a: Schema)
    requires |lines| > 0 && Scannable(lines)
    ensures Scannable(lines[1..])
    ensures ScanFrom(acc, lines) == ScanFrom(a, lines[1..])
    ensures (if HasVertexLine(lines) then DeclaredCount(lines) else acc.count) ==
      (if HasVertexLine(lines[1..]) then DeclaredCount(lines[1..]) else a.count)
    ensures acc.types + PropertyTypes(lines) == a.types + PropertyTypes(lines[1..])
  {
    ConsFacts(lines);
    ScanLineValue(acc, lines[0]);
    a := ScanLine(acc, lines[0]).value;
    StepCount(acc, lines, a);
    StepTypes(acc, lines, a);
  }

  lemma StepCount(acc: Schema, lines: seq<string>, a: Schema)
    requires |lines| > 0 && ScannableLine(lines[0])
    requires HasVertexLine(lines) <==> IsVertexLine(lines[0]) || HasVertexLine(lines[1..])
    requires a.count == if IsVertexLine(lines[0]) then ParseInt(LastToken(lines[0])).value else acc.count
    ensures (if HasVertexLine(lines) then DeclaredCount(lines) else acc.count) ==
      (if HasVertexLine(lines[1..]) then DeclaredCount(lines[1..]) else a.count)
  {
  }

  lemma StepTypes(acc: Schema, lines: seq<string>, a: Schema)
    requires |lines| > 0 && Scannable(lines) && Scannable(lines[1..])
    requires a.types == acc.types + (if IsPropertyLine(lines[0]) then [Split(lines[0])[1]] else [])
    ensures acc.types + PropertyTypes(lines) == a.types + PropertyTypes(lines[1..])
  {
    var x := if IsPropertyLine(lines[0]) then [Split(lines[0])[1]] else [];
    var t := PropertyTypes(lines[1..]);
    assert PropertyTypes(lines) == x + t;
    Associative(acc.types, x, t);
  }

  /** The scan succeeds exactly on scannable headers, and then yields the last
      declared row count (0 if none) and the property types in order. */
  lemma ScanSchemaSpec(header: seq<string>)
    ensures ScanSchema(header).Ok? <==> Scannable(header)
    ensures Scannable(header) ==>
      ScanSchema(header).value == Schema(DeclaredCount(header), PropertyTypes(header))
  {
    ScanFromOk(Schema(0, []), header);
    if Scannable(header) {
      ScanFromSpec(Schema(0, []), header);
      if !HasVertexLine(header) {
        NoVertexLineCount(header);
      }
    }
  }

  lemma {:induction false} NoVertexLineCount(header: seq<string>)
    requires Scannable(header)
    requires forall j :: 0 <= j < |header| ==> !IsVertexLine(header[j])
    ensures DeclaredCount(header) == 0
    decreases |header|
  {
    if |header| > 0 {
      NoVertexLineCount(header[1..]);
    }
  }

  /** When `element vertex` is declared more than once, the last declaration wins. */
  lemma {:induction false} LastDeclarationWins(header: seq<string>, i: nat)
    requires Scannable(header)
    requires i < |header| && IsVertexLine(header[i])
    requires forall j :: i < j < |header| ==> !IsVertexLine(header[j])
    ensures ScanSchema(header).Ok?
    ensures ScanSchema(header).value.count == ParseInt(LastToken(header[i])).value
  {
    ScanSchemaSpec(header);
    LastDeclarationCount(header, i);
  }

  lemma {:induction false} LastDeclarationCount(header: seq<string>, i: nat)
    requires LastAt(header, IsVertexLine, i)
    requires ParseInt(LastToken(header[i])).Some?
    ensures ParseInt(LastToken(header[i])) == Some(DeclaredCount(header))
    decreases |header|
  {
    if i == 0 {
      DeclaredHere(header);
    } else {
      LastAtTail(header, IsVertexLine, i);
      assert header[1..][i - 1] == header[i];
      LastDeclarationCount(header[1..], i - 1);
      DeclaredLater(header, i);
    }
  }

  /** Line `i` is the last line satisfying `p`. */
  predicate LastAt(lines: seq<string>, p: string -> bool, i: nat) {
    i < |lines| && p(lines[i]) && forall j :: i < j < |lines| ==> !p(lines[j])
  }

  /** The last line satisfying `p` stays the last one in the tail. */
  lemma LastAtTail(lines: seq<string>, p: string -> bool, i: nat)
    requires 0 < i && LastAt(lines, p, i)
    ensures LastAt(lines[1..], p, i - 1)
  {
    NoneAfterInTail(lines, p, i);
  }

  /** With no `element vertex` line after the first, the first declares the count. */
  lemma DeclaredHere(header: seq<string>)
    requires LastAt(header, IsVertexLine, 0)
    requires ParseInt(LastToken(header[0])).Some?
    ensures ParseInt(LastToken(header[0])) == Some(DeclaredCount(header))
  {
    NoneAfterInTail(header, IsVertexLine, 0);
    assert !HasVertexLine(header[1..]);
  }

  /** With an `element vertex` line after the first, the count is the tail's. */
  lemma DeclaredLater(header: seq<string>, i: nat)
    requires 0 < i < |header| && IsVertexLine(header[i])
    ensures header[1..][i - 1] == header[i]
    ensures DeclaredCount(header) == DeclaredCount(header[1..])
  {
    assert header[1..][i - 1] == header[i];
    assert HasVertexLine(header[1..]);
  }

  lemma ScannableTail(header: seq<string>)
    requires |header| > 0 && Scannable(header)
    ensures Scannable(header[1..])
  {
    var rest := header[1..];
    forall j | 0 <= j < |rest| ensures ScannableLine(rest[j]) {
      assert rest[j] == header[j + 1];
    }
  }

  /** No line after `i` satisfies `p`, so in the tail no line after `i - 1`
      does. */
  lemma NoneAfterInTail(lines: seq<string>, p: string -> bool, i: nat)
    requires i < |lines|
    requires forall j :: i < j < |lines| ==> !p(lines[j])
    ensures forall j :: i - 1 < j < |lines| - 1 ==> !p(lines[1..][j])
  {
    var rest := lines[1..];
    forall j | i - 1 < j < |rest| ensures !p(rest[j]) {
      assert rest[j] == lines[j + 1];
    }
  }
}

=== FILE: pseudo_color.dfy ===
/** `pseudo_color_projection.py`: read a point cloud in any ASCII format
    with an optional header, name its columns, and normalize an attribute
    to [0, 1] before it is mapped to colours. Colour maps, plotting and
    statistics output are not modelled. */
module PseudoColor {
  import opened Results
  import opened Text
  import opened Numeric

  // ---------------------------------------------------------------------------
  // Header detection
  // ---------------------------------------------------------------------------

  /** A line starting with one of the header marks (the test is on the raw
      line, before any stripping). */
  predicate IsMarked(line: string) {
    || StartsWith(line, "#") || StartsWith(line, "//") || StartsWith(line, ";")
    || StartsWith(line, "ply") || StartsWith(line, "format") || StartsWith(line, "element")
    || StartsWith(line, "property") || StartsWith(line, "end_header")
  }

  /** `not line.strip()`. */
  predicate IsBlank(line: string) {
    Strip(line) == ""
  }

  /** A line the header loop does not stop at. */
  predicate InHeader(line: string) {
    IsMarked(line) || IsBlank(line)
  }

  /** The length of the longest prefix of `lines` whose lines satisfy `p`. */
  function PrefixWhile(lines: seq<string>, p: string -> bool): (e: nat)
    ensures e <= |lines|
    ensures forall i :: 0 <= i < e ==> p(lines[i])
    ensures e < |lines| ==> !p(lines[e])
    decreases |lines|
  {
    if |lines| == 0 || !p(lines[0]) then 0
    else
      var e := PrefixWhile(lines[1..], p);
      assert forall i :: 1 <= i < e + 1 ==> lines[i] == lines[1..][i - 1];
      e + 1
  }

  /** `header_end`: the length of the longest prefix of marked or blank
      lines. */
  function HeaderEnd(lines: seq<string>): (e: nat)
    ensures e <= |lines|
    ensures forall i :: 0 <= i < e ==> InHeader(lines[i])
    ensures e < |lines| ==> !InHeader(lines[e])
  {
    PrefixWhile(lines, InHeader)
  }

  /** `header_lines`: the marked lines of the header, in order (blank lines
      end the header no sooner but are not kept). */
  function MarkedLines(lines: seq<string>): (r: seq<string>)
    ensures |r| <= |lines|
    ensures forall k :: 0 <= k < |r| ==> IsMarked(r[k])
    decreases |lines|
  {
    if |lines| == 0 then []
    else (if IsMarked(lines[0]) then [lines[0]] else []) + MarkedLines(lines[1..])
  }

  /** The kept header lines are exactly the marked lines of the header. */
  lemma {:induction false} MarkedLinesMembers(lines: seq<string>, line: string)
    ensures line in MarkedLines(lines) <==> line in lines && IsMarked(line)
    decreases |lines|
  {
    if |lines| > 0 {
      MarkedLinesMembers(lines[1..], line);
      assert lines == [lines[0]] + lines[1..];
    }
  }

  // ---------------------------------------------------------------------------
  // Text helpers: ''.join, str.split('\n'), str.split(kw, 1)
  // ---------------------------------------------------------------------------

  /** `''.join(lines)`. */
  function Concat(lines: seq<string>): string
    decreases |lines|
  {
    if |lines| == 0 then "" else lines[0] + Concat(lines[1..])
  }

  /** The first position of `c` in `s`. */
  function FindChar(s: string, c: char): (r: Option<nat>)
    ensures r.None? <==> c !in s
    ensures r.Some? ==> r.value < |s| && s[r.value] == c && c !in s[..r.value]
    decreases |s|
  {
    if |s| == 0 then None
    else if s[0] == c then Some(0)
    else match FindChar(s[1..], c)
      case None => None
      case Some(i) =>
        assert s[..i + 1] == [s[0]] + s[1..][..i];
        Some(i + 1)
  }

  /** `s.split(c)` for a one-character separator: the pieces between the
      separators, never an empty list. */
  function SplitOn(s: string, c: char): (r: seq<string>)
    ensures |r| > 0
    ensures forall k :: 0 <= k < |r| ==> c !in r[k]
    decreases |s|
  {
    match FindChar(s, c)
    case None => [s]
    case Some(i) =>
      var rest := SplitOn(s[i + 1..], c);
      assert forall k :: 1 <= k < |rest| + 1 ==> ([s[..i]] + rest)[k] == rest[k - 1];
      [s[..i]] + rest
  }

  /** `sep.join(pieces)` for a one-character separator. */
  function JoinOn(pieces: seq<string>, c: char): string
    requires |pieces| > 0
    decreases |pieces|
  {
    if |pieces| == 1 then pieces[0] else pieces[0] + [c] + JoinOn(pieces[1..], c)
  }

  /** Splitting and joining again on the same character gives back the
      text. */
  lemma {:induction false} SplitOnJoin(s: string, c: char)
    ensures JoinOn(SplitOn(s, c), c) == s
    decreases |s|
  {
    match FindChar(s, c)
    case None =>
    case Some(i) =>
      SplitOnJoin(s[i + 1..], c);
      var r := SplitOn(s, c);
      assert r == [s[..i]] + SplitOn(s[i + 1..], c);
      assert r[1..] == SplitOn(s[i + 1..], c);
      assert s == s[..i] + [c] + s[i + 1..];
  }

  /** The position of the first occurrence of `p` in `s`. */
  function IndexOf(s: string, p: string): (r: Option<nat>)
    ensures r.Some? <==> Contains(s, p)
    ensures r.Some? ==> r.value + |p| <= |s| && s[r.value..r.value + |p|] == p
    decreases |s|
  {
    if StartsWith(s, p) then Some(0)
    else if |s| == 0 then None
    else match IndexOf(s[1..], p)
      case None => None
      case Some(i) =>
        assert s[i + 1..i + 1 + |p|] == s[1..][i..i + |p|];
        Some(i + 1)
  }

  /** `s.split(p, 1)[1]`: the text after the first occurrence of `p`. */
  function After(s: string, p: string): (r: string)
    requires Contains(s, p)
    ensures var i := IndexOf(s, p).value; s == s[..i] + p + r
  {
    var i := IndexOf(s, p).value;
    assert s == s[..i] + s[i..i + |p|] + s[i + |p|..];
    s[i + |p|..]
  }

  // ---------------------------------------------------------------------------
  // Field names: the PLY branch
  // ---------------------------------------------------------------------------

  /** A PLY property piece with a name: `property <type> <name>` after
      stripping. */
  predicate IsNamedProperty(piece: string) {
    StartsWith(Strip(piece), "property") && |Split(Strip(piece))| >= 3
  }

  /** `parts[-1]` of a named property piece. */
  function PropertyName(piece: string): string
    requires IsNamedProperty(piece)
  {
    var t := Split(Strip(piece));
    t[|t| - 1]
  }

  /** The PLY branch: the name of every named property piece, in order. */
  function PropertyNames(pieces: seq<string>): (r: seq<string>)
    ensures |r| <= |pieces|
    decreases |pieces|
  {
    if |pieces| == 0 then []
    else (if IsNamedProperty(pieces[0]) then [PropertyName(pieces[0])] else []) + PropertyNames(pieces[1..])
  }

  /** Piece `p` is a named property called `n`. */
  predicate NamedAs(p: string, n: string) {
    IsNamedProperty(p) && PropertyName(p) == n
  }

  /** The names are those of the named property pieces. */
  lemma {:induction false} PropertyNamesMembers(pieces: seq<string>, n: string)
    ensures n in PropertyNames(pieces) <==> exists k :: 0 <= k < |pieces| && NamedAs(pieces[k], n)
    decreases |pieces|
  {
    if |pieces| > 0 {
      PropertyNamesMembers(pieces[1..], n);
      ExistsCons(pieces, p => NamedAs(p, n));
    }
  }

  /** There is a property name exactly when some piece is a named
      property. */
  lemma {:induction false} PropertyNamesNonEmpty(pieces: seq<string>)
    ensures |PropertyNames(pieces)| > 0 <==> exists k :: 0 <= k < |pieces| && IsNamedProperty(pieces[k])
    decreases |pieces|
  {
    if |pieces| > 0 {
      PropertyNamesNonEmpty(pieces[1..]);
      ExistsCons(pieces, IsNamedProperty);
    }
  }

  // ---------------------------------------------------------------------------
  // Field names: the fallback loop
  // ---------------------------------------------------------------------------

  /** A piece with its comment mark removed: `#`, then `//`, then `;`. */
  function Uncomment(line: string): string {
    if StartsWith(line, "#") then Strip(line[1..])
    else if StartsWith(line, "//") then Strip(line[2..])
    else if StartsWith(line, ";") then Strip(line[1..])
    else line
  }

  /** The keywords that introduce a list of names, in the order tried. */
  const Keywords: seq<string> := ["FIELDS", "COLUMNS", "fields", "columns"]

  /** `line` contains `kw` and at least one token follows its first
      occurrence. */
  predicate Introduces(line: string, kw: string) {
    Contains(line, kw) && |Split(Strip(After(line, kw)))| > 0
  }

  /** The names after the first keyword of `kws` that introduces some. */
  function KeywordFields(line: string, kws: seq<string>): (r: Option<seq<string>>)
    ensures r.Some? ==> |r.value| > 0
    decreases |kws|
  {
    if |kws| == 0 then None
    else if Introduces(line, kws[0]) then Some(Split(Strip(After(line, kws[0]))))
    else KeywordFields(line, kws[1..])
  }

  /** The first keyword that introduces names decides them; with none,
      there are none. */
  lemma KeywordFieldsFirst(line: string, kws: seq<string>, i: nat)
    requires i <= |kws|
    requires forall j :: 0 <= j < i ==> !Introduces(line, kws[j])
    ensures i < |kws| && Introduces(line, kws[i]) ==> KeywordFields(line, kws) == Some(Split(Strip(After(line, kws[i]))))
    ensures i == |kws| ==> KeywordFields(line, kws) == None
  {
    if i < |kws| && Introduces(line, kws[i]) {
      KeywordFieldsAt(line, kws, i);
    } else if i == |kws| {
      KeywordFieldsNone(line, kws);
    }
  }

  lemma {:induction false} KeywordFieldsAt(line: string, kws: seq<string>, i: nat)
    requires i < |kws| && Introduces(line, kws[i])
    requires forall j :: 0 <= j < i ==> !Introduces(line, kws[j])
    ensures KeywordFields(line, kws) == Some(Split(Strip(After(line, kws[i]))))
    decreases i
  {
    if i > 0 {
      var rest := kws[1..];
      NotIntroducedInTail(line, kws, i);
      assert KeywordFields(line, kws) == KeywordFields(line, rest);
      assert rest[i - 1] == kws[i];
      assert Introduces(line, rest[i - 1]);
      KeywordFieldsAt(line, rest, i - 1);
    }
  }

  lemma {:induction false} KeywordFieldsNone(line: string, kws: seq<string>)
    requires forall j :: 0 <= j < |kws| ==> !Introduces(line, kws[j])
    ensures KeywordFields(line, kws) == None
    decreases |kws|
  {
    if |kws| > 0 {
      NotIntroducedInTail(line, kws, |kws|);
      KeywordFieldsNone(line, kws[1..]);
    }
  }

  lemma NotIntroducedInTail(line: string, kws: seq<string>, i: nat)
    requires 0 < i <= |kws|
    requires forall j :: 0 <= j < i ==> !Introduces(line, kws[j])
    ensures !Introduces(line, kws[0])
    ensures forall j :: 0 <= j < i - 1 ==> !Introduces(line, kws[1..][j])
  {
    var rest := kws[1..];
    forall j | 0 <= j < i - 1 ensures !Introduces(line, rest[j]) {
      assert rest[j] == kws[j + 1];
    }
  }

  /** `any(x in s.lower() for x in [a, b])`. */
  predicate HasEither(s: string, a: string, b: string) {
    Contains(Lower(s), a) || Contains(Lower(s), b)
  }

  /** A line of at least three tokens that look like `x`, `y` and `z` (or
      `0`, `1` and `2`). */
  predicate LooksLikeXyz(line: string) {
    var t := Split(line);
    |t| >= 3 && HasEither(t[0], "x", "0") && HasEither(t[1], "y", "1") && HasEither(t[2], "z", "2")
  }

  /** What one piece means to the fallback loop. */
  datatype Piece = KeywordLine(names: seq<string>) | XyzLine(tokens: seq<string>) | OtherLine

  /** The piece, stripped and uncommented: a keyword line with its names, a
      line that looks like `x y z ...` with its tokens, or neither. */
  function Classify(piece: string): (c: Piece)
    ensures c.KeywordLine? <==> KeywordFields(Uncomment(Strip(piece)), Keywords).Some?
    ensures c.KeywordLine? ==> c.names == KeywordFields(Uncomment(Strip(piece)), Keywords).value && |c.names| > 0
    ensures c.XyzLine? <==> KeywordFields(Uncomment(Strip(piece)), Keywords).None? && LooksLikeXyz(Uncomment(Strip(piece)))
    ensures c.XyzLine? ==> c.tokens == Split(Uncomment(Strip(piece))) && |c.tokens| >= 3
  {
    var line := Uncomment(Strip(piece));
    match KeywordFields(line, Keywords)
    case Some(names) => KeywordLine(names)
    case None => if LooksLikeXyz(line) then XyzLine(Split(line)) else OtherLine
  }

  /** The loop from one piece on, with the names found so far: a keyword
      line ends it with its names; a line that looks like `x y z ...` gives
      the names if none were found yet. */
  function FallbackNames(cs: seq<Piece>, found: seq<string>): seq<string>
    decreases |cs|
  {
    if |cs| == 0 then found
    else match cs[0]
      case KeywordLine(names) => names
      case XyzLine(t) => FallbackNames(cs[1..], if |found| == 0 then t else found)
      case OtherLine => FallbackNames(cs[1..], found)
  }

  /** The first keyword line ends the loop with its names, whatever was
      found before it. */
  lemma {:induction false} FallbackKeyword(cs: seq<Piece>, found: seq<string>, i: nat)
    requires i < |cs| && cs[i].KeywordLine?
    requires forall k :: 0 <= k < i ==> !cs[k].KeywordLine?
    ensures FallbackNames(cs, found) == cs[i].names
    decreases i
  {
    if i > 0 {
      assert forall k :: 0 <= k < |cs| - 1 ==> cs[1..][k] == cs[k + 1];
      var next := if cs[0].XyzLine? && |found| == 0 then cs[0].tokens else found;
      FallbackKeyword(cs[1..], next, i - 1);
    }
  }

  /** Without a keyword line, names once found are kept. */
  lemma {:induction false} FallbackKeeps(cs: seq<Piece>, found: seq<string>)
    requires |found| > 0
    requires forall k :: 0 <= k < |cs| ==> !cs[k].KeywordLine?
    ensures FallbackNames(cs, found) == found
    decreases |cs|
  {
    if |cs| > 0 {
      assert forall k :: 0 <= k < |cs| - 1 ==> cs[1..][k] == cs[k + 1];
      FallbackKeeps(cs[1..], found);
    }
  }

  /** Without a keyword line, the first line that looks like `x y z ...`
      gives the names, and without one there are none. */
  lemma {:induction false} FallbackFirstXyz(cs: seq<Piece>, i: nat)
    requires i <= |cs|
    requires forall k :: 0 <= k < |cs| ==> !cs[k].KeywordLine?
    requires forall k :: 0 <= k < i ==> cs[k].OtherLine?
    requires i < |cs| && cs[i].XyzLine? ==> |cs[i].tokens| > 0
    ensures i < |cs| && cs[i].XyzLine? ==> FallbackNames(cs, []) == cs[i].tokens
    ensures i == |cs| ==> FallbackNames(cs, []) == []
    decreases i
  {
    assert forall k :: 0 <= k < |cs| - 1 ==> cs[1..][k] == cs[k + 1];
    if i > 0 {
      FallbackFirstXyz(cs[1..], i - 1);
    } else if i < |cs| && cs[0].XyzLine? {
      FallbackKeeps(cs[1..], cs[0].tokens);
    }
  }

  /** Every piece classified, in order. */
  function Classified(pieces: seq<string>): (cs: seq<Piece>)
    ensures |cs| == |pieces| && forall k :: 0 <= k < |pieces| ==> cs[k] == Classify(pieces[k])
  {
    seq(|pieces|, k requires 0 <= k < |pieces| => Classify(pieces[k]))
  }

  /** The PLY branch is taken: the header mentions `ply` and has a named
      property line. */
  predicate PlyBranch(header: string) {
    Contains(header, "ply") && |PropertyNames(SplitOn(header, '\n'))| > 0
  }

  /** `extract_field_names`: the property names when the PLY branch is
      taken, otherwise the names of the fallback loop over the lines of the
      header. */
  function FieldNames(header: string): seq<string> {
    var pieces := SplitOn(header, '\n');
    if PlyBranch(header) then PropertyNames(pieces) else FallbackNames(Classified(pieces), [])
  }

  /** A header that mentions `ply` and has a piece `property <type> <name>`
      gives the property names, in order. */
  lemma FieldNamesPly(header: string, i: nat)
    requires Contains(header, "ply")
    requires var pieces := SplitOn(header, '\n'); i < |pieces| && IsNamedProperty(pieces[i])
    ensures FieldNames(header) == PropertyNames(SplitOn(header, '\n'))
    ensures PropertyName(SplitOn(header, '\n')[i]) in FieldNames(header)
  {
    var pieces := SplitOn(header, '\n');
    PropertyNamesNonEmpty(pieces);
    PropertyNamesMembers(pieces, PropertyName(pieces[i]));
    assert NamedAs(pieces[i], PropertyName(pieces[i]));
  }

  /** Outside the PLY branch, the first line with a keyword followed by
      names gives the names, whatever came before it. */
  lemma FieldNamesKeyword(header: string, i: nat)
    requires !PlyBranch(header)
    requires var pieces := SplitOn(header, '\n');
      && i < |pieces| && KeywordFields(Uncomment(Strip(pieces[i])), Keywords).Some?
      && forall k :: 0 <= k < i ==> KeywordFields(Uncomment(Strip(pieces[k])), Keywords).None?
    ensures var pieces := SplitOn(header, '\n');
      FieldNames(header) == KeywordFields(Uncomment(Strip(pieces[i])), Keywords).value
  {
    var cs := Classified(SplitOn(header, '\n'));
    FallbackKeyword(cs, [], i);
  }

  /** Outside the PLY branch and without keyword lines, the first line
      that looks like `x y z ...` gives its tokens as the names; without
      one there are none. */
  lemma FieldNamesXyz(header: string, i: nat)
    requires !PlyBranch(header)
    requires var pieces := SplitOn(header, '\n');
      && i <= |pieces|
      && (forall k :: 0 <= k < |pieces| ==> KeywordFields(Uncomment(Strip(pieces[k])), Keywords).None?)
      && (forall k :: 0 <= k < i ==> !LooksLikeXyz(Uncomment(Strip(pieces[k]))))
    ensures var pieces := SplitOn(header, '\n');
      i < |pieces| && LooksLikeXyz(Uncomment(Strip(pieces[i]))) ==>
        FieldNames(header) == Split(Uncomment(Strip(pieces[i])))
    ensures i == |SplitOn(header, '\n')| ==> FieldNames(header) == []
  {
    var cs := Classified(SplitOn(header, '\n'));
    FallbackFirstXyz(cs, i);
  }

  // ---------------------------------------------------------------------------
  // Rows
  // ---------------------------------------------------------------------------

  /** `[float(v) for v in values]`. */
  function ParseTokens(t: seq<string>, parse: FloatParser): (r: Option<seq<real>>)
    ensures r.Some? <==> forall j :: 0 <= j < |t| ==> parse(t[j]).Some?
    ensures r.Some? ==> |r.value| == |t| && forall j :: 0 <= j < |t| ==> parse(t[j]) == Some(r.value[j])
  {
    if forall j :: 0 <= j < |t| ==> parse(t[j]).Some? then
      Some(seq(|t|, j requires 0 <= j < |t| => parse(t[j]).value))
    else None
  }

  /** The row of a data line: its tokens parsed. */
  function RowOf(line: string, parse: FloatParser): Option<seq<real>> {
    ParseTokens(Split(Strip(line)), parse)
  }

  /** The non-blank lines of `data`, in order. */
  function NonBlank(data: seq<string>): (r: seq<string>)
    ensures |r| <= |data|
    ensures forall k :: 0 <= k < |r| ==> !IsBlank(r[k])
    decreases |data|
  {
    if |data| == 0 then []
    else (if IsBlank(data[0]) then [] else [data[0]]) + NonBlank(data[1..])
  }

  /** Every line of `lines` parses. */
  predicate AllParse(lines: seq<string>, parse: FloatParser) {
    forall k :: 0 <= k < |lines| ==> RowOf(lines[k], parse).Some?
  }

  /** `rows` are the rows of `lines`, one each. */
  predicate RowsOf(rows: Table, lines: seq<string>, parse: FloatParser) {
    && |rows| == |lines|
    && forall k :: 0 <= k < |lines| ==> RowOf(lines[k], parse) == Some(rows[k])
  }

  lemma AllParseCons(line: string, lines: seq<string>, parse: FloatParser)
    ensures AllParse([line] + lines, parse) <==> RowOf(line, parse).Some? && AllParse(lines, parse)
  {
    var all := [line] + lines;
    if RowOf(line, parse).Some? && AllParse(lines, parse) {
      forall k | 0 <= k < |all| ensures RowOf(all[k], parse).Some? {
        if k > 0 {
          assert all[k] == lines[k - 1];
        }
      }
    }
    if AllParse(all, parse) {
      assert RowOf(all[0], parse).Some?;
      forall k | 0 <= k < |lines| ensures RowOf(lines[k], parse).Some? {
        assert all[k + 1] == lines[k];
      }
    }
  }

  lemma RowsOfCons(row: seq<real>, rows: Table, line: string, lines: seq<string>, parse: FloatParser)
    requires RowOf(line, parse) == Some(row) && RowsOf(rows, lines, parse)
    ensures RowsOf([row] + rows, [line] + lines, parse)
  {
    var all, table := [line] + lines, [row] + rows;
    forall k | 0 <= k < |all| ensures RowOf(all[k], parse) == Some(table[k]) {
      if k > 0 {
        assert all[k] == lines[k - 1] && table[k] == rows[k - 1];
      }
    }
  }

  /** The data loop: every non-blank line becomes one row; a token that is
      not a number raises. */
  function ParseRows(data: seq<string>, parse: FloatParser): Option<Table>
    decreases |data|
  {
    if |data| == 0 then Some([])
    else if IsBlank(data[0]) then ParseRows(data[1..], parse)
    else match (RowOf(data[0], parse), ParseRows(data[1..], parse))
      case (Some(row), Some(rows)) => Some([row] + rows)
      case _ => None
  }

  /** The loop succeeds exactly when every non-blank line parses, and then
      gives one row per non-blank line, in order. */
  lemma {:induction false} ParseRowsSpec(data: seq<string>, parse: FloatParser)
    ensures ParseRows(data, parse).Some? <==> AllParse(NonBlank(data), parse)
    ensures ParseRows(data, parse).Some? ==> RowsOf(ParseRows(data, parse).value, NonBlank(data), parse)
    decreases |data|
  {
    if |data| > 0 {
      ParseRowsSpec(data[1..], parse);
      if IsBlank(data[0]) {
        assert NonBlank(data) == NonBlank(data[1..]);
        assert ParseRows(data, parse) == ParseRows(data[1..], parse);
      } else {
        var rest := NonBlank(data[1..]);
        assert NonBlank(data) == [data[0]] + rest;
        AllParseCons(data[0], rest, parse);
        if ParseRows(data, parse).Some? {
          RowsOfCons(RowOf(data[0], parse).value, ParseRows(data[1..], parse).value, data[0], rest, parse);
        }
      }
    }
  }

  /** A non-blank line has a token, so its row has a value. */
  lemma NonBlankRow(line: string, parse: FloatParser)
    requires !IsBlank(line) && RowOf(line, parse).Some?
    ensures |RowOf(line, parse).value| > 0
  {
    var s := Strip(line);
    assert !IsSpace(s[0]);
  }

  // ---------------------------------------------------------------------------
  // The cloud
  // ---------------------------------------------------------------------------

  /** `f"attr_{i - 3}"`. */
  function AttrName(i: int): string {
    "attr_" + IntToString(i - 3)
  }

  /** Distinct columns get distinct `attr_` keys. */
  lemma AttrNamesDistinct(i: int, j: int)
    requires AttrName(i) == AttrName(j)
    ensures i == j
  {
    var s, t := IntToString(i - 3), IntToString(j - 3);
    assert s == AttrName(i)[5..] && t == AttrName(j)[5..];
    RenderedInjective(i - 3, j - 3);
  }

  lemma RenderedInjective(a: int, b: int)
    requires IntToString(a) == IntToString(b)
    ensures a == b
  {
    ParseRendered(a);
    ParseRendered(b);
  }

  /** The key of column `i >= 3`: its field name when there are at least as
      many names as columns, `attr_{i-3}` otherwise. */
  function ColumnKey(names: seq<string>, width: nat, i: nat): (k: string)
    requires 3 <= i < width
    ensures |names| > 0 && |names| >= width ==> k == names[i]
    ensures !(|names| > 0 && |names| >= width) ==> k == AttrName(i)
  {
    if |names| > 0 && |names| >= width then (if i < |names| then names[i] else AttrName(i))
    else AttrName(i)
  }

  /** The keys of columns `i` to `width - 1`. */
  function ColumnKeys(names: seq<string>, width: nat, i: nat): set<string>
    requires 3 <= i
    decreases width - i
  {
    if i >= width then {} else {ColumnKey(names, width, i)} + ColumnKeys(names, width, i + 1)
  }

  /** A key is among the keys of columns `i` on exactly when one of those
      columns has it. */
  lemma {:induction false} ColumnKeysMembers(names: seq<string>, width: nat, i: nat)
    requires 3 <= i
    ensures forall k :: k in ColumnKeys(names, width, i) <==> exists j :: i <= j < width && ColumnKey(names, width, j) == k
    decreases width - i
  {
    if i < width {
      ColumnKeysMembers(names, width, i + 1);
      forall k ensures k in ColumnKeys(names, width, i) <==> exists j :: i <= j < width && ColumnKey(names, width, j) == k {
        ColumnKeyStep(names, width, i, k);
      }
    }
  }

  lemma ColumnKeyStep(names: seq<string>, width: nat, i: nat, k: string)
    requires 3 <= i < width
    requires k in ColumnKeys(names, width, i + 1) <==> exists j :: i + 1 <= j < width && ColumnKey(names, width, j) == k
    ensures k in ColumnKeys(names, width, i) <==> exists j :: i <= j < width && ColumnKey(names, width, j) == k
  {
    if k == ColumnKey(names, width, i) {
      assert k in ColumnKeys(names, width, i);
    } else if exists j :: i <= j < width && ColumnKey(names, width, j) == k {
      var j :| i <= j < width && ColumnKey(names, width, j) == k;
      assert j != i;
    }
  }

  /** The attribute dictionary filled from column `i` on: a later column
      with the same key replaces an earlier one. Its keys are those it
      started with and those of the columns it visits. */
  function AttributesFrom(t: Table, width: nat, names: seq<string>, i: nat, acc: map<string, seq<real>>): (r: map<string, seq<real>>)
    requires Rectangular(t, width) && 3 <= i <= width
    ensures r.Keys == acc.Keys + ColumnKeys(names, width, i)
    decreases width - i
  {
    if i == width then acc
    else AttributesFrom(t, width, names, i + 1, acc[ColumnKey(names, width, i) := Column(t, i)])
  }

  /** A key no later column has keeps its value. */
  lemma {:induction false} AttributesKeep(t: Table, width: nat, names: seq<string>, i: nat,
                                          acc: map<string, seq<real>>, k: string)
    requires Rectangular(t, width) && 3 <= i <= width
    requires k in acc
    requires forall l :: i <= l < width ==> ColumnKey(names, width, l) != k
    ensures k in AttributesFrom(t, width, names, i, acc)
    ensures AttributesFrom(t, width, names, i, acc)[k] == acc[k]
    decreases width - i
  {
    if i < width {
      AttributesKeep(t, width, names, i + 1, acc[ColumnKey(names, width, i) := Column(t, i)], k);
    }
  }

  /** The value under a key is the column of the last column with that key. */
  lemma {:induction false} AttributesLastWins(t: Table, width: nat, names: seq<string>, i: nat,
                                              acc: map<string, seq<real>>, j: nat)
    requires Rectangular(t, width) && 3 <= i <= j < width
    requires forall l :: j < l < width ==> ColumnKey(names, width, l) != ColumnKey(names, width, j)
    ensures ColumnKey(names, width, j) in AttributesFrom(t, width, names, i, acc)
    ensures AttributesFrom(t, width, names, i, acc)[ColumnKey(names, width, j)] == Column(t, j)
    decreases width - i
  {
    if i < j {
      AttributesLastWins(t, width, names, i + 1, acc[ColumnKey(names, width, i) := Column(t, i)], j);
    } else {
      AttributesKeep(t, width, names, i + 1, acc[ColumnKey(names, width, i) := Column(t, i)], ColumnKey(names, width, j));
    }
  }

  /** What `read_ascii_point_cloud` returns when nothing raises. */
  datatype Cloud = Cloud(xyz: Table, attributes: map<string, seq<real>>, fieldNames: seq<string>)

  /** The first `min(3, width)` values of a row: `point_data[:, 0:3]`. */
  function Xyz(row: seq<real>): (r: seq<real>)
    ensures |r| == if |row| < 3 then |row| else 3
    ensures r <= row
  {
    row[..if |row| < 3 then |row| else 3]
  }

  /** The attribute dictionary of a matrix of width `width`: empty up to
      three columns, otherwise one key per column past the coordinates. */
  function Attributes(t: Table, width: nat, names: seq<string>): (r: map<string, seq<real>>)
    requires Rectangular(t, width)
    ensures width <= 3 ==> r == map[]
    ensures forall k :: k in r <==> exists i :: 3 <= i < width && ColumnKey(names, width, i) == k
  {
    ColumnKeysMembers(names, width, 3);
    if width > 3 then AttributesFrom(t, width, names, 3, map[]) else map[]
  }

  /** The rows of a file: every non-blank line after the header. */
  function Rows(lines: seq<string>, parse: FloatParser): Option<Table> {
    ParseRows(lines[HeaderEnd(lines)..], parse)
  }

  /** The rows make a matrix with at least one row. */
  predicate IsMatrix(rows: Table) {
    |rows| > 0 && Rectangular(rows, |rows[0]|)
  }

  /** The field names `extract_field_names` finds in the joined header
      lines. */
  function HeaderFieldNames(lines: seq<string>): seq<string> {
    FieldNames(Concat(MarkedLines(lines[..HeaderEnd(lines)])))
  }

  /** `read_ascii_point_cloud`: None stands for the `(None, None, None)`
      returned when anything raises: a bad number, no data rows, or rows of
      different widths (`np.array` cannot make them a matrix). */
  function ReadCloud(lines: seq<string>, parse: FloatParser): (r: Option<Cloud>)
    ensures r.Some? <==> Rows(lines, parse).Some? && IsMatrix(Rows(lines, parse).value)
    ensures r.Some? ==> var rows := Rows(lines, parse).value;
      && |r.value.xyz| == |rows|
      && (forall k :: 0 <= k < |rows| ==> r.value.xyz[k] == Xyz(rows[k]))
      && r.value.fieldNames == HeaderFieldNames(lines)
      && (|rows[0]| <= 3 ==> r.value.attributes == map[])
      && (forall k :: k in r.value.attributes <==>
            exists i :: 3 <= i < |rows[0]| && ColumnKey(r.value.fieldNames, |rows[0]|, i) == k)
  {
    match Rows(lines, parse)
    case None => None
    case Some(rows) =>
      if !IsMatrix(rows) then None
      else
        var names := HeaderFieldNames(lines);
        Some(Cloud(XyzRows(rows), Attributes(rows, |rows[0]|, names), names))
  }

  /** The coordinates of every row. */
  function XyzRows(rows: Table): (r: Table)
    ensures |r| == |rows| && forall k :: 0 <= k < |rows| ==> r[k] == Xyz(rows[k])
  {
    seq(|rows|, k requires 0 <= k < |rows| => Xyz(rows[k]))
  }

  /** All rows of a file have the width of its first row. */
  predicate SameWidths(data: seq<string>, parse: FloatParser)
    requires AllParse(data, parse) && |data| > 0
  {
    forall k :: 0 <= k < |data| ==> |RowOf(data[k], parse).value| == |RowOf(data[0], parse).value|
  }

  /** Parsed rows make a matrix exactly when there is one and all have the
      same width. */
  lemma MatrixOfRows(rows: Table, data: seq<string>, parse: FloatParser)
    requires AllParse(data, parse) && RowsOf(rows, data, parse)
    ensures IsMatrix(rows) <==> |data| > 0 && SameWidths(data, parse)
  {
    if |data| > 0 {
      assert RowOf(data[0], parse).value == rows[0];
      assert forall k :: 0 <= k < |data| ==> RowOf(data[k], parse).value == rows[k];
    }
  }

  /** The file reads exactly when every non-blank data line parses, there
      is at least one, and all have the same number of values; the
      coordinates then hold one row per non-blank data line. */
  lemma ReadCloudSome(lines: seq<string>, parse: FloatParser)
    ensures var data := NonBlank(lines[HeaderEnd(lines)..]);
      ReadCloud(lines, parse).Some? <==> AllParse(data, parse) && |data| > 0 && SameWidths(data, parse)
    ensures ReadCloud(lines, parse).Some? ==>
      |ReadCloud(lines, parse).value.xyz| == |NonBlank(lines[HeaderEnd(lines)..])|
  {
    var data := lines[HeaderEnd(lines)..];
    ParseRowsSpec(data, parse);
    if AllParse(NonBlank(data), parse) {
      MatrixOfRows(Rows(lines, parse).value, NonBlank(data), parse);
    }
  }

  /** A file whose data section has no non-blank line reads as nothing. */
  lemma NoRowsNoCloud(lines: seq<string>, parse: FloatParser)
    requires NonBlank(lines[HeaderEnd(lines)..]) == []
    ensures ReadCloud(lines, parse).None?
  {
    ReadCloudSome(lines, parse);
  }

  /** Every column past the coordinates is stored under its key, unless a
      later column has the same key; with fewer names than columns the
      keys are `attr_0`, `attr_1`, ... and every column is stored. */
  lemma AttributesColumn(t: Table, width: nat, names: seq<string>, i: nat)
    requires Rectangular(t, width) && 3 <= i < width
    ensures (forall l :: i < l < width ==> ColumnKey(names, width, l) != ColumnKey(names, width, i)) ==>
      var a := Attributes(t, width, names);
      ColumnKey(names, width, i) in a && a[ColumnKey(names, width, i)] == Column(t, i)
    ensures !(|names| > 0 && |names| >= width) ==>
      var a := Attributes(t, width, names);
      AttrName(i) in a && a[AttrName(i)] == Column(t, i)
  {
    if forall l :: i < l < width ==> ColumnKey(names, width, l) != ColumnKey(names, width, i) {
      AttributesLastWins(t, width, names, 3, map[], i);
    }
    if !(|names| > 0 && |names| >= width) {
      forall l | i < l < width ensures ColumnKey(names, width, l) != ColumnKey(names, width, i) {
        if AttrName(l) == AttrName(i) {
          AttrNamesDistinct(l, i);
        }
      }
      AttributesLastWins(t, width, names, 3, map[], i);
    }
  }

  /** The same for a file that reads: column `i` of its data rows is the
      attribute under the column's key. */
  lemma ReadCloudColumns(lines: seq<string>, parse: FloatParser, i: nat)
    requires ReadCloud(lines, parse).Some?
    requires 3 <= i < |Rows(lines, parse).value[0]|
    ensures var c, rows := ReadCloud(lines, parse).value, Rows(lines, parse).value;
      var w := |rows[0]|;
      !(|c.fieldNames| > 0 && |c.fieldNames| >= w) ==>
        AttrName(i) in c.attributes && c.attributes[AttrName(i)] == Column(rows, i)
  {
    var rows := Rows(lines, parse).value;
    AttributesColumn(rows, |rows[0]|, HeaderFieldNames(lines), i);
  }

  // ---------------------------------------------------------------------------
  // Normalization
  // ---------------------------------------------------------------------------

  /** A value of [0, 1] mapped back onto the range from `lo` to `hi`. */
  function Unscale(n: real, lo: real, hi: real): real {
    n * (hi - lo) + lo
  }

  /** A value between `lo` and `hi` scaled to [0, 1]; mapping it back gives
      the value. */
  function Scale(v: real, lo: real, hi: real): (s: real)
    requires lo <= v <= hi && lo < hi
    ensures 0.0 <= s <= 1.0
    ensures Unscale(s, lo, hi) == v
  {
    var d := hi - lo;
    var s := (v - lo) / d;
    assert s * d == v - lo;
    UnitRatio(v - lo, d);
    s
  }

  /** `0 <= a <= d` gives `0 <= a / d <= 1`. */
  lemma UnitRatio(a: real, d: real)
    requires 0.0 <= a <= d && d > 0.0
    ensures 0.0 <= a / d <= 1.0
  {
  }

  /** `(values - lo) / (hi - lo)` for values between `lo` and `hi`: each
      value scaled into [0, 1], and recoverable from its scaled value. */
  function ScaleAll(values: seq<real>, lo: real, hi: real): (r: seq<real>)
    requires lo < hi
    requires forall i :: 0 <= i < |values| ==> lo <= values[i] <= hi
    ensures |r| == |values|
    ensures forall i :: 0 <= i < |values| ==> r[i] == Scale(values[i], lo, hi)
  {
    seq(|values|, i requires 0 <= i < |values| => Scale(values[i], lo, hi))
  }

  /** `normalize_values`: the values scaled so that the minimum maps to 0
      and the maximum to 1, or all zeros when every value is the same,
      together with the minimum and maximum. Reducing an empty array
      raises. */
  function Normalize(values: seq<real>): (r: Result<(seq<real>, real, real)>)
    ensures r.Ok? <==> |values| > 0
    ensures r.Ok? ==>
      && |r.value.0| == |values|
      && r.value.1 == MinOf(values) && r.value.2 == MaxOf(values)
      && (r.value.2 == r.value.1 ==> forall i :: 0 <= i < |values| ==> r.value.0[i] == 0.0)
      && (r.value.2 > r.value.1 ==> forall i :: 0 <= i < |values| ==> r.value.0[i] == Scale(values[i], r.value.1, r.value.2))
  {
    if |values| == 0 then Err(ValueError("zero-size array to reduction operation minimum which has no identity"))
    else
      var lo, hi := MinOf(values), MaxOf(values);
      if hi > lo then Ok((ScaleAll(values, lo, hi), lo, hi))
      else Ok((seq(|values|, i => 0.0), lo, hi))
  }

  /** Every normalized value lies in [0, 1], and when the values differ
      each one is recovered from its normalized value and the returned
      minimum and maximum. */
  lemma NormalizeRange(values: seq<real>, i: nat)
    requires i < |values|
    ensures var r := Normalize(values).value;
      && 0.0 <= r.0[i] <= 1.0
      && (r.2 > r.1 ==> Unscale(r.0[i], r.1, r.2) == values[i])
  {
    var r := Normalize(values).value;
    var lo, hi := MinOf(values), MaxOf(values);
    assert r.1 == lo && r.2 == hi;
    if hi > lo {
      var s := Scale(values[i], lo, hi);
      assert r.0[i] == s;
    } else {
      assert r.0[i] == 0.0;
    }
  }

  /** Normalization keeps the order of the values, and maps the minimum to
      0 and the maximum to 1 when they differ. */
  lemma NormalizeMonotone(values: seq<real>, i: nat, j: nat)
    requires i < |values| && j < |values|
    ensures var r := Normalize(values).value;
      && (values[i] <= values[j] ==> r.0[i] <= r.0[j])
      && (r.2 > r.1 && values[i] == r.1 ==> r.0[i] == 0.0)
      && (r.2 > r.1 && values[i] == r.2 ==> r.0[i] == 1.0)
  {
    var r := Normalize(values).value;
    if r.2 > r.1 {
      ScaleMonotone(values[i], values[j], r.1, r.2);
      ScaleMonotone(r.1, values[i], r.1, r.2);
      ScaleMonotone(values[i], r.2, r.1, r.2);
    }
  }

  lemma ScaleMonotone(a: real, b: real, lo: real, hi: real)
    requires lo <= a <= hi && lo <= b <= hi && lo < hi
    ensures a <= b ==> Scale(a, lo, hi) <= Scale(b, lo, hi)
    ensures a == lo ==> Scale(a, lo, hi) == 0.0
    ensures a == hi ==> Scale(a, lo, hi) == 1.0
  {
    var d := hi - lo;
    if a <= b {
      DivMonotone(a - lo, b - lo, d);
    }
  }

  lemma DivMonotone(a: real, b: real, d: real)
    requires a <= b && d > 0.0
    ensures a / d <= b / d
  {
  }
}

=== FILE: results.dfy ===
/** Failure-compatible result types shared by every module of the model.
    Each `Error` constructor stands for the Python exception (or the
    non-terminating read loop) that the modelled script would raise. */
module Results {

  /** The exceptions the scripts can raise, with a short reason. */
  datatype Error =
    | ValueError(reason: string)     // int()/float() on a bad literal, missing list element, bad unpack
    | IndexError(reason: string)     // list/array/iloc index past the end
    | StructError(reason: string)    // struct.pack out of range, struct.unpack on a short read
    | KeyError(reason: string)       // a pandas column label that does not exist
    | TypeError(reason: string)      // reduce() over an empty list
    | NoTerminator(reason: string)   // a `while True: readline()` loop that never meets its sentinel

  /** The conventional Some/None type. */
  datatype Option<+T> = None | Some(value: T)

  /** The outcome of a modelled script step: a value, or the exception it raises. */
  datatype Result<+T> = Ok(value: T) | Err(error: Error) {

    predicate IsFailure() {
      Err?
    }

    function PropagateFailure<U>(): Result<U>
      requires Err?
    {
      Err(error)
    }

    function Extract(): T
      requires Ok?
    {
      value
    }
  }
}

=== FILE: select_xyz.dfy ===
/** `selectxyz.py`: keep only the coordinates of every point, numbered from 1,
    and only the `x`, `y`, `z` property declarations, with `property int id`
    added just before `end_header`. */
module SelectXyz {
  import opened Results
  import opened Text
  import opened PlyHeader

  // ---------------------------------------------------------------------------
  // The header
  // ---------------------------------------------------------------------------

  /** `line.strip() in xyz_props`. */
  predicate IsXyzProperty(line: string) {
    Strip(line) in ["property float x", "property float y", "property float z"]
  }

  /** A header line other than the sentinel survives unless it is a property
      line of another column. */
  predicate Kept(line: string) {
    IsPropertyLine(line) ==> IsXyzProperty(line)
  }

  /** What one header line becomes: a property line is kept only if it
      declares `x`, `y` or `z`; an `element vertex` line is kept once its count
      parses; the sentinel becomes the ID declaration and `end_header`. */
  function RewriteLine(line: string): Result<seq<string>> {
    if IsPropertyLine(line) then Ok(if IsXyzProperty(line) then [line] else [])
    else if IsVertexLine(line) then
      match ParseInt(LastToken(Strip(line)))
      case None => Err(ValueError("invalid literal for int(): " + LastToken(Strip(line))))
      case Some(_) => Ok([line])
    else if IsStrippedEndHeader(line) then Ok([IdPropertyLine, EndHeaderLine])
    else Ok([line])
  }

  /** The header loop of `extract_xyz_with_id`, failing at the first vertex
      line whose count does not parse. */
  function RewriteHeader(header: seq<string>): Result<seq<string>>
    decreases |header|
  {
    if |header| == 0 then Ok([])
    else
      var first :- RewriteLine(header[0]);
      var rest :- RewriteHeader(header[1..]);
      Ok(first + rest)
  }

  /** The reference definition: the lines that survive, in order. */
  function KeptLines(header: seq<string>): (r: seq<string>)
    ensures forall k :: 0 <= k < |r| ==> r[k] in header && Kept(r[k])
    ensures forall k :: 0 <= k < |header| && Kept(header[k]) ==> header[k] in r
    decreases |header|
  {
    if |header| == 0 then []
    else
      var rest := KeptLines(header[1..]);
      assert forall k :: 0 < k < |header| ==> header[k] == header[1..][k - 1];
      if Kept(header[0]) then [header[0]] + rest else rest
  }

  /** One line before the sentinel: it fails exactly on a vertex count that
      does not parse, and otherwise survives exactly when `Kept`. */
  lemma RewriteLineSpec(line: string)
    requires !IsStrippedEndHeader(line)
    ensures RewriteLine(line).Ok? <==> (IsVertexLine(line) ==> ParseInt(LastToken(line)).Some?)
    ensures RewriteLine(line).Ok? ==> RewriteLine(line).value == if Kept(line) then [line] else []
  {
    LastTokenStrip(line);
    if IsPropertyLine(line) {
      PropertyNotVertex(line);
    }
  }

  lemma PropertyNotVertex(line: string)
    requires IsPropertyLine(line)
    ensures !IsVertexLine(line)
  {
    assert line[0] == "property"[0];
  }

  /** The header loop on a line before the sentinel followed by more lines. */
  lemma RewriteCons(h: seq<string>)
    requires |h| > 0 && !IsStrippedEndHeader(h[0])
    ensures RewriteHeader(h).Ok? <==>
      (IsVertexLine(h[0]) ==> ParseInt(LastToken(h[0])).Some?) && RewriteHeader(h[1..]).Ok?
    ensures RewriteHeader(h).Ok? ==>
      RewriteHeader(h).value == (if Kept(h[0]) then [h[0]] else []) + RewriteHeader(h[1..]).value
  {
    RewriteLineSpec(h[0]);
  }

  /** On the lines before the sentinel the header loop is the filter, and it
      fails exactly when some vertex count does not parse. */
  lemma {:induction false} RewriteIsFilter(header: seq<string>)
    requires forall k :: 0 <= k < |header| ==> !IsStrippedEndHeader(header[k])
    ensures RewriteHeader(header).Ok? <==> VertexCountsParse(header)
    ensures RewriteHeader(header).Ok? ==> RewriteHeader(header).value == KeptLines(header)
    decreases |header|
  {
    if |header| > 0 {
      ParseCons(header);
      RewriteCons(header);
      RewriteIsFilter(header[1..]);
    }
  }

  /** The sentinel alone becomes the ID declaration and `end_header`. */
  lemma RewriteSentinel(sentinel: string)
    requires IsStrippedEndHeader(sentinel)
    ensures RewriteHeader([sentinel]) == Ok([IdPropertyLine, EndHeaderLine])
  {
    KindsDisjoint(sentinel);
    assert RewriteLine(sentinel) == Ok([IdPropertyLine, EndHeaderLine]);
    assert [sentinel][1..] == [];
    assert RewriteHeader([]) == Ok([]);
    assert [IdPropertyLine, EndHeaderLine] + [] == [IdPropertyLine, EndHeaderLine];
  }

  /** The header loop works line by line: on a concatenation it fails if
      either part fails, and otherwise concatenates the two outputs. */
  lemma {:induction false} RewriteAppend(a: seq<string>, b: seq<string>)
    ensures RewriteHeader(a + b).Ok? <==> RewriteHeader(a).Ok? && RewriteHeader(b).Ok?
    ensures RewriteHeader(a + b).Ok? ==>
      RewriteHeader(a + b).value == RewriteHeader(a).value + RewriteHeader(b).value
    decreases |a|
  {
    if |a| == 0 {
      assert a + b == b;
    } else {
      assert (a + b)[0] == a[0] && (a + b)[1..] == a[1..] + b;
      RewriteAppend(a[1..], b);
    }
  }

  // ---------------------------------------------------------------------------
  // The data
  // ---------------------------------------------------------------------------

  /** `row` holds the first three tokens of `line` and then `id`. */
  predicate IsXyzRow(row: string, line: string, id: int) {
    |Split(line)| >= 3 && Split(row) == Split(line)[..3] + [IntToString(id)]
  }

  /** `x, y, z = line.strip().split()[:3]` and `f"{x} {y} {z} {id_val}\n"`;
      fewer than three tokens cannot be unpacked. */
  function XyzRow(line: string, id: int): (r: Result<string>)
    ensures r.Ok? <==> |Split(line)| >= 3
    ensures r.Ok? ==> IsXyzRow(r.value, line, id)
  {
    var cols := Split(Strip(line));
    SplitStrip(line);
    if |cols| < 3 then Err(ValueError("not enough values to unpack (expected 3)"))
    else
      var row := cols[0] + " " + cols[1] + " " + cols[2] + " " + IntToString(id) + "\n";
      RowTokens(cols[0], cols[1], cols[2], IntToString(id));
      FirstThreeThen(cols, IntToString(id));
      Ok(row)
  }

  lemma FirstThreeThen<T>(s: seq<T>, x: T)
    requires |s| >= 3
    ensures s[..3] + [x] == [s[0], s[1], s[2], x]
  {
  }

  lemma RowTokens(x: string, y: string, z: string, i: string)
    requires IsToken(x) && IsToken(y) && IsToken(z) && IsToken(i)
    ensures Split(x + " " + y + " " + z + " " + i + "\n") == [x, y, z, i]
  {
    JoinFour(x, y, z, i);
    SplitJoinedLine([x, y, z, i]);
  }

  /** Four tokens joined by single spaces, as the row is written. */
  lemma JoinFour(x: string, y: string, z: string, i: string)
    ensures Join([x, y, z, i], " ") + "\n" == x + " " + y + " " + z + " " + i + "\n"
  {
    var ts := [x, y, z, i];
    var j0 := x + " " + (y + " " + (z + " " + i));
    assert Join(ts, " ") == j0 by {
      assert Join(ts[3..], " ") == i;
      assert Join(ts[2..], " ") == z + " " + i;
      assert Join(ts[1..], " ") == y + " " + (z + " " + i);
    }
  }

  /** Every line has at least three tokens to unpack. */
  predicate AllUnpack(data: seq<string>) {
    forall k :: 0 <= k < |data| ==> |Split(data[k])| >= 3
  }

  lemma AllUnpackCons(data: seq<string>)
    requires |data| > 0
    ensures AllUnpack(data) <==> |Split(data[0])| >= 3 && AllUnpack(data[1..])
  {
    var rest := data[1..];
    forall k | 0 < k < |data| ensures data[k] == rest[k - 1] {
    }
  }

  /** The data loop, with rows numbered from `first`. */
  function XyzRows(data: seq<string>, first: int): (r: Result<seq<string>>)
    ensures r.Ok? <==> AllUnpack(data)
    ensures r.Ok? ==> |r.value| == |data|
    decreases |data|
  {
    if |data| == 0 then Ok([])
    else
      AllUnpackCons(data);
      var row :- XyzRow(data[0], first);
      var rest :- XyzRows(data[1..], first + 1);
      Ok([row] + rest)
  }

  /** Every row of `out` holds the first three tokens of its line of `data`
      and the running number counted from `first`. */
  predicate XyzRowsOf(out: seq<string>, data: seq<string>, first: int) {
    |out| == |data| && forall k :: 0 <= k < |data| ==> IsXyzRow(out[k], data[k], first + k)
  }

  lemma XyzRowsCons(data: seq<string>, first: int)
    requires |data| > 0 && XyzRows(data, first).Ok?
    ensures XyzRow(data[0], first).Ok? && XyzRows(data[1..], first + 1).Ok?
    ensures XyzRows(data, first).value == [XyzRow(data[0], first).value] + XyzRows(data[1..], first + 1).value
  {
  }

  lemma PrependXyzRow(row: string, rest: seq<string>, data: seq<string>, first: int)
    requires |data| > 0 && IsXyzRow(row, data[0], first)
    requires XyzRowsOf(rest, data[1..], first + 1)
    ensures XyzRowsOf([row] + rest, data, first)
  {
    forall k | 0 < k < |data|
      ensures IsXyzRow(([row] + rest)[k], data[k], first + k)
    {
      assert ([row] + rest)[k] == rest[k - 1] && data[k] == data[1..][k - 1];
      assert first + k == first + 1 + (k - 1);
    }
  }

  /** Every emitted row holds the first three tokens of its line and the
      running number. */
  lemma {:induction false} XyzRowsSpec(data: seq<string>, first: int)
    requires XyzRows(data, first).Ok?
    ensures XyzRowsOf(XyzRows(data, first).value, data, first)
    decreases |data|
  {
    if |data| > 0 {
      XyzRowsCons(data, first);
      XyzRowsSpec(data[1..], first + 1);
      PrependXyzRow(XyzRow(data[0], first).value, XyzRows(data[1..], first + 1).value, data, first);
    }
  }

  // ---------------------------------------------------------------------------
  // The file
  // ---------------------------------------------------------------------------

  /** The header through its sentinel: the surviving lines, then the ID
      declaration and `end_header`. */
  lemma HeaderThroughSentinel(before: seq<string>, sentinel: string)
    requires forall k :: 0 <= k < |before| ==> !IsStrippedEndHeader(before[k])
    requires IsStrippedEndHeader(sentinel)
    ensures RewriteHeader(before + [sentinel]).Ok? <==> VertexCountsParse(before + [sentinel])
    ensures RewriteHeader(before + [sentinel]).Ok? ==>
      RewriteHeader(before + [sentinel]).value == KeptLines(before) + [IdPropertyLine, EndHeaderLine]
  {
    RewriteAppend(before, [sentinel]);
    RewriteIsFilter(before);
    RewriteSentinel(sentinel);
    KindsDisjoint(sentinel);
    ParseAppend(before, sentinel);
  }

  lemma ParseAppend(before: seq<string>, l: string)
    requires !IsVertexLine(l)
    ensures VertexCountsParse(before + [l]) <==> VertexCountsParse(before)
  {
    var h := before + [l];
    assert forall i :: 0 <= i < |before| ==> h[i] == before[i];
  }

  /** The header section of a file that has the sentinel. */
  lemma SentinelSection(lines: seq<string>)
    requires SplitAtSentinel(lines, IsStrippedEndHeader).dataStart > 0
    ensures var sec := SplitAtSentinel(lines, IsStrippedEndHeader);
      && (RewriteHeader(sec.header).Ok? <==> VertexCountsParse(sec.header))
      && (RewriteHeader(sec.header).Ok? ==>
            RewriteHeader(sec.header).value == KeptLines(lines[..sec.dataStart - 1]) + [IdPropertyLine, EndHeaderLine])
  {
    var sec := SplitAtSentinel(lines, IsStrippedEndHeader);
    SentinelHeaderParts(lines, IsStrippedEndHeader);
    HeaderThroughSentinel(lines[..sec.dataStart - 1], lines[sec.dataStart - 1]);
  }

  /** `extract_xyz_with_id`: the header runs through the first line that
      strips to `end_header` (every line when there is none), and the data is
      every line after it (every line when there is none). Each data line
      becomes its coordinates and its 1-based number. */
  function ExtractXyzWithId(lines: seq<string>): (r: Result<PlyLines>)
    ensures var sec := SplitAtSentinel(lines, IsStrippedEndHeader);
      r.Ok? <==> VertexCountsParse(sec.header) && AllUnpack(lines[sec.dataStart..])
    ensures r.Ok? ==>
      XyzRowsOf(r.value.data, lines[SplitAtSentinel(lines, IsStrippedEndHeader).dataStart..], 1)
  {
    var sec := SplitAtSentinel(lines, IsStrippedEndHeader);
    var data := lines[sec.dataStart..];
    var header :- (if sec.dataStart > 0 then SentinelSection(lines); RewriteHeader(sec.header)
                   else RewriteIsFilter(lines); RewriteHeader(sec.header));
    var rows :- XyzRows(data, 1);
    XyzRowsSpec(data, 1);
    Ok(PlyLines(header, rows))
  }

  /** The new header: the surviving lines before the sentinel, then the ID
      declaration and `end_header`; without a sentinel, the surviving lines
      of the whole file. */
  lemma ExtractXyzHeader(lines: seq<string>)
    requires ExtractXyzWithId(lines).Ok?
    ensures var sec := SplitAtSentinel(lines, IsStrippedEndHeader);
      sec.dataStart > 0 ==>
        ExtractXyzWithId(lines).value.header == KeptLines(lines[..sec.dataStart - 1]) + [IdPropertyLine, EndHeaderLine]
    ensures SplitAtSentinel(lines, IsStrippedEndHeader).dataStart == 0 ==>
      ExtractXyzWithId(lines).value.header == KeptLines(lines)
  {
    if SplitAtSentinel(lines, IsStrippedEndHeader).dataStart > 0 {
      SentinelSection(lines);
    } else {
      RewriteIsFilter(lines);
    }
  }
}

=== FILE: sorting.dfy ===
/** Reordering records by an integer key, as `np.argsort(ids)` followed by
    indexing, and `sorted(..., key=lambda x: x[0])`. The sort here is an
    insertion sort over sequences: it keeps records with equal keys in input
    order, which numpy's default sort does not promise; with distinct keys,
    as every caller has, the result is the same. */
module Sorting {

  /** Keys never decrease along `s`. */
  predicate SortedByKey<T>(s: seq<(int, T)>) {
    forall i, j :: 0 <= i < j < |s| ==> s[i].0 <= s[j].0
  }

  /** Keys strictly increase along `s`. */
  predicate StrictlyIncreasing(s: seq<int>) {
    forall i, j :: 0 <= i < j < |s| ==> s[i] < s[j]
  }

  /** The keys of `s`, in order. */
  function Keys<T>(s: seq<(int, T)>): (r: seq<int>)
    ensures |r| == |s| && forall i :: 0 <= i < |s| ==> r[i] == s[i].0
  {
    seq(|s|, i requires 0 <= i < |s| => s[i].0)
  }

  /** `x` inserted before the first record with a larger key. */
  function Insert<T>(x: (int, T), s: seq<(int, T)>): seq<(int, T)>
    decreases |s|
  {
    if |s| == 0 || x.0 <= s[0].0 then [x] + s
    else [s[0]] + Insert(x, s[1..])
  }

  /** Insertion adds exactly `x`. */
  lemma {:induction false} InsertMultiset<T>(x: (int, T), s: seq<(int, T)>)
    ensures multiset(Insert(x, s)) == multiset(s) + multiset{x}
    decreases |s|
  {
    if |s| > 0 && x.0 > s[0].0 {
      InsertMultiset(x, s[1..]);
      assert s == [s[0]] + s[1..];
    }
  }

  /** Every record after the first of a sorted sequence has a key at least
      the first's. */
  lemma SortedTail<T>(s: seq<(int, T)>)
    requires |s| > 0 && SortedByKey(s)
    ensures SortedByKey(s[1..])
    ensures forall e :: e in s[1..] ==> s[0].0 <= e.0
  {
    assert forall i :: 0 <= i < |s| - 1 ==> s[1..][i] == s[i + 1];
  }

  /** A record no smaller than every key of a sorted sequence can go in
      front of it. */
  lemma SortedCons<T>(h: (int, T), rest: seq<(int, T)>)
    requires SortedByKey(rest)
    requires forall e :: e in rest ==> h.0 <= e.0
    ensures SortedByKey([h] + rest)
  {
    var r := [h] + rest;
    forall i, j | 0 <= i < j < |r| ensures r[i].0 <= r[j].0 {
      assert r[j] == rest[j - 1];
      if i > 0 {
        assert r[i] == rest[i - 1];
      }
    }
  }

  /** Insertion keeps the keys in order. */
  lemma {:induction false} InsertSorted<T>(x: (int, T), s: seq<(int, T)>)
    requires SortedByKey(s)
    ensures SortedByKey(Insert(x, s))
    decreases |s|
  {
    if |s| == 0 || x.0 <= s[0].0 {
      if |s| > 0 {
        SortedTail(s);
        assert s == [s[0]] + s[1..];
      }
      SortedCons(x, s);
    } else {
      SortedTail(s);
      InsertSorted(x, s[1..]);
      InsertMultiset(x, s[1..]);
      var rest := Insert(x, s[1..]);
      forall e | e in rest ensures s[0].0 <= e.0 {
        assert e in multiset(rest);
      }
      SortedCons(s[0], rest);
    }
  }

  /** The records of `s` in ascending key order. */
  function SortByKey<T>(s: seq<(int, T)>): seq<(int, T)>
    decreases |s|
  {
    if |s| == 0 then [] else Insert(s[0], SortByKey(s[1..]))
  }

  /** The sort returns a permutation of its input with keys in ascending
      order. */
  lemma {:induction false} SortByKeySpec<T>(s: seq<(int, T)>)
    ensures SortedByKey(SortByKey(s))
    ensures multiset(SortByKey(s)) == multiset(s)
    decreases |s|
  {
    if |s| > 0 {
      SortByKeySpec(s[1..]);
      InsertMultiset(s[0], SortByKey(s[1..]));
      InsertSorted(s[0], SortByKey(s[1..]));
      assert s == [s[0]] + s[1..];
    }
  }

  /** Sorting a sequence already in key order leaves it as it is. */
  lemma {:induction false} SortByKeySorted<T>(s: seq<(int, T)>)
    requires SortedByKey(s)
    ensures SortByKey(s) == s
    decreases |s|
  {
    if |s| > 0 {
      SortedTail(s);
      SortByKeySorted(s[1..]);
      assert s == [s[0]] + s[1..];
    }
  }

  /** A sorted sequence of distinct keys is strictly increasing. */
  lemma SortedDistinct<T>(s: seq<(int, T)>)
    requires SortedByKey(s)
    requires forall i, j :: 0 <= i < j < |s| ==> s[i].0 != s[j].0
    ensures StrictlyIncreasing(Keys(s))
  {
  }

  /** Two strictly increasing sequences with the same elements are equal:
      the order of distinct keys is determined by their values. */
  lemma {:induction false} StrictlyIncreasingUnique(a: seq<int>, b: seq<int>)
    requires StrictlyIncreasing(a) && StrictlyIncreasing(b)
    requires forall x :: x in a <==> x in b
    ensures a == b
    decreases |a| + |b|
  {
    SameElementsEmpty(a, b);
    if |a| > 0 {
      assert a[0] == b[0] by {
        assert b[0] in a && a[0] in b;
        var i :| 0 <= i < |a| && a[i] == b[0];
        var j :| 0 <= j < |b| && b[j] == a[0];
        assert a[0] <= a[i] && b[0] <= b[j];
      }
      assert StrictlyIncreasing(a[1..]) && StrictlyIncreasing(b[1..]) by {
        assert forall i :: 0 <= i < |a| - 1 ==> a[1..][i] == a[i + 1];
        assert forall i :: 0 <= i < |b| - 1 ==> b[1..][i] == b[i + 1];
      }
      TailElements(a, b);
      TailElements(b, a);
      StrictlyIncreasingUnique(a[1..], b[1..]);
      assert a == [a[0]] + a[1..] && b == [b[0]] + b[1..];
    }
  }

  lemma SameElementsEmpty(a: seq<int>, b: seq<int>)
    requires forall x :: x in a <==> x in b
    ensures |a| == 0 <==> |b| == 0
  {
    if |a| > 0 {
      var x := a[0];
      assert x in a ==> x in b;
    }
    if |b| > 0 {
      var x := b[0];
      assert x in b ==> x in a;
    }
  }

  /** With the same first element, the tails of two strictly increasing
      sequences with the same elements have the same elements. */
  lemma TailElements(a: seq<int>, b: seq<int>)
    requires StrictlyIncreasing(a) && StrictlyIncreasing(b)
    requires forall x :: x in a <==> x in b
    requires |a| > 0 && |b| > 0 && a[0] == b[0]
    ensures forall x :: x in a[1..] ==> x in b[1..]
  {
    forall x | x in a[1..] ensures x in b[1..] {
      var i :| 0 <= i < |a[1..]| && a[1..][i] == x;
      assert a[i + 1] == x && a[0] < x;
      assert x in b;
      var j :| 0 <= j < |b| && b[j] == x;
      assert j != 0;
      assert b[1..][j - 1] == x;
    }
  }
}

=== FILE: text.dfy ===
/** The handful of Python string and list operations the scripts rely on:
    `str.split()`, `str.strip()`, `str.startswith`, the `in` substring test,
    `str.replace`, `str.lower`, `str.join`, `int(...)` on a literal, `str(int)`
    and list slicing with Python's clamping of out-of-range bounds. */
module Text {
  import opened Results

  // ---------------------------------------------------------------------------
  // Whitespace, tokens and `str.split()`
  // ---------------------------------------------------------------------------

  /** Python's `str.isspace()` on the ASCII and Latin-1 range. */
  predicate IsSpace(c: char) {
    || c == ' '
    || ('\t' <= c <= '\r')
    || ('\U{1C}' <= c <= '\U{1F}')
    || c == '\U{85}'
    || c == '\U{A0}'
  }

  predicate NoSpace(s: string) {
    forall i :: 0 <= i < |s| ==> !IsSpace(s[i])
  }

  /** What `str.split()` can produce: a non-empty run without whitespace. */
  predicate IsToken(t: string) {
    |t| > 0 && NoSpace(t)
  }

  /** The length of the leading run of non-whitespace characters of `s`. */
  function TokenLength(s: string): (n: nat)
    ensures n <= |s|
    ensures NoSpace(s[..n])
    ensures n < |s| ==> IsSpace(s[n])
  {
    if |s| == 0 || IsSpace(s[0]) then 0
    else
      var m := TokenLength(s[1..]);
      assert s[..1 + m] == [s[0]] + s[1..][..m];
      1 + m
  }

  /** Python's `s.split()`: the maximal runs of non-whitespace characters, in order. */
  function Split(s: string): (r: seq<string>)
    ensures forall i :: 0 <= i < |r| ==> IsToken(r[i])
    decreases |s|
  {
    if |s| == 0 then []
    else if IsSpace(s[0]) then Split(s[1..])
    else
      var n := TokenLength(s);
      [s[..n]] + Split(s[n..])
  }

  /** Python's `sep.join(parts)`. */
  function Join(parts: seq<string>, sep: string): string
    decreases |parts|
  {
    if |parts| == 0 then ""
    else if |parts| == 1 then parts[0]
    else parts[0] + sep + Join(parts[1..], sep)
  }

  lemma {:induction false} TokenLengthOfToken(t: string, u: string)
    requires NoSpace(t)
    requires |u| == 0 || IsSpace(u[0])
    ensures TokenLength(t + u) == |t|
    decreases |t|
  {
    if |t| > 0 {
      assert (t + u)[1..] == t[1..] + u;
      TokenLengthOfToken(t[1..], u);
    }
  }

  /** Space-joined tokens split back into the same tokens: `" ".join` and
      `split()` are inverse on token lists. */
  lemma {:induction false} SplitJoin(ts: seq<string>)
    requires forall i :: 0 <= i < |ts| ==> IsToken(ts[i])
    ensures Split(Join(ts, " ")) == ts
    decreases |ts|
  {
    if |ts| == 1 {
      var t := ts[0];
      TokenLengthOfToken(t, "");
      assert t + "" == t;
      assert t[|t|..] == "";
    } else if |ts| > 1 {
      var t, rest := ts[0], Join(ts[1..], " ");
      var s := t + " " + rest;
      assert s == t + (" " + rest);
      TokenLengthOfToken(t, " " + rest);
      assert s[..|t|] == t;
      assert s[|t|..] == " " + rest;
      assert (" " + rest)[1..] == rest;
      SplitJoin(ts[1..]);
      assert Split(s) == [t] + Split(" " + rest);
    }
  }

  // ---------------------------------------------------------------------------
  // `str.strip()`
  // ---------------------------------------------------------------------------

  function LStrip(s: string): (r: string)
    ensures |r| <= |s| && r == s[|s| - |r|..]
    ensures |r| > 0 ==> !IsSpace(r[0])
    ensures forall i :: 0 <= i < |s| - |r| ==> IsSpace(s[i])
  {
    if |s| > 0 && IsSpace(s[0]) then LStrip(s[1..]) else s
  }

  function RStrip(s: string): (r: string)
    ensures |r| <= |s| && r == s[..|r|]
    ensures |r| > 0 ==> !IsSpace(r[|r| - 1])
    ensures forall i :: |r| <= i < |s| ==> IsSpace(s[i])
  {
    if |s| > 0 && IsSpace(s[|s| - 1]) then RStrip(s[..|s| - 1]) else s
  }

  /** Python's `s.strip()`: `s` without leading and trailing whitespace. */
  function Strip(s: string): (r: string)
    ensures |r| > 0 ==> !IsSpace(r[0]) && !IsSpace(r[|r| - 1])
  {
    RStrip(LStrip(s))
  }

  /** `s.strip()` is the part of `s` left once the leading and trailing
      whitespace runs are cut off: nothing else is lost. */
  lemma StripCuts(s: string)
    ensures exists a :: Cut(s, Strip(s), a)
  {
    var l := LStrip(s);
    var a := |s| - |l|;
    var r := RStrip(l);
    assert r == s[a..a + |r|];
    forall i | a + |r| <= i < |s| ensures IsSpace(s[i]) {
      assert s[i] == l[i - a];
    }
    assert r == Strip(s);
    assert Cut(s, r, a);
  }

  /** `r` is `s` with the first `a` characters and a trailing run cut off,
      both of them whitespace. */
  predicate Cut(s: string, r: string, a: int) {
    && 0 <= a <= |s| - |r|
    && r == s[a..a + |r|]
    && (forall i :: 0 <= i < a ==> IsSpace(s[i]))
    && (forall i :: a + |r| <= i < |s| ==> IsSpace(s[i]))
  }

  /** A string with no whitespace at either end is its own strip. */
  lemma StripUnpadded(s: string)
    requires |s| > 0 ==> !IsSpace(s[0]) && !IsSpace(s[|s| - 1])
    ensures Strip(s) == s
  {
  }

  /** A stripped line with a line terminator strips back to itself. */
  lemma StripNewline(s: string, line: string)
    requires s == Strip(line)
    ensures Strip(s + "\n") == s
  {
    var t := s + "\n";
    assert IsSpace(t[|t| - 1]);
    if |s| == 0 {
      assert LStrip(t) == "";
    } else {
      assert !IsSpace(s[0]) && !IsSpace(s[|s| - 1]);
      assert LStrip(t) == t;
      assert RStrip(t) == RStrip(s);
      StripUnpadded(s);
    }
  }

  // ---------------------------------------------------------------------------
  // What `str.split()` ignores
  // ---------------------------------------------------------------------------

  /** A token run is not lengthened by what follows a whitespace character. */
  lemma {:induction false} TokenLengthPrefix(a: string, u: string)
    requires TokenLength(a) < |a| || |u| == 0 || IsSpace(u[0])
    ensures TokenLength(a + u) == TokenLength(a)
    decreases |a|
  {
    if |a| == 0 {
      assert a + u == u;
    } else if !IsSpace(a[0]) {
      assert (a + u)[1..] == a[1..] + u;
      TokenLengthPrefix(a[1..], u);
    }
  }

  /** A string of whitespace has no tokens. */
  lemma {:induction false} SplitAllSpace(s: string)
    requires forall i :: 0 <= i < |s| ==> IsSpace(s[i])
    ensures Split(s) == []
    decreases |s|
  {
    if |s| > 0 {
      SplitAllSpace(s[1..]);
    }
  }

  /** A whitespace character separates tokens: `(a + c + b).split()` is
      `a.split() + b.split()`. */
  lemma {:induction false} SplitAtSpace(a: string, c: char, b: string)
    requires IsSpace(c)
    ensures Split(a + [c] + b) == Split(a) + Split(b)
    decreases |a|, 1
  {
    if |a| == 0 {
      var s := a + [c] + b;
      assert s[0] == c && s[1..] == b;
      SplitSkipSpace(s);
      assert Split(a) + Split(b) == Split(b);
    } else if IsSpace(a[0]) {
      SplitAtSpaceSkip(a, c, b);
    } else {
      SplitAtSpaceToken(a, c, b);
    }
  }

  lemma {:induction false} SplitAtSpaceSkip(a: string, c: char, b: string)
    requires IsSpace(c) && |a| > 0 && IsSpace(a[0])
    ensures Split(a + [c] + b) == Split(a) + Split(b)
    decreases |a|, 0
  {
    var s := a + [c] + b;
    assert s[0] == a[0] && s[1..] == a[1..] + [c] + b;
    SplitSkipSpace(s);
    SplitSkipSpace(a);
    SplitAtSpace(a[1..], c, b);
  }

  lemma {:induction false} SplitAtSpaceToken(a: string, c: char, b: string)
    requires IsSpace(c) && |a| > 0 && !IsSpace(a[0])
    ensures Split(a + [c] + b) == Split(a) + Split(b)
    decreases |a|, 0
  {
    var m := TokenLength(a);
    var head, r, sb := a[..m], Split(a[m..]), Split(b);
    SplitUnfold(a);
    SplitTokenFirst(a, [c] + b);
    Associative(a, [c], b);
    Associative(a[m..], [c], b);
    SplitAtSpace(a[m..], c, b);
    Associative([head], r, sb);
  }

  /** Two adjacent slices join into one. */
  lemma AdjacentSlices<T>(s: seq<T>, w: nat, n: nat)
    requires w + n <= |s|
    ensures s[..w] + s[w..][..n] == s[..w + n]
  {
  }

  /** Some line satisfies `p` exactly when the first does or some later
      one does. */
  lemma ExistsCons(lines: seq<string>, p: string -> bool)
    requires |lines| > 0
    ensures (exists k :: 0 <= k < |lines| && p(lines[k])) <==>
      p(lines[0]) || exists k :: 0 <= k < |lines[1..]| && p(lines[1..][k])
  {
    var rest := lines[1..];
    if exists k :: 0 <= k < |lines| && p(lines[k]) {
      var k :| 0 <= k < |lines| && p(lines[k]);
      if k > 0 {
        assert p(rest[k - 1]);
      }
    }
    if exists k :: 0 <= k < |rest| && p(rest[k]) {
      var k :| 0 <= k < |rest| && p(rest[k]);
      assert p(lines[k + 1]);
    }
  }

  /** The middle part of a concatenation of three. */
  lemma MiddleSlice<T>(a: seq<T>, p: seq<T>, r: seq<T>)
    ensures |a| + |p| <= |a + p + r|
    ensures (a + p + r)[|a|..|a| + |p|] == p
    ensures forall k :: 0 <= k < |p| ==> (a + p + r)[|a| + k] == p[k]
  {
  }

  /** Keeping the first line when it satisfies `p`, in front of the kept
      lines of the tail, keeps exactly the lines that satisfy `p`. */
  lemma FilterCons(lines: seq<string>, rest: seq<string>, p: string -> bool)
    requires |lines| > 0
    requires forall k :: 0 <= k < |rest| ==> rest[k] in lines[1..] && p(rest[k])
    requires forall k :: 0 <= k < |lines| - 1 && p(lines[1..][k]) ==> lines[1..][k] in rest
    ensures var r := if p(lines[0]) then [lines[0]] + rest else rest;
      && (forall k :: 0 <= k < |r| ==> r[k] in lines && p(r[k]))
      && (forall k :: 0 <= k < |lines| && p(lines[k]) ==> lines[k] in r)
  {
    assert forall k :: 0 < k < |lines| ==> lines[k] == lines[1..][k - 1];
  }

  lemma Associative<T>(x: seq<T>, y: seq<T>, z: seq<T>)
    ensures x + (y + z) == x + y + z
  {
  }

  /** A token at the front of `a` stays the first token when something
      starting with whitespace follows `a`. */
  lemma SplitTokenFirst(a: string, u: string)
    requires |a| > 0 && !IsSpace(a[0])
    requires |u| > 0 && IsSpace(u[0])
    ensures Split(a + u) == [a[..TokenLength(a)]] + Split(a[TokenLength(a)..] + u)
  {
    TokenLengthPrefix(a, u);
    SplitUnfold(a + u);
    TakeDropAppend(a, u, TokenLength(a));
  }

  /** Cutting `a + u` inside `a`. */
  lemma TakeDropAppend(a: string, u: string, m: nat)
    requires m <= |a|
    ensures (a + u)[..m] == a[..m]
    ensures (a + u)[m..] == a[m..] + u
  {
  }

  /** Leading whitespace is skipped. */
  lemma SplitSkipSpace(s: string)
    requires |s| > 0 && IsSpace(s[0])
    ensures Split(s) == Split(s[1..])
  {
  }

  /** A string starting with a token splits into that token and the split
      of what follows it. */
  lemma SplitUnfold(s: string)
    requires |s| > 0 && !IsSpace(s[0])
    ensures Split(s) == [s[..TokenLength(s)]] + Split(s[TokenLength(s)..])
  {
  }

  /** Leading whitespace does not change the tokens. */
  lemma {:induction false} SplitDropSpaces(s: string, k: nat)
    requires k <= |s|
    requires forall i :: 0 <= i < k ==> IsSpace(s[i])
    ensures Split(s[k..]) == Split(s)
    decreases k
  {
    if k > 0 {
      assert s[1..][k - 1..] == s[k..];
      SplitDropSpaces(s[1..], k - 1);
    }
  }

  /** Trailing whitespace does not change the tokens. */
  lemma SplitRStrip(s: string)
    ensures Split(RStrip(s)) == Split(s)
  {
    var r := RStrip(s);
    if |r| < |s| {
      var rest := s[|r| + 1..];
      assert s == r + [s[|r|]] + rest;
      SplitAtSpace(r, s[|r|], rest);
      assert forall i :: 0 <= i < |rest| ==> rest[i] == s[|r| + 1 + i];
      SplitAllSpace(rest);
    }
  }

  /** `s.strip().split() == s.split()`. */
  lemma SplitStrip(s: string)
    ensures Split(Strip(s)) == Split(s)
  {
    var l := LStrip(s);
    SplitDropSpaces(s, |s| - |l|);
    SplitRStrip(l);
  }

  /** A line terminator does not change the tokens. */
  lemma SplitNewline(s: string)
    ensures Split(s + "\n") == Split(s)
  {
    assert s + "\n" == s + ['\n'] + "";
    SplitAtSpace(s, '\n', "");
  }

  /** A single token splits to itself. */
  lemma SplitToken(t: string)
    requires IsToken(t)
    ensures Split(t) == [t]
  {
    SplitJoin([t]);
  }

  /** Tokens joined by single spaces, plus a line terminator, split back into
      the same tokens. */
  lemma SplitJoinedLine(ts: seq<string>)
    requires forall i :: 0 <= i < |ts| ==> IsToken(ts[i])
    ensures Split(Join(ts, " ") + "\n") == ts
  {
    SplitNewline(Join(ts, " "));
    SplitJoin(ts);
  }

  // ---------------------------------------------------------------------------
  // Prefix, substring, replacement, lower case
  // ---------------------------------------------------------------------------

  /** Python's `s.startswith(p)`. */
  predicate StartsWith(s: string, p: string) {
    |p| <= |s| && s[..|p|] == p
  }

  /** Python's `p in s` for strings. */
  predicate Contains(s: string, p: string)
    decreases |s|
  {
    StartsWith(s, p) || (|s| > 0 && Contains(s[1..], p))
  }

  /** Python's `s.replace(pat, rep)`: every non-overlapping occurrence of `pat`,
      scanned left to right, replaced by `rep`. */
  function ReplaceAll(s: string, pat: string, rep: string): string
    requires |pat| > 0
    decreases |s|
  {
    if |s| < |pat| then s
    else if StartsWith(s, pat) then rep + ReplaceAll(s[|pat|..], pat, rep)
    else [s[0]] + ReplaceAll(s[1..], pat, rep)
  }

  /** `str.replace` leaves a string that lacks the pattern unchanged. */
  lemma {:induction false} ReplaceAbsent(s: string, pat: string, rep: string)
    requires |pat| > 0
    requires !Contains(s, pat)
    ensures ReplaceAll(s, pat, rep) == s
    decreases |s|
  {
    if |s| >= |pat| {
      ReplaceAbsent(s[1..], pat, rep);
      assert [s[0]] + s[1..] == s;
    }
  }

  /** A string shorter than a pattern does not contain it. */
  lemma {:induction false} ShortNotContains(s: string, p: string)
    requires |s| < |p|
    ensures !Contains(s, p)
    decreases |s|
  {
    if |s| > 0 {
      ShortNotContains(s[1..], p);
    }
  }

  /** `str.replace` copies a prefix none of whose characters can start the
      pattern. */
  lemma {:induction false} ReplaceKeepsPrefix(pre: string, rest: string, pat: string, rep: string)
    requires |pat| > 0
    requires forall k :: 0 <= k < |pre| ==> pre[k] != pat[0]
    ensures ReplaceAll(pre + rest, pat, rep) == pre + ReplaceAll(rest, pat, rep)
    decreases |pre|
  {
    if |pre| > 0 {
      var s := pre + rest;
      assert s[1..] == pre[1..] + rest;
      ReplaceKeepsPrefix(pre[1..], rest, pat, rep);
      ReplaceSkipsFirst(s, pat, rep);
      assert pre == [pre[0]] + pre[1..];
      assert [pre[0]] + (pre[1..] + ReplaceAll(rest, pat, rep)) == pre + ReplaceAll(rest, pat, rep);
    } else {
      assert pre + rest == rest;
    }
  }

  /** A first character that cannot start the pattern is copied. */
  lemma ReplaceSkipsFirst(s: string, pat: string, rep: string)
    requires |pat| > 0 && |s| > 0 && s[0] != pat[0]
    ensures ReplaceAll(s, pat, rep) == [s[0]] + ReplaceAll(s[1..], pat, rep)
  {
    if |s| < |pat| {
      ShortReplace(s[1..], pat, rep);
      assert [s[0]] + s[1..] == s;
    } else {
      assert s[..|pat|][0] == s[0];
    }
  }

  /** `str.replace` leaves a string shorter than the pattern alone. */
  lemma ShortReplace(s: string, pat: string, rep: string)
    requires 0 < |pat| && |s| < |pat|
    ensures ReplaceAll(s, pat, rep) == s
  {
  }

  /** `str.replace` on `pat + rest` replaces the leading occurrence. */
  lemma ReplaceLeading(pat: string, rest: string, rep: string)
    requires |pat| > 0
    ensures ReplaceAll(pat + rest, pat, rep) == rep + ReplaceAll(rest, pat, rep)
  {
    assert (pat + rest)[..|pat|] == pat;
    assert (pat + rest)[|pat|..] == rest;
  }

  function LowerChar(c: char): char {
    if 'A' <= c <= 'Z' then (c as int + 32) as char else c
  }

  /** Python's `s.lower()` on ASCII letters. */
  function Lower(s: string): (r: string)
    ensures |r| == |s|
  {
    seq(|s|, i requires 0 <= i < |s| => LowerChar(s[i]))
  }

  // ---------------------------------------------------------------------------
  // Integers: `str(n)` and `int(s)`
  // ---------------------------------------------------------------------------

  predicate IsDigit(c: char) {
    '0' <= c <= '9'
  }

  predicate AllDigits(s: string) {
    forall i :: 0 <= i < |s| ==> IsDigit(s[i])
  }

  function DigitChar(d: nat): (c: char)
    requires d < 10
    ensures IsDigit(c)
  {
    ('0' as int + d) as char
  }

  /** Decimal rendering of a natural number, most significant digit first. */
  function NatToString(n: nat): (r: string)
    ensures |r| > 0 && AllDigits(r)
  {
    if n < 10 then [DigitChar(n)] else NatToString(n / 10) + [DigitChar(n % 10)]
  }

  /** Python's `str(n)` for an int. */
  function IntToString(n: int): (r: string)
    ensures |r| > 0
  {
    if n < 0 then "-" + NatToString(-n) else NatToString(n)
  }

  /** The value of a string of decimal digits. */
  function DigitsValue(s: string): nat
    requires AllDigits(s)
  {
    if |s| == 0 then 0
    else DigitsValue(s[..|s| - 1]) * 10 + (s[|s| - 1] as int - '0' as int)
  }

  /** Python's `int(s)` on a decimal literal: surrounding whitespace, an
      optional sign and at least one digit; anything else is a ValueError. */
  function ParseInt(s: string): Option<int> {
    var t := Strip(s);
    if |t| > 1 && (t[0] == '-' || t[0] == '+') && AllDigits(t[1..]) then
      var v: int := DigitsValue(t[1..]);
      Some(if t[0] == '-' then -v else v)
    else if |t| > 0 && AllDigits(t) then
      Some(DigitsValue(t))
    else
      None
  }

  lemma {:induction false} DigitsOfNat(n: nat)
    ensures DigitsValue(NatToString(n)) == n
  {
    if n >= 10 {
      var s := NatToString(n);
      assert s[..|s| - 1] == NatToString(n / 10);
      DigitsOfNat(n / 10);
    }
  }

  /** `int(str(n)) == n`: rendering an integer and parsing it back is lossless. */
  lemma ParseRendered(n: int)
    ensures ParseInt(IntToString(n)) == Some(n)
  {
    var r := IntToString(n);
    var d := NatToString(if n < 0 then -n else n);
    DigitsOfNat(if n < 0 then -n else n);
    StripUnpadded(r);
    if n < 0 {
      assert r[1..] == d;
    }
  }

  /** A rendered integer is a single token of `split()`. */
  lemma RenderedIsToken(n: int)
    ensures IsToken(IntToString(n))
  {
  }

  // ---------------------------------------------------------------------------
  // Python slicing
  // ---------------------------------------------------------------------------

  /** Python's normalisation of a slice bound `i` against a length `n`. */
  function SliceBound(i: int, n: nat): (r: nat)
    ensures r <= n
  {
    if i < 0 then (if i + n < 0 then 0 else i + n)
    else if i > n then n
    else i
  }

  /** Python's `s[start:stop]`: out-of-range bounds are clamped, negative
      bounds count from the end, and an empty range gives `[]`. */
  function PySlice<T>(s: seq<T>, start: int, stop: int): (r: seq<T>)
    ensures |r| <= |s|
    ensures 0 <= start <= stop <= |s| ==> r == s[start..stop]
  {
    var a := SliceBound(start, |s|);
    var b := SliceBound(stop, |s|);
    if a < b then s[a..b] else []
  }

  /** A slice with a non-negative start no later than its stop: the stop is
      clamped to the length, and the slice is empty when nothing is left. */
  lemma PySliceForward<T>(s: seq<T>, start: nat, stop: int)
    requires start <= stop
    ensures var e := if stop <= |s| then stop else |s|;
      PySlice(s, start, stop) == if start < e then s[start..e] else []
  {
  }

  /** Element `k` of a forward slice is element `start + k` of `s`. */
  lemma PySliceAt<T>(s: seq<T>, start: nat, stop: int, k: nat)
    requires start <= stop && k < |PySlice(s, start, stop)|
    ensures start + k < |s| && PySlice(s, start, stop)[k] == s[start + k]
  {
    PySliceForward(s, start, stop);
  }
}

=== FILE: zero_normals.dfy ===
/** `change0.py`: overwrite the normal vector (tokens 3, 4 and 5 of every
    data row) with `0` and rewrite the row count.

    The script's guard is `len(parts) >= 5` although it writes `parts[5]`,
    so a row of exactly five tokens raises IndexError. `ZeroRowAsWritten`
    and `ReplaceNormalWithZeroAsWritten` model the script as it is;
    `ZeroRow` and `ReplaceNormalWithZero` use the guard `>= 6` the three
    assignments need. */
module ZeroNormals {
  import opened Results
  import opened Text
  import opened PlyHeader

  // ---------------------------------------------------------------------------
  // One row
  // ---------------------------------------------------------------------------

  /** The normal components: tokens 3, 4 and 5 of a row of at least six
      tokens. */
  predicate IsNormalSlot(i: int, width: int) {
    width >= 6 && 3 <= i < 6
  }

  /** The tokens with the normal slots set to "0". */
  function ZeroSlots(parts: seq<string>): (z: seq<string>)
    requires forall i :: 0 <= i < |parts| ==> IsToken(parts[i])
    ensures |z| == |parts|
    ensures forall i :: 0 <= i < |parts| ==> z[i] == if IsNormalSlot(i, |parts|) then "0" else parts[i]
    ensures forall i :: 0 <= i < |z| ==> IsToken(z[i])
  {
    if |parts| >= 6 then parts[3 := "0"][4 := "0"][5 := "0"] else parts
  }

  /** `out` has the tokens of `line`, with tokens 3..5 replaced by "0" when
      there are at least six. */
  predicate ZeroesNormal(out: string, line: string) {
    var a, b := Split(out), Split(line);
    && |a| == |b|
    && forall i :: 0 <= i < |b| ==> a[i] == if IsNormalSlot(i, |b|) then "0" else b[i]
  }

  /** The row as the corrected loop writes it: `' '.join(parts) + '\n'`
      after zeroing the normal of a row long enough to hold one. */
  function ZeroRow(line: string): (r: string)
    ensures ZeroesNormal(r, line)
  {
    var parts := Split(Strip(line));
    SplitStrip(line);
    SplitJoinedLine(ZeroSlots(parts));
    ZeroText(parts)
  }

  /** The tokens joined back into a line after zeroing the normal slots. */
  function ZeroText(parts: seq<string>): string
    requires forall i :: 0 <= i < |parts| ==> IsToken(parts[i])
  {
    Join(ZeroSlots(parts), " ") + "\n"
  }

  /** Zeroing the slots of tokens already zeroed changes nothing. */
  lemma ZeroTextOfZeroed(parts: seq<string>)
    requires forall i :: 0 <= i < |parts| ==> IsToken(parts[i])
    ensures ZeroText(ZeroSlots(parts)) == ZeroText(parts)
  {
    assert ZeroSlots(ZeroSlots(parts)) == ZeroSlots(parts);
  }

  /** The loop body as written: a row of exactly five tokens passes the
      guard and fails on `parts[5]`; every other row is written as the
      corrected loop writes it. */
  function ZeroRowAsWritten(line: string): (r: Result<string>)
    ensures r.Err? <==> |Split(line)| == 5
    ensures r.Ok? ==> r.value == ZeroRow(line)
  {
    var parts := Split(Strip(line));
    SplitStrip(line);
    if |parts| >= 5 then
      if |parts| < 6 then Err(IndexError("list assignment index out of range"))
      else Ok(ZeroText(parts))
    else Ok(Join(parts, " ") + "\n")
  }

  /** Zeroing a row twice is zeroing it once. */
  lemma ZeroRowIdempotent(line: string)
    ensures ZeroRow(ZeroRow(line)) == ZeroRow(line)
  {
    var parts := Split(Strip(line));
    var r := ZeroRow(line);
    SplitStrip(line);
    SplitStrip(r);
    SplitJoinedLine(ZeroSlots(parts));
    assert r == ZeroText(parts);
    assert Split(Strip(r)) == ZeroSlots(parts);
    assert ZeroRow(r) == ZeroText(ZeroSlots(parts));
    ZeroTextOfZeroed(parts);
  }

  /** The row `1 2 3 4 5` makes the script fail. */
  lemma FiveTokenRowFails()
    ensures ZeroRowAsWritten("1 2 3 4 5\n").Err?
  {
    var ts := ["1", "2", "3", "4", "5"];
    assert Join(ts[4..], " ") == "5";
    assert Join(ts[3..], " ") == "4 5";
    assert Join(ts[2..], " ") == "3 4 5";
    assert Join(ts[1..], " ") == "2 3 4 5";
    assert Join(ts, " ") + "\n" == "1 2 3 4 5\n";
    SplitJoinedLine(ts);
  }

  // ---------------------------------------------------------------------------
  // The file
  // ---------------------------------------------------------------------------

  /** Every data row written by the corrected loop, one per input line,
      blank lines included. */
  function ZeroRows(data: seq<string>): (rows: seq<string>)
    ensures |rows| == |data|
    ensures forall k :: 0 <= k < |data| ==> rows[k] == ZeroRow(data[k])
    decreases |data|
  {
    if |data| == 0 then []
    else
      var rest := ZeroRows(data[1..]);
      PointwiseCons(data, rest, ZeroRow);
      [ZeroRow(data[0])] + rest
  }

  /** Applying `f` to the first line in front of the tail's images gives
      every line's image. */
  lemma PointwiseCons(data: seq<string>, rest: seq<string>, f: string -> string)
    requires |data| > 0 && |rest| == |data| - 1
    requires forall k :: 0 <= k < |rest| ==> rest[k] == f(data[1..][k])
    ensures forall k :: 0 <= k < |data| ==> ([f(data[0])] + rest)[k] == f(data[k])
  {
    forall k | 0 < k < |data| ensures ([f(data[0])] + rest)[k] == f(data[k]) {
      assert data[1..][k - 1] == data[k];
    }
  }

  /** One row per line of `data`, each zeroing the normal of its line. */
  predicate ZeroesEach(rows: seq<string>, data: seq<string>) {
    |rows| == |data| && forall k :: 0 <= k < |data| ==> ZeroesNormal(rows[k], data[k])
  }

  /** Every written row zeroes the normal of its input line. */
  lemma ZeroRowsZero(data: seq<string>)
    ensures ZeroesEach(ZeroRows(data), data)
  {
    var rows := ZeroRows(data);
    forall k | 0 <= k < |data| ensures ZeroesNormal(rows[k], data[k]) {
      assert rows[k] == ZeroRow(data[k]);
    }
  }

  /** Every row of `data` but one of exactly five tokens. */
  predicate NoFiveTokenRow(data: seq<string>) {
    forall k :: 0 <= k < |data| ==> |Split(data[k])| != 5
  }

  lemma ZeroRowsCons(data: seq<string>)
    requires |data| > 0
    ensures ZeroRows(data) == [ZeroRow(data[0])] + ZeroRows(data[1..])
  {
  }

  lemma NoFiveTokenRowCons(data: seq<string>)
    requires |data| > 0
    ensures NoFiveTokenRow(data) <==> |Split(data[0])| != 5 && NoFiveTokenRow(data[1..])
  {
    assert forall k :: 0 < k < |data| ==> data[k] == data[1..][k - 1];
  }

  /** The row loop as written, stopping at the first five-token row. */
  function ZeroRowsAsWritten(data: seq<string>): (r: Result<seq<string>>)
    ensures r.Ok? <==> NoFiveTokenRow(data)
    ensures r.Ok? ==> r.value == ZeroRows(data)
    decreases |data|
  {
    if |data| == 0 then Ok([])
    else
      ZeroRowsCons(data);
      NoFiveTokenRowCons(data);
      var first :- ZeroRowAsWritten(data[0]);
      var rest :- ZeroRowsAsWritten(data[1..]);
      Ok([first] + rest)
  }

  /** Zeroing rows twice is zeroing them once. */
  lemma ZeroRowsIdempotent(data: seq<string>)
    ensures ZeroRows(ZeroRows(data)) == ZeroRows(data)
  {
    forall k | 0 <= k < |data|
      ensures ZeroRow(ZeroRow(data[k])) == ZeroRow(data[k])
    {
      ZeroRowIdempotent(data[k]);
    }
  }

  /** `replace_normal_with_zero` with the corrected guard: the header runs
      through the first line that strips to `end_header` (every line when
      there is none), the rows after it are zeroed, and the first
      `element vertex` line is rewritten to their number; the rest of the
      header is unchanged. */
  function ReplaceNormalWithZero(lines: seq<string>): (r: PlyLines)
    ensures ZeroesEach(r.data, lines[SplitAtSentinel(lines, IsStrippedEndHeader).dataStart..])
    ensures DeclaresCount(r.header, SplitAtSentinel(lines, IsStrippedEndHeader).header, |r.data|)
  {
    var sec := SplitAtSentinel(lines, IsStrippedEndHeader);
    ZeroRowsZero(lines[sec.dataStart..]);
    ZeroedFile(sec.header, ZeroRows(lines[sec.dataStart..]))
  }

  /** The header with its first vertex count set to the number of rows,
      followed by the rows. */
  function ZeroedFile(header: seq<string>, rows: seq<string>): (r: PlyLines)
    ensures r.data == rows
    ensures DeclaresCount(r.header, header, |rows|)
  {
    RewriteDeclaresCount(header, |rows|);
    PlyLines(RewriteFirstVertexLine(header, |rows|), rows)
  }

  /** `replace_normal_with_zero` as written: it fails exactly when a data row
      has five tokens, and otherwise writes what the corrected script writes. */
  function ReplaceNormalWithZeroAsWritten(lines: seq<string>): (r: Result<PlyLines>)
    ensures r.Ok? <==> NoFiveTokenRow(lines[SplitAtSentinel(lines, IsStrippedEndHeader).dataStart..])
    ensures r.Ok? ==> r.value == ReplaceNormalWithZero(lines)
  {
    var sec := SplitAtSentinel(lines, IsStrippedEndHeader);
    var rows :- ZeroRowsAsWritten(lines[sec.dataStart..]);
    Ok(PlyLines(RewriteFirstVertexLine(sec.header, |rows|), rows))
  }

  /** Running the corrected script on its own output writes the same file
      again, when the input has an `end_header` line. */
  lemma ReplaceNormalWithZeroIdempotent(lines: seq<string>)
    requires SplitAtSentinel(lines, IsStrippedEndHeader).dataStart > 0
    ensures var out := ReplaceNormalWithZero(lines);
      ReplaceNormalWithZero(out.header + out.data) == out
  {
    var sec := SplitAtSentinel(lines, IsStrippedEndHeader);
    var n := |lines| - sec.dataStart;
    var out := ReplaceNormalWithZero(lines);
    ResplitRewritten(lines, n, out.data);
    RewriteFirstVertexLineTwice(sec.header, n);
    ZeroRowsIdempotent(lines[sec.dataStart..]);
  }
}
